=== FILE: README.md ===
# Prismiq core, modelled in Dafny

Prismiq classifies Kepler objects of interest (KOI) as exoplanet, candidate or false
positive. This project models the logic of its core in Dafny and proves properties of
that model.

The backend part is the prediction service (`backend/main.py`):

- the fuzzy rule-based planet-type classifier (`membership`, `CLASS_SPECS`,
  `assign_planet_type_multi`);
- standard scores, outlier flags and the reliability score and label;
- the renaming of feature-importance keys;
- how `predict` combines these with the outputs of the trained classifiers.

The response service (`backend/services/response_service.py`) contributes:

- the heuristic atmosphere predictor;
- the upload, explorer and analysis response shapers.

The frontend part is the logic of these React pages and components:

- the analysis page: outliers become orbiting planets, plus the simulated trend and
  the feature-importance bars;
- the 3D and 2D star-system views;
- the explorer and anomaly pages: filters, the watchlist, pagination, sorting and the
  CSV report;
- the statistics page: metric cards, benchmarks, the live report preview, the CSV
  export and the confusion-matrix heatmap;
- the help page: search, suggestions, accordions and feedback;
- the notification bell;
- the upload page: guards, progress, the animated form fill and the templates.

One Dafny module stands for each source file. Four shared modules support them:

- `Wrappers`: `Option` and `Result`, plus the Python exceptions the code can raise;
- `Json`: the dictionaries and objects passed around;
- `Text`: ASCII lower-casing, substrings, join/split, integer and fixed-point number
  text, Python's round-half-even and JavaScript's `toFixed`;
- `Lists`: filter, count, find, insertion sort and maximum.

`Signals` holds the signal record, the chips and the pagination that the explorer and
anomaly pages share.

How the model represents the source:

- An exception the source would raise becomes an `Err` value.
- A missing value becomes `None`. NaN is also `None` wherever the source can produce
  it.
- Randomness, clocks, trigonometry and the trained models become parameters, each
  constrained by the facts the proofs need.

## Model

| member | source | states |
|---|---|---|
| Fuzzy.Membership | backend/main.py:119-147 | degree in [0, 1] whenever defined; raises (ZeroDivisionError) exactly for a soft-only triangle whose soft bounds and value coincide |
| Fuzzy.RatioBounds | backend/main.py:126 | a shoulder ratio of a non-negative part of a positive whole lies in [0, 1) and is positive iff the part is |
| Fuzzy.TriangleBounds | backend/main.py:142-146 | the soft-only triangle's degree lies in [0, 1] |
| Fuzzy.TrapezoidSupport | backend/main.py:122-129 | with soft bounds outside the primary band: degree 1 iff on the primary band, positive iff strictly inside the soft band |
| Fuzzy.TrapezoidRising | backend/main.py:123-126 | the trapezoid never falls up to the end of the primary band |
| Fuzzy.TrapezoidFalling | backend/main.py:123-128 | the trapezoid never rises from the start of the primary band |
| Fuzzy.RatioMonotone | backend/main.py:126-128 | dividing by a positive whole keeps order |
| Fuzzy.LowerOnly | backend/main.py:130-135 | lower primary bound alone: degree 1 at or above it; a soft lower bound of 0 is falsy and ignored, giving degree 0 below the bound |
| Fuzzy.UpperOnly | backend/main.py:136-141 | upper primary bound alone: degree 1 at or below it; a soft upper bound of 0 is ignored |
| Fuzzy.Triangle | backend/main.py:142-146 | the soft-only triangle is 1 at the midpoint, 0 outside the band, and symmetric about the midpoint |
| Fuzzy.NothingKnown | backend/main.py:120-147 | a missing value or a feature with no bound has degree 0 |
| Fuzzy.ClassNamesDistinct | backend/main.py:149-185 | the five class names are distinct, so the score dictionary has one entry per class |
| Fuzzy.SpecsWellFormed | backend/main.py:149-185 | every class spec can be scored without raising, weights sum to exactly 1, and Super-Earth can earn only 0.9 |
| Fuzzy.SuperEarthChecks | backend/main.py:150-156 | Super-Earth is well formed, weighs 1 and can earn 0.9 (its period entry has no bounds) |
| Fuzzy.MiniNeptuneChecks | backend/main.py:157-163 | Mini-Neptune is well formed, weighs 1 and can earn all of it |
| Fuzzy.NeptuneLikeChecks | backend/main.py:164-170 | Neptune-like is well formed, weighs 1 and can earn all of it |
| Fuzzy.GasGiantChecks | backend/main.py:171-177 | Gas Giant is well formed, weighs 1 and can earn all of it |
| Fuzzy.HotJupiterChecks | backend/main.py:178-184 | Hot Jupiter is well formed, weighs 1 and can earn all of it |
| Fuzzy.FeatureDegree | backend/main.py:192-200 | a feature's degree for a row lies in [0, 1] and is 0 for a feature with no bound |
| Fuzzy.Degrees | backend/main.py:191-200 | one degree per feature of the class, each in [0, 1] |
| Fuzzy.WeightedSum | backend/main.py:190-201 | `sum(w * score)` lies between 0 and the weight of the bounded features |
| Fuzzy.Weighted | backend/main.py:201 | one feature's contribution lies between 0 and its weight |
| Fuzzy.ClassScore | backend/main.py:189-202 | a class score lies between 0 and the class's earnable weight |
| Fuzzy.EarnableAtMostWeight | backend/main.py:149-185 | the earnable weight never exceeds the total weight |
| Fuzzy.ScoresOf | backend/main.py:188-202 | one score per class of a valid table, each in [0, 1] |
| Fuzzy.Scores | backend/main.py:188-202 | for the real table: five scores, each in [0, 1] |
| Fuzzy.ArgMax | backend/main.py:203 | `max(scores, key=scores.get)`: the first position holding the maximum |
| Fuzzy.AssignPlanetType | backend/main.py:187-204 | the best class is a table class whose score is maximal and strictly above every earlier class's |
| Fuzzy.SuperEarthCapped | backend/main.py:150-156 | Super-Earth can never score above 0.9 |
| Fuzzy.EmptyRowIsSuperEarth | backend/main.py:187-204 | a row with no features scores 0 everywhere and is assigned Super-Earth |
| Fuzzy.EmptyRowScoresZero | backend/main.py:188-202 | in any valid table an empty row scores 0 for every class |
| Fuzzy.TieGoesFirst | backend/main.py:203 | when all scores tie the first class wins |
| Fuzzy.NoFeaturesScoreZero | backend/main.py:190-202 | a class scores 0 for an empty row |
| Fuzzy.ZeroDegreesSumZero | backend/main.py:190-201 | all-zero degrees give a zero weighted sum |
| Scoring.KeyListsDistinct | backend/main.py:81-90 | feature keys and planet keys are repeat-free; the planet keys are the feature keys without inclination (also line 384) |
| Scoring.SafeStd | backend/main.py:228 | a zero deviation is replaced by 1, any other is kept |
| Scoring.ZStatOf | backend/main.py:226-231 | the recorded statistics give the value back: mean + z·std = value; with std 0 the z-score is value − mean |
| Scoring.ZScoresFrom | backend/main.py:222-232 | succeeds iff every position has a sample value and stored mean/std; one entry per key in key order; a missing key raises KeyError for a listed key |
| Scoring.ComputeZScores | backend/main.py:222-232 | `compute_zscores`: one entry per key in order, each reconstructing its value, exactly when all statistics are available |
| Scoring.Flags | backend/main.py:288 | exactly the entries with abs(z) > 3 are flagged, each with its own key and z |
| Scoring.FlagsAppend | backend/main.py:288 | flagging keeps dictionary order (distributes over concatenation) |
| Scoring.Extreme | backend/main.py:289 | true iff some abs(z) > 5 |
| Scoring.ExtremeIsFlagged | backend/main.py:288-289 | an extreme outlier implies at least one flag |
| Scoring.Penalty | backend/main.py:292 | `exp(-0.15 n)` lies in (0, 1], and is 1 with no outliers |
| Scoring.ReliabilityScore | backend/main.py:291-292 | the score is between 0 and the confidence, and equals it with no outliers |
| Scoring.Scale | backend/main.py:292 | scaling a non-negative value by a factor in (0, 1] stays between 0 and the value |
| Scoring.MulMonotone | backend/main.py:292 | multiplication by a non-negative factor keeps order |
| Scoring.ReliabilityNonIncreasing | backend/main.py:291-292 | more outliers never raise the reliability score |
| Scoring.ScaleMonotone | backend/main.py:292 | a larger factor never gives a smaller scaled value |
| Scoring.ReliabilityLabel | backend/main.py:234-240 | "High" iff > 0.8, "Medium" iff in (0.5, 0.8], "Low" iff ≤ 0.5 |
| Scoring.ReliabilityLabelMonotone | backend/main.py:234-240 | the label never goes down as the score goes up |
| Scoring.ExoplanetIffCodeZero | backend/main.py:111 | the label is "Exoplanet" exactly for code 0, so the planet stage runs exactly then (also lines 280, 353) |
| Scoring.PlanetLabelsAreRuleClasses | backend/main.py:103-109 | planet classifier labels are the rule table's class names position for position; a fallback label names no class (also line 367) |
| Scoring.RuleScore | backend/main.py:390 | `rule_scores.get(name, 0.0)`: the named class's score, or 0 when no class has that name |
| Scoring.RuleScoreFrom | backend/main.py:390 | the lookup from position c on finds the named class's score or yields 0 |
| Scoring.RuleScoreOfPlanetLabel | backend/main.py:367-390 | the looked-up rule score is the predicted class's score, and 0 for an unknown code |
| Scoring.MaxOf | backend/main.py:281 | `max(proba)`: defined iff non-empty, an element no element exceeds |
| Scoring.MaxOfProbabilities | backend/main.py:281 | the largest of probabilities is a probability (also line 366) |
| Scoring.PlanetReliability | backend/main.py:389-390 | for a top probability in [0, 1] the planet reliability lies between 0 and the chosen class's rule score |
| Scoring.Times | backend/main.py:390 | a fraction in [0, 1] of a non-negative quantity is at most that quantity |
| Scoring.FractionOf | backend/main.py:390 | same bound as a lemma |
| Scoring.RenameKey | backend/main.py:302-307 | keys not starting with `f` are kept; a renamed key is either itself or one of the pretty names |
| Scoring.RenameBoosterKey | backend/main.py:303-305 | `f0`…`f7` become the pretty names at those positions; `f8` and beyond are kept |
| Scoring.RenameAll | backend/main.py:301-308 | for any renaming, when the loop completes the last key's new name maps to the last weight |
| Scoring.RenameAllOk | backend/main.py:301-308 | for any renaming, the loop completes iff every key can be renamed |
| Scoring.RenameAllKeys | backend/main.py:301-308 | for any renaming, the result's keys are exactly the names the keys are renamed to |
| Scoring.RenameImportance | backend/main.py:301-308 | when the loop completes, the last key's renamed name maps to the last weight (later entries overwrite) |
| Scoring.RenameImportanceOk | backend/main.py:301-308 | the loop completes iff every key can be renamed |
| Scoring.RenamedKeys | backend/main.py:301-308 | the result's keys are exactly the names the keys are renamed to |
| Scoring.RenameAllLastWins | backend/main.py:301-308 | for any renaming, every name in the map carries the weight of the last entry renamed to it |
| Scoring.RenameAllKeeps | backend/main.py:301-308 | an entry that no later entry shares a name with keeps its weight under its new name |
| Scoring.ImportanceLastWins | backend/main.py:301-308 | every display name has the weight of the last booster key renamed to it |
| Scoring.BoosterWeight | backend/main.py:303-308 | `f<i>` with i < 8 gives its weight to the i-th display name unless a later key takes that name |
| Scoring.PlainKeysKept | backend/main.py:306-308 | a key not starting with `f` is copied with the weight of its last occurrence, whatever the other keys are |
| Scoring.Sample | backend/main.py:265-274 | the sample row has one value per feature in training order |
| Scoring.PlanetSample | backend/main.py:354-361 | the planet features are the sample without inclination (index 5) |
| Scoring.PlanetRow | backend/main.py:373-380 | the rule scorer's row holds exactly the six planet keys with their sample values |
| Scoring.Predict | backend/main.py:262-419 | succeeds iff the classification half does and, for code 0, the planet probabilities are non-empty; the payload is the classification half plus, exactly for code 0, the planet stage; confidence is the top probability, reliability bounded by it; the rule type is the fuzzy assignment |
| Scoring.WithPlanet | backend/main.py:404 | adding the planet stage leaves every other field, code and importance included, unchanged |
| Scoring.KoiOutcome | backend/main.py:277-348 | succeeds iff the probabilities are non-empty, every feature has stored statistics and every importance key renames; the z-scores, flags, extreme flag, discounted score and renamed importance are those of the statistics functions |
| Scoring.PlanetStageOf | backend/main.py:364-417 | succeeds iff the planet probabilities are non-empty and every planet feature has statistics, a missing statistic being the error reported first as in lines 385-390; reports the rule assignment, agreement iff equal names, the planet z-scores, flags and extreme flag, and the planet reliability of the top probability, at most the rule score of the ML type |
| Scoring.PlanetZScoresOk | backend/main.py:354-385 | once the KOI z-scores succeed the planet ones do too, and they are the KOI entries without inclination |
| Scoring.SubKeysZScores | backend/main.py:222-232 | scoring a selection of the keys succeeds when scoring all does, and gives the selected entries |
| Scoring.SubKeysOk | backend/main.py:222-232 | a selection of scorable keys is scorable |
| Scoring.SubKeyEntry | backend/main.py:222-232 | a selected entry equals the entry at its original position |
| Scoring.ZEntryOf | backend/main.py:226-231 | an entry is determined by its key, its value and its key's stored statistics |
| Scoring.StageOf | backend/main.py:381-417 | the assembled planet stage keeps the z-scores, flags exactly the entries above 3, and scores the planet reliability of its flag count |
| Atmosphere.FmtPct | backend/services/response_service.py:8-14 | "N/A" iff missing or non-finite; "Trace" iff ≤ 0.05; otherwise a share with its spread |
| Atmosphere.PctText | backend/services/response_service.py:11-14 | the printed text is never empty |
| Atmosphere.PctTextKinds | backend/services/response_service.py:8-14 | the three kinds of text cannot be confused: only a share carries '±' |
| Atmosphere.SampleWithNoise | backend/services/response_service.py:17-19 | the sample is never negative and equals centre + draw when that is non-negative |
| Atmosphere.SampleWithinJitter | backend/services/response_service.py:17-19 | a draw within the jitter keeps the sample within the jitter of the centre (clamped at 0) |
| Atmosphere.TempBucket | backend/services/response_service.py:71-80 | unknown / cold < 250 / habitable 250-350 / warm (350, 1000] / hot > 1000, each as an iff |
| Atmosphere.Branch | backend/services/response_service.py:37-124 | the tree before the override names at least three gases |
| Atmosphere.PredictAtmosphere | backend/services/response_service.py:23-137 | Teq > 1000 gives the hot override; otherwise the tree's branch |
| Atmosphere.GasGiantIsHigh | backend/services/response_service.py:38-50 | the gas-giant branch is rated High, never habitable, and names the giant gases unless overridden (also lines 127-135) |
| Atmosphere.MiniNeptuneIsMedium | backend/services/response_service.py:53-65 | the mini-Neptune branch is Medium with its four gases unless overridden |
| Atmosphere.HabitableIff | backend/services/response_service.py:68-97 | habitable iff rocky (neither branch), radius ≤ 1.5 (missing = 1) and temperature in [250, 350] (also lines 127-135) |
| Atmosphere.MissingRadiusIsEarthSized | backend/services/response_service.py:69-97 | no type, no radius and a temperate Teq give the temperate atmosphere |
| Atmosphere.NothingKnownIsSuperEarth | backend/services/response_service.py:68-124 | nothing known gives the Super-Earth atmosphere, Medium, not habitable |
| Atmosphere.ConfidenceLevels | backend/services/response_service.py:49 | High iff override or gas giant; Low iff small rocky planet in the cold/warm bucket (also lines 64, 95, 109, 123, 133) |
| Atmosphere.ShareText | backend/services/response_service.py:39-47 | a noisy share never prints "N/A" and its percentage is non-negative with its own spread |
| Atmosphere.NoisyTraceOnlyNearZero | backend/services/response_service.py:12-19 | a noisy share prints "Trace" only if its range reaches down to 0.05 |
| Responses.Strings | backend/services/response_service.py:142-150 | a list of strings as JSON strings, position for position |
| Responses.MlPrediction | backend/services/response_service.py:156-171 | `ml_prediction` of the planet stage, None without one; fails iff the stage is not a dictionary |
| Responses.LabelOf | backend/services/response_service.py:155-170 | `raw["reliability"]["label"]`, with KeyError when absent |
| Responses.OutlierLineRoundTrip | backend/services/response_service.py:146 | the outlier count written in the default log line reads back |
| Responses.DefaultLogs | backend/services/response_service.py:142-150 | seven lines, the fourth reporting the outlier count |
| Responses.FormatUploadResponse | backend/services/response_service.py:141-159 | succeeds iff the stored analysis has the fields it reads; the response has exactly the seven keys, copies prediction, confidence and label, and uses stored logs or the default ones; errors as Python raises them |
| Responses.UploadLogCountsOutliers | backend/services/response_service.py:142-150 | without stored logs the fourth line reads back the outlier count |
| Responses.PyRound | backend/services/response_service.py:169 | `round(x, 3)` rounds numbers half to even; fails on non-numbers |
| Responses.ExplorerEntry | backend/services/response_service.py:164-173 | an entry exists iff the stored result has its fields; exactly the six keys; confidence rounded |
| Responses.FormatExplorerResponse | backend/services/response_service.py:162-174 | one entry per row in order iff every row is well formed; otherwise the first failing row's error |
| Responses.ExplorerConfidenceRounded | backend/services/response_service.py:169 | each listed confidence is within half a thousandth of the stored one and on the 0.001 grid |
| Responses.ToFloat | backend/services/response_service.py:32-33 | `float(x)` keeps numbers; only non-numbers can fail |
| Responses.OptFloat | backend/services/response_service.py:32-33 | None stays None, a number is kept |
| Responses.TypeName | backend/services/response_service.py:31 | `(planet_type or "")`: falsy → no name, a string is kept, anything else truthy fails at `.lower()` |
| Responses.PlanetFactsOf | backend/services/response_service.py:180-187 | no planet stage → all missing; a non-dictionary stage raises AttributeError |
| Responses.AtmosphereOf | backend/services/response_service.py:189-194 | succeeds iff the type name and both numbers convert; the result is `predict_atmosphere` of the converted values, naming ≥ 3 gases |
| Responses.ConfidencePercent | backend/services/response_service.py:199-200 | a number prints ×100 with two decimals; fails iff not numeric |
| Responses.GasList | backend/services/response_service.py:204-205 | a non-empty gas list gives non-empty text |
| Responses.Stamped | backend/services/response_service.py:197-206 | each log line is its clock reading in brackets followed by its text |
| Responses.AnalysisLogs | backend/services/response_service.py:197-207 | seven lines, each stamped; the sixth lists the atmosphere's gases |
| Responses.Assemble | backend/services/response_service.py:178-207 | the response copies every stored field except the two it sets, plus atmosphere and logs |
| Responses.FormatAnalysisResponse | backend/services/response_service.py:177-209 | succeeds iff the facts extract, the atmosphere call succeeds, the confidence is a number or bool and the reliability is a dictionary; the atmosphere is that of the extracted facts; the response is shaped as above; a non-dictionary stage raises |
| Responses.Respond | backend/services/response_service.py:196-209 | once the atmosphere is known, the response succeeds iff the confidence formats and the reliability is a dictionary, and it is shaped |
| Responses.StageAtmosphere | backend/services/response_service.py:181-194 | a stage naming its type with numeric radius and temperature values gets exactly `predict_atmosphere` of those three |
| Responses.NoPlanetTypeIsSuperEarth | backend/services/response_service.py:181-194 | an analysis without a planet stage gets the Super-Earth atmosphere, Medium, not habitable (also lines 68-124) |
| Analysis.OutlierColor | frontend/src/pages/Analysis.tsx:68-73 | red iff z ≥ 9, orange iff 7 ≤ z < 9, cyan otherwise (a missing z compares false) |
| Analysis.PlanetRadius | frontend/src/pages/Analysis.tsx:65 | `max(1, abs(z)/2)`: defined iff z is, at least both arguments and equal to one of them |
| Analysis.AnomalyNearZ | frontend/src/pages/Analysis.tsx:76 | the anomaly is the z-score to within half a hundredth |
| Analysis.ConfidenceText | frontend/src/pages/Analysis.tsx:74 | "N/A" exactly for a missing or zero confidence; otherwise `toFixed(1)` of the confidence times 100, a decimal with a point |
| Analysis.ReliabilityOf | frontend/src/pages/Analysis.tsx:75 | `score \|\| 0`: the score if truthy, otherwise 0 |
| Analysis.OutlierNamesDistinct | frontend/src/pages/Analysis.tsx:64 | different positions give different names |
| Analysis.ToPlanet | frontend/src/pages/Analysis.tsx:63-77 | name, orbit 0.2 + 0.15 i and period 8 + 4 i; no screen offsets |
| Analysis.MapOutliers | frontend/src/pages/Analysis.tsx:63 | no outliers → no planets; otherwise one planet per outlier in order |
| Analysis.PlanetsLayout | frontend/src/pages/Analysis.tsx:63-77 | strictly widening orbits and longer periods (≥ 8), distinct names, radius ≥ 1 when known |
| Analysis.NextTrend | frontend/src/pages/Analysis.tsx:47-53 | a new point one step later; the oldest is dropped once 12 are held |
| Analysis.InitialTrendIsWindow | frontend/src/pages/Analysis.tsx:18-24 | the initial trend is a window of consecutive times |
| Analysis.TrendStaysWindow | frontend/src/pages/Analysis.tsx:47-53 | every tick keeps 1..12 points at consecutive times |
| Analysis.TrendStepBounded | frontend/src/pages/Analysis.tsx:50 | a tick moves the O₂ level by at most 0.2 plus the rounding |
| Analysis.Divisor | frontend/src/pages/Analysis.tsx:169 | `max(...weights) \|\| 1` is never 0 |
| Analysis.Widths | frontend/src/pages/Analysis.tsx:171-173 | one width per weight |
| Analysis.WidthsBounded | frontend/src/pages/Analysis.tsx:168-173 | with non-negative weights every width is in [0, 100], the largest is 100, and all are 0 when every weight is 0 |
| StarSystem.AngleShift | frontend/src/components/StarSystem.tsx:29 | one more period is one more full turn |
| StarSystem.Place | frontend/src/components/StarSystem.tsx:28-34 | only x and y change; they are defined iff the period is non-zero |
| StarSystem.BoundedCoord | frontend/src/components/StarSystem.tsx:32-33 | a cosine or sine times orbit times a scale lies within orbit times that scale of the centre |
| StarSystem.PlaceBounded | frontend/src/components/StarSystem.tsx:32-33 | a placed planet stays inside its 200·orbit by 120·orbit box |
| StarSystem.PlacePeriodic | frontend/src/components/StarSystem.tsx:29-33 | after one period the planet is back where it was |
| StarSystem.Frame | frontend/src/components/StarSystem.tsx:27-35 | one placed planet per planet, nothing else changed |
| StarSystem.AnalysisPlanetsPlaced | frontend/src/components/StarSystem.tsx:27-35 | every analysis planet gets a position within its box |
| StarSystem.Animate | frontend/src/components/StarSystem.tsx:22-41 | as written: with no planets the view is left as it was; otherwise one position per planet |
| StarSystem.StalePositions | frontend/src/components/StarSystem.tsx:23 | when the list empties, old positions are kept |
| StarSystem.AnimateFixed | frontend/src/components/StarSystem.tsx:22-41 | corrected: positions always mirror the current planets |
| StarSystem.AnimateFixedMatchesRings | frontend/src/components/StarSystem.tsx:89-105 | corrected: one body per orbit ring |
| StarSystem.AnimateAgrees | frontend/src/components/StarSystem.tsx:22-41 | with planets present the two versions agree |
| StarSystem.Enter | frontend/src/components/StarSystem.tsx:111 | hovering records the planet and keeps positions |
| StarSystem.Leave | frontend/src/components/StarSystem.tsx:112 | leaving clears the hover and keeps positions |
| StarSystem.Scale | frontend/src/components/StarSystem.tsx:124 | 1.3 iff the hovered planet has this name, otherwise 1 |
| StarSystem.LeaveUnscales | frontend/src/components/StarSystem.tsx:112-124 | after leaving nothing is enlarged |
| StarSystem.HoverScalesOne | frontend/src/components/StarSystem.tsx:111-124 | at most one analysis planet is enlarged, and the entered one is |
| StarSystem.BaseColor | frontend/src/components/StarSystem.tsx:43-47 | the three colour words map to hex codes, others pass through (also line 106) |
| StarSystem.AnalysisColorsUnmapped | frontend/src/components/StarSystem.tsx:106 | the analysis page's hex colours pass through unchanged |
| StarSystem.Glow | frontend/src/components/StarSystem.tsx:117 | 25 iff anomaly > 8, else 12 |
| StarSystem.Size | frontend/src/components/StarSystem.tsx:114-115 | defined iff the radius is, equal to radius × anomaly |
| StarSystem.SizeSign | frontend/src/components/StarSystem.tsx:114-115 | with a positive radius the size has the anomaly's sign |
| StarSystem.Draw | frontend/src/components/StarSystem.tsx:105-127 | a body with the mapped colour, glow and position |
| StarSystem.Bodies | frontend/src/components/StarSystem.tsx:105 | one body per stored position |
| StarSystem.Rings | frontend/src/components/StarSystem.tsx:89-101 | one ring per planet, 300·orbit by 180·orbit |
| StarSystem.RingsNested | frontend/src/components/StarSystem.tsx:89-101 | later analysis planets get strictly larger rings |
| StarSystem.StaleBodiesWithoutRings | frontend/src/components/StarSystem.tsx:23 | as written, after the list empties bodies remain with no rings (also lines 89, 105) |
| StarSystem2D.BaseColor | frontend/src/components/StarSystem2D.tsx:68-70 | red iff anomaly > 70, orange iff in (30, 70], cyan otherwise |
| StarSystem2D.Size | frontend/src/components/StarSystem2D.tsx:73 | `max(6, radius·6)` |
| StarSystem2D.Glow | frontend/src/components/StarSystem2D.tsx:76 | `min(10 + 0.2·anomaly, 40)` |
| StarSystem2D.GlowMonotone | frontend/src/components/StarSystem2D.tsx:76 | glow never falls as the anomaly grows and is capped at 40 from 150 |
| StarSystem2D.Alpha | frontend/src/components/StarSystem2D.tsx:77 | "66" iff anomaly > 70 |
| StarSystem2D.AlphaWithRed | frontend/src/components/StarSystem2D.tsx:69-77 | the stronger alpha goes exactly with red |
| StarSystem2D.Offset | frontend/src/components/StarSystem2D.tsx:89-90 | `x \|\| 0`: missing/NaN is 0 |
| StarSystem2D.Draw | frontend/src/components/StarSystem2D.tsx:66-95 | a body from the planet's anomaly, radius and offsets |
| StarSystem2D.Bodies | frontend/src/components/StarSystem2D.tsx:66 | one body per planet |
| StarSystem2D.Rings | frontend/src/components/StarSystem2D.tsx:51-63 | one 280·orbit by 170·orbit ring per planet |
| StarSystem2D.RingPerBody | frontend/src/components/StarSystem2D.tsx:51-66 | as many rings as bodies |
| StarSystem2D.AnalysisBodiesCentred | frontend/src/components/StarSystem2D.tsx:89-90 | analysis planets (no offsets) are drawn at the centre |
| StarSystem2D.RingsNested | frontend/src/components/StarSystem2D.tsx:51-63 | later analysis planets get strictly larger rings |
| Signals.InBucket | frontend/src/pages/Explorer.tsx:48-55 | each chip's outlier-count range; unknown chips keep everything |
| Signals.BucketsCoverAndOverlap | frontend/src/pages/Explorer.tsx:50-53 | the four chips cover every non-negative count and share the counts 3, 7 and 9 |
| Signals.ByBucket | frontend/src/pages/Anomalies.tsx:44-51 | exactly the signals in the chip's range |
| Signals.UnknownChipKeepsAll | frontend/src/pages/Explorer.tsx:54 | an unknown chip keeps every signal |
| Signals.Page | frontend/src/pages/Explorer.tsx:56-59 | page p is the slice from 8(p−1), at most 8 long, empty past the end |
| Signals.PagesPrefix | frontend/src/pages/Explorer.tsx:56-59 | the first n pages together are the first 8n items |
| Signals.PageCount | frontend/src/pages/Explorer.tsx:227 | `ceil(n/8)`: enough pages, and no empty last page |
| Signals.AllPages | frontend/src/pages/Explorer.tsx:227 | all button pages together are the whole list |
| Signals.ButtonPagesNonEmpty | frontend/src/pages/Explorer.tsx:227-233 | every page button leads to a non-empty page |
| Signals.EmptySlots | frontend/src/pages/Explorer.tsx:207-208 | empty slots fill the page up to 8 |
| Signals.SlotsFilled | frontend/src/pages/Explorer.tsx:207-208 | cards plus empty slots are always 8 |
| Signals.PaginationIffSeveralPages | frontend/src/pages/Explorer.tsx:216 | the bar shows iff there is more than one page |
| Signals.Prev | frontend/src/pages/Explorer.tsx:222 | `max(1, p − 1)` |
| Signals.NextStopsAtLast | frontend/src/pages/Explorer.tsx:242-243 | from a page button, while "next" is enabled the next page exists and is non-empty (a page kept across a chip change is `Signals.KeptPagePastLast`) |
| Signals.ChipBar | frontend/src/pages/Explorer.tsx:216-245 | the bar of a chip's signals: shown iff more than one page, one button per page, "next" disabled exactly on the last |
| Signals.Step | frontend/src/pages/Explorer.tsx:216-245 | one click: a chip button (line 132) sets the chip and keeps the page as written, or resets it to 1 when corrected; page changes need the shown bar; a page button stays within the buttons; "next" moves on by one only when enabled; "prev" never moves forward |
| Signals.Run | frontend/src/pages/Explorer.tsx:20-21 | a run of clicks from a view, each on the bar of the current chip |
| Signals.StepInRange | frontend/src/pages/Explorer.tsx:216-245 | corrected: every click keeps the page within the current chip's pages (or 1) |
| Signals.RunInRange | frontend/src/pages/Explorer.tsx:216-245 | corrected: any run of clicks keeps the page within the chip's pages (or 1) |
| Signals.InRangePages | frontend/src/pages/Explorer.tsx:242-243 | a page in range shows items when there are any, and enabled "next" leads to a page with items |
| Signals.ResetNextNonEmpty | frontend/src/pages/Explorer.tsx:242-243 | corrected: after any clicks from the start, a chip with signals shows some, and enabled "next" never reaches an empty page |
| Signals.KeptPagePastLast | frontend/src/pages/Explorer.tsx:132 | as written: a page kept past the chip's last page shows nothing while the bar shows and "next" stays enabled onto another empty page |
| Signals.ChipKeepsPageExample | frontend/src/pages/Explorer.tsx:132 | as written: 17 signals, button "3", then a chip keeping 9 leaves page 3, empty, with "next" enabled onto empty page 4 |
| Explorer.Fetched | frontend/src/pages/Explorer.tsx:28-32 | keeps exactly the signals that are not false positives |
| Explorer.FetchedInOrder | frontend/src/pages/Explorer.tsx:29-32 | the fetch filter keeps order |
| Signals.Shown | frontend/src/pages/Explorer.tsx:48-59 | at most 8 signals on a page, each a signal of the chip (the same page logic as Anomalies.tsx lines 44-56); whether they render as cards is `Explorer.Render` |
| Explorer.StatusColor | frontend/src/pages/Explorer.tsx:38-44 | green exactly for "exoplanet", yellow exactly for "candidate", grey otherwise, case aside |
| Explorer.CardOf | frontend/src/pages/Explorer.tsx:147-200 | throws exactly on a missing prediction; otherwise the badge is the prediction up to case in its status colour, the title is non-empty and is the planet type when there is one, the confidence text has a decimal point |
| Explorer.Cards | frontend/src/pages/Explorer.tsx:147 | one card per signal in order, or a throw exactly when some signal lacks a prediction |
| Explorer.Render | frontend/src/pages/Explorer.tsx:147-200 | the page renders exactly when every shown signal has a prediction, with one card per shown signal in order |
| Explorer.PredictedSignalsRender | frontend/src/pages/Explorer.tsx:147-161 | signals that all carry a prediction render on every chip and page |
| Explorer.MissingPredictionThrows | frontend/src/pages/Explorer.tsx:28-32 | a signal without a prediction survives the fetch filter and makes the "All" page throw while rendering (lines 159-161) |
| Explorer.ShownPagesCoverChip | frontend/src/pages/Explorer.tsx:216-237 | the button pages together are exactly the chip's signals |
| Explorer.ApplyFilter | frontend/src/pages/Explorer.tsx:83-87 | "All" keeps everything; otherwise the signals whose prediction matches the name case aside, and a missing prediction throws |
| Explorer.FilterButtonChip | frontend/src/pages/Explorer.tsx:84-118 | the Filter button's chip name matches no bucket, so the chip filter keeps what the button kept |
| Explorer.HandleSort | frontend/src/pages/Explorer.tsx:88-97 | the sorted list is a permutation |
| Explorer.SortNumberDescending | frontend/src/pages/Explorer.tsx:91-92 | number keys sort descending |
| Explorer.SortTextAscending | frontend/src/pages/Explorer.tsx:94 | text keys sort ascending by `localeCompare` |
| Explorer.ReportFields | frontend/src/pages/Explorer.tsx:66-73 | six fields per signal |
| Explorer.ReportLines | frontend/src/pages/Explorer.tsx:66-73 | one line per signal |
| Explorer.Report | frontend/src/pages/Explorer.tsx:62-74 | no report iff there are no signals |
| Explorer.ReportReadsBack | frontend/src/pages/Explorer.tsx:62-74 | without commas or newlines in its fields, the report splits back into the header and each signal's six fields |
| Explorer.HeaderPlain | frontend/src/pages/Explorer.tsx:65 | the header has no separators inside fields |
| Explorer.FieldsPlain | frontend/src/pages/Explorer.tsx:66-73 | plain text fields make a line without inner separators |
| Explorer.NumbersPlain | frontend/src/pages/Explorer.tsx:67-72 | numeric fields contain no separator |
| Anomalies.Retained | frontend/src/pages/Anomalies.tsx:29-31 | keeps exactly the false positives |
| Anomalies.RetainedIsComplement | frontend/src/pages/Anomalies.tsx:29-31 | the anomaly page keeps exactly what the explorer drops |
| Anomalies.Watchlist | frontend/src/pages/Anomalies.tsx:32-34 | min(3, n) entries, a sub-multiset of the fetched false positives |
| Anomalies.SortedByCount | frontend/src/pages/Anomalies.tsx:33 | sorted lists are descending by outlier count |
| Anomalies.WatchlistIsSortedHead | frontend/src/pages/Anomalies.tsx:32-34 | the watchlist is the head of the sorted list |
| Anomalies.WatchlistDescending | frontend/src/pages/Anomalies.tsx:32-34 | the watchlist is descending by outliers |
| Anomalies.WatchlistTop | frontend/src/pages/Anomalies.tsx:32-34 | every watchlist member has at least as many outliers as anything left out |
| Anomalies.TopOfSorted | frontend/src/pages/Anomalies.tsx:32-34 | the first k of a sorted list dominate the rest |
| Anomalies.TiedIffSameCount | frontend/src/pages/Anomalies.tsx:33 | two signals tie under the comparator iff their outlier counts are equal |
| Anomalies.WatchlistKeepsFetchOrder | frontend/src/pages/Anomalies.tsx:32-34 | signals with equal counts stay in fetch order, so the watchlist takes the ones fetched first |
| Anomalies.MoreOutliersTransitive | frontend/src/pages/Anomalies.tsx:33 | the comparator is transitive |
| Anomalies.LaterIndex | frontend/src/pages/Anomalies.tsx:34 | an element of the tail has a position in it |
| Anomalies.BadgeTier | frontend/src/pages/Anomalies.tsx:93-109 | red iff ≥ 9, orange iff 7-8, yellow iff < 7 |
| Anomalies.TierMatchesChips | frontend/src/pages/Anomalies.tsx:49-108 | red exactly for the Critical chip's counts, orange only inside the High chip |
| Anomalies.BarAsWritten | frontend/src/pages/Anomalies.tsx:235-264 | as written: visibility and the next button count all false positives; the page buttons count the chip's |
| Anomalies.NextPastChipPages | frontend/src/pages/Anomalies.tsx:235-264 | as written: "next" stays enabled on the chip's last page and leads to an empty page |
| Anomalies.NextPastChipPagesExample | frontend/src/pages/Anomalies.tsx:235-264 | one critical signal among nine: page 2 is empty but reachable |
| Anomalies.BarFixed | frontend/src/pages/Anomalies.tsx:235-264 | corrected: visible iff more than one page; next disabled iff on the last button page |
| Anomalies.BarFixedNextNonEmpty | frontend/src/pages/Anomalies.tsx:258-264 | corrected bar, from a page button: "next" never reaches an empty page |
| Anomalies.FixedNextNonEmpty | frontend/src/pages/Anomalies.tsx:173 | corrected bar with the page reset on a chip change: after any clicks from the start, "next" never reaches an empty page and a chip with signals shows some |
| Statistics.Lookup | frontend/src/pages/Statistics.tsx:88 | `report[key]`: the first entry of that class, else undefined |
| Statistics.Prop | frontend/src/pages/Statistics.tsx:88 | `?.[key]`: the property if present, else undefined |
| Statistics.OrZero | frontend/src/pages/Statistics.tsx:88 | `?? 0`: null and undefined become 0, others are kept |
| Statistics.Metrics | frontend/src/pages/Statistics.tsx:85-114 | four cards in order; the accuracy card repeats `accuracy ?? 0` |
| Statistics.CardsDefaultZero | frontend/src/pages/Statistics.tsx:85-114 | no card field is ever null or undefined |
| Statistics.CardReadsReport | frontend/src/pages/Statistics.tsx:88-104 | a card shows the metric of the class entry when present |
| Statistics.EmptyReportCards | frontend/src/pages/Statistics.tsx:85-106 | an empty report gives all-zero metric cards |
| Statistics.Benchmarks | frontend/src/pages/Statistics.tsx:122-133 | the current model's benchmark, then TESS and Kepler |
| Statistics.BenchmarkMatchesCards | frontend/src/pages/Statistics.tsx:91-123 | the current benchmark shows the same F1 and precision as the card values |
| Statistics.Strip | frontend/src/pages/Statistics.tsx:257-262 | an object loses exactly the disabled metrics; everything else is kept |
| Statistics.StripIdempotent | frontend/src/pages/Statistics.tsx:257-262 | deleting again removes nothing more |
| Statistics.StripAllOn | frontend/src/pages/Statistics.tsx:257-262 | with every switch on nothing is deleted |
| Statistics.StripReport | frontend/src/pages/Statistics.tsx:257-262 | deletions per entry, order kept |
| Statistics.FilteredReport | frontend/src/pages/Statistics.tsx:247-266 | corrected: none without data; all classes or the one selected class, each stripped |
| Statistics.FilteredAllOn | frontend/src/pages/Statistics.tsx:247-266 | all classes and all switches on: the preview is the report |
| Statistics.FilteredReportAsWritten | frontend/src/pages/Statistics.tsx:247-266 | as written: the same preview, but the data's own class objects lose the disabled metrics |
| Statistics.ToggleLosesMetric | frontend/src/pages/Statistics.tsx:249 | as written: precision off then on leaves no precision in the preview (also lines 259, 713) |
| Statistics.ToggleLosesMetricExample | frontend/src/pages/Statistics.tsx:167-183 | class "0" with precision 0.9 previews as `{}` and exports as "0,,," after a toggle (also lines 247-266) |
| Statistics.ToggleRestoresMetric | frontend/src/pages/Statistics.tsx:247-266 | corrected: switching back on shows the report as it was |
| Statistics.RowFields | frontend/src/pages/Statistics.tsx:171-180 | four fields, the class first |
| Statistics.Rows | frontend/src/pages/Statistics.tsx:171-180 | one row per class entry |
| Statistics.Lines | frontend/src/pages/Statistics.tsx:178-182 | the header line then one line per row |
| Statistics.ExportCsv | frontend/src/pages/Statistics.tsx:167-183 | no file iff no data or some entry is null/undefined (reading its metric throws) |
| Statistics.NumberEntryRow | frontend/src/pages/Statistics.tsx:171-176 | a numeric entry (like "accuracy") exports empty metrics |
| Statistics.ClassEntryRow | frontend/src/pages/Statistics.tsx:171-176 | a class entry exports its three metrics |
| Statistics.CsvReadsBack | frontend/src/pages/Statistics.tsx:167-183 | plain rows split back into the header and each row's fields |
| Statistics.LinesPlain | frontend/src/pages/Statistics.tsx:182-183 | plain rows give lines without newlines |
| Statistics.CsvHeaderPlain | frontend/src/pages/Statistics.tsx:179 | the header has no separators inside fields |
| Statistics.Flat | frontend/src/pages/Statistics.tsx:629 | a non-empty matrix flattens to a non-empty list |
| Statistics.CellInFlat | frontend/src/pages/Statistics.tsx:629 | every cell is in the flattened list |
| Statistics.FlatHoldsCells | frontend/src/pages/Statistics.tsx:629 | every flattened value is some cell |
| Statistics.Round | frontend/src/pages/Statistics.tsx:631 | `Math.round`: the nearest integer, halves up |
| Statistics.MaxVal | frontend/src/pages/Statistics.tsx:630 | the largest cell, or 1 for an empty matrix |
| Statistics.IntensityAsWritten | frontend/src/pages/Statistics.tsx:628-638 | as written: NaN exactly when the largest cell is 0 |
| Statistics.ZeroMatrixIsNaN | frontend/src/pages/Statistics.tsx:630-638 | as written: an all-zero matrix gives NaN and no white text |
| Statistics.InitialMatrixIsNaN | frontend/src/pages/Statistics.tsx:58-62 | as written: the initial 3×3 zero matrix is NaN everywhere (also line 631) |
| Statistics.Intensity | frontend/src/pages/Statistics.tsx:628-638 | corrected: agrees with the original whenever it is defined |
| Statistics.IntensityBounded | frontend/src/pages/Statistics.tsx:631 | corrected: in [0, 100], 100 on the largest positive cell, 0 on an all-zero matrix |
| Statistics.WhiteOnLargest | frontend/src/pages/Statistics.tsx:638 | the largest positive cell gets white text |
| Help.Titles | frontend/src/pages/Help.tsx:56 | one title per doc, in order |
| Help.Suggestions | frontend/src/pages/Help.tsx:59-61 | exactly the titles containing the query, case aside, in order |
| Help.EmptyQuerySuggestsAll | frontend/src/pages/Help.tsx:59-61 | an empty query suggests every title (also line 225) |
| Help.EmptyQuerySuggestsFive | frontend/src/pages/Help.tsx:28-54 | on the page, all five questions |
| Help.LowerAppend | frontend/src/pages/Help.tsx:60 | lower-casing goes character by character |
| Help.ContainsPrefix | frontend/src/pages/Help.tsx:60 | containing p + q means containing p |
| Help.TypingNarrows | frontend/src/pages/Help.tsx:59-61 | a longer query never adds suggestions |
| Help.HandleSearch | frontend/src/pages/Help.tsx:64-69 | the first doc whose title equals the query case aside, else none |
| Help.ClickSuggestion | frontend/src/pages/Help.tsx:235-238 | a suggestion fills the box and selects a doc with exactly that title, none iff no such title |
| Help.ClickAgreesWithSearch | frontend/src/pages/Help.tsx:64-69 | with titles distinct case aside, a click and a search select the same doc (also lines 235-238) |
| Help.Toggle | frontend/src/pages/Help.tsx:376-421 | clicking closes an open item, otherwise opens it alone |
| Help.ToggleAtMostOne | frontend/src/pages/Help.tsx:376-421 | at most one item open; toggling twice restores openness |
| Help.Give | frontend/src/pages/Help.tsx:456-466 | records the answer for that question only |
| Help.LastClickWins | frontend/src/pages/Help.tsx:456-466 | the last click for a question wins |
| Help.ClicksCommute | frontend/src/pages/Help.tsx:456-466 | clicks on different questions commute |
| Help.ClickHighlights | frontend/src/pages/Help.tsx:452-463 | exactly the clicked button is highlighted; other questions are unchanged |
| NotificationBell.UnreadCount | frontend/src/components/NotificationBell.tsx:21 | the number of unread entries; 0 iff all are read |
| NotificationBell.ZeroCountIffNone | frontend/src/components/NotificationBell.tsx:21-44 | a zero unread count iff nothing is unread |
| NotificationBell.DotIffSomethingUnread | frontend/src/components/NotificationBell.tsx:44-56 | the dot and the "Mark all" button show iff something is unread |
| NotificationBell.InitialUnread | frontend/src/components/NotificationBell.tsx:15-19 | the bell starts with three unread entries and the dot on |
| NotificationBell.MarkAllAsRead | frontend/src/components/NotificationBell.tsx:23-25 | every entry is read, with nothing else changed |
| NotificationBell.MarkAllIdempotent | frontend/src/components/NotificationBell.tsx:23-25 | marking all twice is marking once, leaving no dot |
| NotificationBell.MarkOneAsRead | frontend/src/components/NotificationBell.tsx:27-33 | entries with that id become read, the rest are untouched |
| NotificationBell.UnknownIdNoChange | frontend/src/components/NotificationBell.tsx:27-33 | an unknown id changes nothing |
| NotificationBell.MarkOneLowersCount | frontend/src/components/NotificationBell.tsx:21-33 | the count drops by exactly the unread entries with that id |
| NotificationBell.UnreadNeverRises | frontend/src/components/NotificationBell.tsx:21-33 | neither way of marking raises the count |
| DataUpload.HandleUpload | frontend/src/pages/DataUpload.tsx:109-116 | refused with its message iff no file; otherwise analysing at 10 % |
| DataUpload.Fields | frontend/src/pages/DataUpload.tsx:152-159 | the eight form fields |
| DataUpload.HandlePredict | frontend/src/pages/DataUpload.tsx:151-166 | refused iff some field is empty; otherwise analysing at 10 % |
| DataUpload.ProgressValues | frontend/src/pages/DataUpload.tsx:135-142 | ten progress values |
| DataUpload.Progress | frontend/src/pages/DataUpload.tsx:135-142 | 10, 20, …, 100 in steps of 10, all within [10, 100] |
| DataUpload.FillValues | frontend/src/pages/DataUpload.tsx:96-107 | at least one emitted value |
| DataUpload.Twentieths | frontend/src/pages/DataUpload.tsx:98-101 | n twentieths of a positive target stay within it and reach it exactly at 20 |
| DataUpload.NextTwentieth | frontend/src/pages/DataUpload.tsx:98-105 | one tick adds one step; a positive target is reached exactly at the twentieth tick, any other at once |
| DataUpload.AnimateFill | frontend/src/pages/DataUpload.tsx:96-107 | the interval loop emits exactly the closed-form values |
| DataUpload.FillRisesToTarget | frontend/src/pages/DataUpload.tsx:96-107 | values never fall or pass the target and end exactly at it |
| DataUpload.TemplatesComplete | frontend/src/pages/DataUpload.tsx:53-94 | each template has all eight non-negative parameters |
| DataUpload.Filled | frontend/src/pages/DataUpload.tsx:105 | the last text a field shows is `toFixed(2)` of the target |
| DataUpload.FilledForm | frontend/src/pages/DataUpload.tsx:226-234 | each field shows its template value |
| DataUpload.FormOf | frontend/src/pages/DataUpload.tsx:152-159 | the form whose fields in order are the given texts |
| DataUpload.FilledFormAccepted | frontend/src/pages/DataUpload.tsx:105-163 | a filled complete template passes the empty-field guard |
| DataUpload.TemplateFormAccepted | frontend/src/pages/DataUpload.tsx:222-234 | each of the four template cards fills a form the prediction accepts |
| Lists.Filter | frontend/src/pages/Help.tsx:59-61 | `Array.filter`: exactly the kept elements, in order |
| Lists.FilterAppend | frontend/src/pages/Explorer.tsx:29-32 | filtering distributes over concatenation |
| Lists.FilterCount | frontend/src/components/NotificationBell.tsx:21 | the filtered length is the count of kept elements |
| Lists.Find | frontend/src/pages/Help.tsx:65-67 | `Array.find`: none iff nothing is kept, else the first kept element |
| Lists.Sort | frontend/src/pages/Anomalies.tsx:32-33 | a permutation of the input |
| Lists.InsertKeepsTies | frontend/src/pages/Anomalies.tsx:33 | an insertion adds the element to its own tie class only, in front of its ties |
| Lists.SortStable | frontend/src/pages/Anomalies.tsx:33 | under a transitive comparator, elements tied with one another keep their original order |
| Lists.SortKeepsTies | frontend/src/pages/Anomalies.tsx:33 | the same, for comparators whose ties are mutually ordered |
| Lists.TransitiveTies | frontend/src/pages/Anomalies.tsx:33 | under a transitive comparator, ties are mutually ordered |
| Lists.FilterCons | frontend/src/pages/Help.tsx:59-61 | filtering decides the first element first |
| Lists.FilterPrefix | frontend/src/pages/Anomalies.tsx:33-34 | filtering a prefix gives a prefix of the filtered list |
| Lists.SortSorted | frontend/src/pages/Anomalies.tsx:33 | under a total order the result is sorted |
| Lists.SeqMax | frontend/src/pages/Analysis.tsx:169 | `Math.max(...)`: an element no element exceeds |
| Text.Lower | frontend/src/pages/Help.tsx:60 | `toLowerCase`, character by character |
| Text.Upper | frontend/src/pages/Explorer.tsx:161 | `toUpperCase`, character by character |
| Text.LowerUpper | frontend/src/pages/Explorer.tsx:161 | upper-casing keeps a text the same up to case |
| Text.ContainsIffOccurs | frontend/src/pages/Help.tsx:60 | `includes` iff the needle occurs at some position |
| Text.SplitJoin | frontend/src/pages/Explorer.tsx:62-74 | splitting a join without inner separators gives the parts back |
| Text.JoinKeepsOut | frontend/src/pages/Statistics.tsx:182-183 | joining never introduces a character absent from the parts and separator |
| Text.ParseNatToString | backend/main.py:304 | `int(str(n)) == n` on naturals |
| Text.FixedUnits | frontend/src/pages/Analysis.tsx:50 | `toFixed`'s digits: the integer nearest to abs(x)·10^d, halves rounded away from zero |
| Text.EvenUnits | backend/services/response_service.py:169 | Python's rounding of abs(x)·10^d: the nearer integer, the even one on a tie |
| Text.FixedValueClose | frontend/src/pages/Analysis.tsx:50 | `toFixed(d)` is within half a unit in the last place |
| Text.RoundHalfEvenClose | backend/services/response_service.py:169 | Python `round(x, d)` is within half a unit in the last place |
| Text.RoundHalfEvenIdempotent | backend/services/response_service.py:169 | rounding twice is rounding once |
| Text.FixedTextNumeral | frontend/src/pages/Explorer.tsx:69 | `toFixed` text has digits, a sign and a point only |
| Json.Index | backend/services/response_service.py:153-157 | `d[key]`: the value, KeyError when absent, TypeError on a non-dictionary |

## Left out

- I/O is not modelled: HTTP requests, `fetch`, the database, file downloads (Blob and
  anchor clicks), websockets, toasts and console output. The handlers are modelled from
  the moment their data has arrived.
- The trained models, joblib loading, the generative-text calls and their prompts are
  not modelled. The classifier outputs are inputs to `Scoring.Predict`.
- Timers are not modelled (`setInterval`, `requestAnimationFrame`, `Date.now`). Each
  interval loop is modelled as the sequence of values it emits.
- `Math.random` and `random.uniform` draws are parameters with their stated bounds.
- `datetime.now()` readings are a `clock` parameter.
- `cos`, `sin` and `Math.PI` are parameters constrained by `StarSystem.Trig`.
- `exp` is a parameter constrained by `Scoring.ExpModel`.
- `localeCompare` is a comparison parameter.
- Python `str()` of numbers and containers, JavaScript `String(number)` and `float()`
  of strings are parameters (`show`, `parse`).
- Numbers are unbounded reals, not IEEE doubles.
  - Rounding behaves as on exact decimals.
  - NaN and infinity appear only as `None` or `PyNum` cases.
  - `DataUpload.AnimateFill` reaches the target in exactly 20 steps. With floats the
    sum may fall just short and take a 21st step.
  - JavaScript's `-0` is not distinguished.
- Lower-casing is ASCII-only. There is no Unicode case folding.
- Object key order is not modelled. Dictionaries are maps, so the iteration order of
  `Object.entries` and of Python dicts is not tracked. The CSV rows follow the
  report's entry order instead.
- `colorMap` lookups of prototype keys (for example "constructor") are not modelled.
- The star-field backgrounds, nebula layers, legends, CSS, the rotating group and
  framer-motion transitions are not modelled.
- The heatmap's background alpha is not modelled; only the intensity and the text
  colour are.
- These parts of the statistics page are not modelled: the cluster and anomaly
  visualisation, the fixed clusters, the PDF and JSON exports, the accuracy line under
  the matrix, and the planet-metrics fetch. They are presentation only, or they call
  libraries outside the core.
- The statistics load handler throws when `classification_report` is missing, because
  it reads `report["0"]`. The model takes the report as given.
- The help page's accordion contents, tutorials, charts and doc texts are not
  modelled. Only the titles matter to the search.
- The metrics endpoints, `/history`, `/reset_db` and the websocket step list are not
  modelled. They only forward or load data.
- The upload endpoint's CSV/JSON parsing and the `PredictRequest(**features)`
  validation are not modelled. `Scoring.Request` assumes the eight fields are present.
- `Scoring.RenameKey`: `int(k[1:])` accepts surrounding whitespace and underscores.
  The model parses only an optional sign followed by digits, so such keys are
  reported as ValueError.
- `Responses.ToFloat`: string parsing is delegated to the `parse` parameter.
- The explorer's fetch effect depends on the page number, so every page-button click
  refetches and replaces the list, undoing an earlier "Filter" or "Sort By". The model
  treats the filtered or sorted list as staying in place across page changes;
  `Explorer.ApplyFilter`, `Explorer.HandleSort` and `Explorer.ShownPagesCoverChip` hold
  only until the next page change.
- A null planet type is written as "" in `Signals.Signal`. The report's `join` prints
  it that way, but `String(null)` in `handleSort` reads "null". The page only sorts by
  confidence, so no text comparison sees the difference.
- On an explorer card, the badge's background class, the confidence bar's width, the
  upload date and the "View Details" navigation are not modelled.

## Findings

| source | as written | input that shows it | evidently intended | confidence | as-written member | corrected member |
|---|---|---|---|---|---|---|
| frontend/src/components/StarSystem.tsx:23 | the animation effect returns early when `planets` is empty, so `positions` keeps the previous frame | a view showing one planet receives `planets = []`: one body stays drawn with no orbit ring | positions follow the current planets, including the empty list | not executed | StarSystem.StaleBodiesWithoutRings | StarSystem.AnimateFixedMatchesRings |
| frontend/src/pages/Anomalies.tsx:235-261 | pagination visibility and the next button use `signals.length`, while the page buttons use `filteredSignals.length` | one false positive with 10 outliers and eight with 0, Critical chip: one card, the bar shows, and "next" on page 1 leads to an empty page 2 | every count taken from the chip's signals, as the explorer page's bar does | not executed | Anomalies.NextPastChipPagesExample | Anomalies.FixedNextNonEmpty |
| frontend/src/pages/Explorer.tsx:132 | a chip button only calls `setFilter`, so the page number survives a chip change (the same at Anomalies.tsx line 173) | 9 signals with 0 outliers and 8 with 10: button "3" under "All", then "Low (0-3)": page 3 of a 2-page chip shows no cards, the bar shows, and "next" leads to an empty page 4 | a chip change starts again at page 1 | not executed | Signals.ChipKeepsPageExample | Signals.ResetNextNonEmpty |
| frontend/src/pages/Statistics.tsx:249-262 | the preview copies the report shallowly and then deletes disabled metrics from the shared class objects, mutating `reportData` | report `{"0": {"precision": 0.9}}`: switching Precision off and on previews `{"0": {}}`, and the CSV export gives "0,,," | the preview hides metrics without changing the data | not executed | Statistics.ToggleLosesMetricExample | Statistics.ToggleRestoresMetric |
| frontend/src/pages/Statistics.tsx:630-631 | `maxVal` is 0 for an all-zero matrix, so the intensity is `Math.round(0/0)` = NaN | the initial 3×3 zero matrix: every cell's intensity is NaN | divide by `maxVal \|\| 1`, as the analysis page does for its bars, giving intensity 0 | not executed | Statistics.InitialMatrixIsNaN | Statistics.IntensityBounded |

=== FILE: analysis.dfy ===
/** The analysis page's own logic: the outliers of an analysis become the bodies of the
    orbit views, a sliding window of simulated trend points, and the bar widths of the
    feature-importance chart. */
module Analysis {
  import opened Wrappers
  import opened Text
  import opened Lists

  // ---------------------------------------------------------------------------
  // Outliers as planets

  /** An outlier as the page reads it: only its z-score, which may be missing. */
  datatype Outlier = Outlier(z: Option<real>)

  /** A body of the orbit views. `radius` is `None` where the page computes NaN (from a
      missing z-score); `anomaly` is the number the page's anomaly text denotes, which is
      what the views compare and multiply; `x` and `y` are the optional screen offsets. */
  datatype Planet = Planet(name: string, radius: Option<real>, orbit: real, period: real,
                           color: string, confidence: string, reliability: real, anomaly: real,
                           x: Option<real>, y: Option<real>)

  const Red: string := "#ef4444"
  const Orange: string := "#f97316"
  const Cyan: string := "#22d3ee"

  /** The colour tier of a signed z-score: red from 9, orange from 7, cyan otherwise
      (including every negative score and a missing one). */
  function OutlierColor(z: Option<real>): (c: string)
    ensures c == Red <==> z.Some? && z.value >= 9.0
    ensures c == Orange <==> z.Some? && 7.0 <= z.value < 9.0
    ensures c == Cyan <==> z.None? || z.value < 7.0
  {
    if z.Some? && z.value >= 9.0 then Red
    else if z.Some? && z.value >= 7.0 then Orange
    else Cyan
  }

  /** `Math.max(1, Math.abs(z) / 2)`; NaN without a z-score. */
  function PlanetRadius(z: Option<real>): (r: Option<real>)
    ensures r.Some? <==> z.Some?
    ensures r.Some? ==> r.value >= 1.0 && r.value >= Abs(z.value) / 2.0
    ensures r.Some? ==> r.value == 1.0 || r.value == Abs(z.value) / 2.0
  {
    match z
    case None => None
    case Some(v) => Some(if 1.0 >= Abs(v) / 2.0 then 1.0 else Abs(v) / 2.0)
  }

  /** `o.z?.toFixed(2) ?? "0.0"`, as the number the views read from it. */
  function AnomalyOf(z: Option<real>): real {
    match z
    case None => 0.0
    case Some(v) => FixedValue(v, 2)
  }

  /** The anomaly is the z-score to within half a hundredth. */
  lemma AnomalyNearZ(v: real)
    ensures Abs(AnomalyOf(Some(v)) - v) <= 1.0 / 200.0
  {
    assert Pow10(2) == 100 by {
      assert Pow10(1) == 10;
    }
    FixedValueClose(v, 2);
  }

  /** `data.confidence ? (data.confidence * 100).toFixed(1) : "N/A"`. */
  function ConfidenceText(confidence: Option<real>): (s: string)
    ensures s == "N/A" <==> confidence.None? || confidence.value == 0.0
    ensures confidence.Some? && confidence.value != 0.0 ==>
      s == FixedText(confidence.value * 100.0, 1) && '.' in s
  {
    if confidence.Some? && confidence.value != 0.0 then
      FixedTextHasPoint(confidence.value * 100.0, 1);
      assert '.' !in "N/A";
      FixedText(confidence.value * 100.0, 1)
    else "N/A"
  }

  /** `data.reliability?.score || 0`. */
  function ReliabilityOf(score: Option<real>): (r: real)
    ensures score.Some? && score.value != 0.0 ==> r == score.value
    ensures score.None? || score.value == 0.0 ==> r == 0.0
  {
    if score.Some? && score.value != 0.0 then score.value else 0.0
  }

  const OutlierPrefix: string := "Outlier-"

  /** The name of the outlier at position `i`, counting from 1. */
  function OutlierName(i: nat): string {
    OutlierPrefix + NatToString(i + 1)
  }

  /** Different positions give different names, so a name picks out one planet. */
  lemma OutlierNamesDistinct(i: nat, j: nat)
    requires OutlierName(i) == OutlierName(j)
    ensures i == j
  {
    var a, b := NatToString(i + 1), NatToString(j + 1);
    assert a == b by {
      DropPrefix(OutlierPrefix, a);
      DropPrefix(OutlierPrefix, b);
    }
    NatToStringInjective(i + 1, j + 1);
  }

  /** The planet drawn for the outlier at position `i`. */
  function ToPlanet(o: Outlier, i: nat, confidence: string, reliability: real): (p: Planet)
    ensures p.name == OutlierName(i)
    ensures p.orbit == 0.2 + (i as real) * 0.15 && p.period == 8.0 + (i as real) * 4.0
    ensures p.x.None? && p.y.None?
  {
    Planet(OutlierName(i), PlanetRadius(o.z), 0.2 + (i as real) * 0.15, 8.0 + (i as real) * 4.0,
           OutlierColor(o.z), confidence, reliability, AnomalyOf(o.z), None, None)
  }

  /** The mapping effect: `(data.outliers || []).map(...)`. */
  function MapOutliers(outliers: Option<seq<Outlier>>, confidence: Option<real>, score: Option<real>): (ps: seq<Planet>)
    ensures outliers.None? ==> ps == []
    ensures outliers.Some? ==> |ps| == |outliers.value|
    ensures forall i :: 0 <= i < |ps| ==> ps[i] == ToPlanet(outliers.value[i], i, ConfidenceText(confidence), ReliabilityOf(score))
  {
    match outliers
    case None => []
    case Some(os) =>
      seq(|os|, i requires 0 <= i < |os| => ToPlanet(os[i], i, ConfidenceText(confidence), ReliabilityOf(score)))
  }

  /** The planets sit on strictly widening orbits with strictly longer periods, none
      shorter than 8; every known radius is at least 1; no planet has screen offsets. */
  lemma PlanetsLayout(outliers: seq<Outlier>, confidence: Option<real>, score: Option<real>, i: nat, j: nat)
    requires i < j < |outliers|
    ensures var ps := MapOutliers(Some(outliers), confidence, score);
      && ps[i].orbit < ps[j].orbit && ps[i].period < ps[j].period
      && ps[i].period >= 8.0
      && ps[i].name != ps[j].name
      && (outliers[i].z.Some? ==> ps[i].radius.Some? && ps[i].radius.value >= 1.0)
      && ps[i].x.None? && ps[i].y.None?
  {
    if OutlierName(i) == OutlierName(j) {
      OutlierNamesDistinct(i, j);
    }
  }

  // ---------------------------------------------------------------------------
  // The simulated trend

  datatype TrendPoint = TrendPoint(time: int, o2: real, ch4: real)

  const InitialTrend: seq<TrendPoint> := [
    TrendPoint(0, 15.2, 1.8), TrendPoint(1, 15.4, 1.9), TrendPoint(2, 15.7, 2.0),
    TrendPoint(3, 16.0, 1.8), TrendPoint(4, 16.3, 2.1)]

  const TrendCap: nat := 12

  /** One tick of the trend: a new point one time step after the last, each level moved
      by its random offset (`dO2` from `Math.random() * 0.4 - 0.2`, `dCh4` from
      `Math.random() * 0.2 - 0.1`) and rounded to two places; once the window is full the
      oldest point is dropped. */
  function NextTrend(prev: seq<TrendPoint>, dO2: real, dCh4: real): (next: seq<TrendPoint>)
    requires |prev| > 0
    ensures |prev| >= TrendCap ==> |next| == |prev| && next[..|next| - 1] == prev[1..]
    ensures |prev| < TrendCap ==> |next| == |prev| + 1 && next[..|next| - 1] == prev
    ensures next[|next| - 1].time == prev[|prev| - 1].time + 1
  {
    var last := prev[|prev| - 1];
    var point := TrendPoint(last.time + 1, FixedValue(last.o2 + dO2, 2), FixedValue(last.ch4 + dCh4, 2));
    var next := if |prev| >= TrendCap then prev[1..] + [point] else prev + [point];
    assert next[..|next| - 1] == if |prev| >= TrendCap then prev[1..] else prev;
    next
  }

  /** A well-formed trend window: between one and twelve points at consecutive times. */
  predicate TrendWindow(w: seq<TrendPoint>) {
    && 1 <= |w| <= TrendCap
    && forall i :: 0 <= i < |w| - 1 ==> w[i + 1].time == w[i].time + 1
  }

  lemma InitialTrendIsWindow()
    ensures TrendWindow(InitialTrend)
  {
  }

  /** Every tick keeps the window well-formed, so it never exceeds twelve points. */
  lemma TrendStaysWindow(w: seq<TrendPoint>, dO2: real, dCh4: real)
    requires TrendWindow(w)
    ensures TrendWindow(NextTrend(w, dO2, dCh4))
  {
    var n := NextTrend(w, dO2, dCh4);
    forall i | 0 <= i < |n| - 1
      ensures n[i + 1].time == n[i].time + 1
    {
      if i + 1 < |n| - 1 {
        assert n[i] == n[..|n| - 1][i] && n[i + 1] == n[..|n| - 1][i + 1];
      } else {
        assert n[i] == n[..|n| - 1][i];
        assert n[i] == w[|w| - 1];
      }
    }
  }

  /** A tick moves the O₂ level by at most its offset's range plus the rounding. */
  lemma TrendStepBounded(prev: seq<TrendPoint>, dO2: real, dCh4: real)
    requires |prev| > 0 && -0.2 <= dO2 <= 0.2
    ensures var n := NextTrend(prev, dO2, dCh4);
      Abs(n[|n| - 1].o2 - prev[|prev| - 1].o2) <= 0.2 + 1.0 / 200.0
  {
    var last := prev[|prev| - 1];
    assert Pow10(2) == 100 by {
      assert Pow10(1) == 10;
    }
    FixedValueClose(last.o2 + dO2, 2);
  }

  // ---------------------------------------------------------------------------
  // Feature-importance bars

  /** `Math.max(...weights) || 1`: the largest weight, or 1 when that is 0. */
  function Divisor(ws: seq<real>): (d: real)
    requires |ws| > 0
    ensures d != 0.0
  {
    var m := SeqMax(ws);
    if m == 0.0 then 1.0 else m
  }

  /** Each bar's width in percent: its weight over the divisor, times 100. */
  function Widths(ws: seq<real>): (r: seq<real>)
    ensures |r| == |ws|
  {
    if |ws| == 0 then []
    else seq(|ws|, i requires 0 <= i < |ws| => ws[i] / Divisor(ws) * 100.0)
  }

  /** With non-negative weights every bar is between 0 and 100 percent wide, the
      heaviest is exactly 100 when it is positive, and all are 0 when every weight is. */
  lemma WidthsBounded(ws: seq<real>, i: int)
    requires forall k :: 0 <= k < |ws| ==> ws[k] >= 0.0
    requires 0 <= i < |ws|
    ensures 0.0 <= Widths(ws)[i] <= 100.0
    ensures ws[i] == SeqMax(ws) && ws[i] > 0.0 ==> Widths(ws)[i] == 100.0
    ensures SeqMax(ws) == 0.0 ==> Widths(ws)[i] == 0.0
  {
    var m := SeqMax(ws);
    var w := ws[i];
    assert Widths(ws)[i] == w / Divisor(ws) * 100.0;
    if m == 0.0 {
      assert w == 0.0;
    } else {
      assert Divisor(ws) == m;
      FractionAtMostOne(w, m);
    }
  }
}

=== FILE: anomalies.dfy ===
/** The anomaly page: the false positives among the fetched signals, the watchlist of
    the three with the most outliers, the chip filter, the pages and their controls. */
module Anomalies {
  import opened Wrappers
  import opened Lists
  import opened Signals

  /** The fetch handler keeps exactly the false positives, in order. */
  function Retained(results: seq<Signal>): (r: seq<Signal>)
    ensures forall i :: 0 <= i < |r| ==> r[i] in results && IsFalsePositive(r[i])
    ensures forall i :: 0 <= i < |results| ==> (results[i] in r <==> IsFalsePositive(results[i]))
  {
    Filter(results, IsFalsePositive)
  }

  /** The page keeps exactly what the explorer page drops. */
  lemma RetainedIsComplement(results: seq<Signal>, i: nat)
    requires i < |results|
    ensures results[i] in Retained(results) <==> !(results[i] in Filter(results, (s: Signal) => !IsFalsePositive(s)))
  {
  }

  // ---------------------------------------------------------------------------
  // The watchlist

  /** `b.outlier_count - a.outlier_count` at most 0: more outliers first. */
  function MoreOutliers(): (Signal, Signal) -> bool {
    (a: Signal, b: Signal) => b.outlierCount - a.outlierCount <= 0
  }

  function Min(a: nat, b: nat): nat {
    if a <= b then a else b
  }

  /** `[...filtered].sort(...).slice(0, 3)`. */
  function Watchlist(filtered: seq<Signal>): (w: seq<Signal>)
    ensures |w| == Min(3, |filtered|)
    ensures multiset(w) <= multiset(filtered)
  {
    var sorted := Sort(filtered, MoreOutliers());
    assert sorted == sorted[..Min(3, |sorted|)] + sorted[Min(3, |sorted|)..];
    sorted[..Min(3, |sorted|)]
  }

  /** Two signals tie under the watchlist's comparator exactly when their outlier counts
      are equal. */
  lemma TiedIffSameCount(x: Signal, y: Signal)
    ensures TiedWith(x, MoreOutliers())(y) <==> y.outlierCount == x.outlierCount
  {
  }

  /** The sort is stable, so among false positives with the same outlier count the
      sorted list keeps fetch order and the watchlist takes the ones fetched first. */
  lemma WatchlistKeepsFetchOrder(filtered: seq<Signal>, x: Signal)
    ensures var tied := TiedWith(x, MoreOutliers());
      var w := Watchlist(filtered);
      && Filter(Sort(filtered, MoreOutliers()), tied) == Filter(filtered, tied)
      && |Filter(w, tied)| <= |Filter(filtered, tied)|
      && Filter(w, tied) == Filter(filtered, tied)[..|Filter(w, tied)|]
  {
    var le := MoreOutliers();
    MoreOutliersTransitive();
    SortStable(filtered, le, x);
    var sorted := Sort(filtered, le);
    assert Watchlist(filtered) == sorted[..Min(3, |sorted|)];
    FilterPrefix(sorted, Min(3, |sorted|), TiedWith(x, le));
  }

  lemma MoreOutliersTransitive()
    ensures Transitive(MoreOutliers())
  {
    var le := MoreOutliers();
    forall a: Signal, b: Signal, c: Signal | le(a, b) && le(b, c)
      ensures le(a, c)
    {
      assert a.outlierCount >= b.outlierCount >= c.outlierCount;
    }
  }

  /** In a list sorted by outlier count, every item has at least as many outliers as any
      later one. */
  lemma {:induction false} SortedByCount(s: seq<Signal>, i: nat, j: nat)
    requires Sorted(s, MoreOutliers())
    requires i <= j < |s|
    ensures s[i].outlierCount >= s[j].outlierCount
    decreases j - i
  {
    if i < j {
      SortedByCount(s, i + 1, j);
      assert MoreOutliers()(s[i], s[i + 1]);
    }
  }

  /** The watchlist is the head of the list sorted by outlier count. */
  lemma WatchlistIsSortedHead(filtered: seq<Signal>)
    ensures var sorted := Sort(filtered, MoreOutliers());
      && Sorted(sorted, MoreOutliers())
      && Watchlist(filtered) == sorted[..Min(3, |sorted|)]
  {
    SortSorted(filtered, MoreOutliers());
  }

  /** The watchlist is in descending order of outlier count. */
  lemma WatchlistDescending(filtered: seq<Signal>)
    ensures var w := Watchlist(filtered);
      forall i :: 0 <= i < |w| - 1 ==> w[i].outlierCount >= w[i + 1].outlierCount
  {
    var sorted := Sort(filtered, MoreOutliers());
    var w := Watchlist(filtered);
    WatchlistIsSortedHead(filtered);
    forall i | 0 <= i < |w| - 1
      ensures w[i].outlierCount >= w[i + 1].outlierCount
    {
      SortedByCount(sorted, i, i + 1);
    }
  }

  /** Each watchlist member has at least as many outliers as every false positive left
      out of it. */
  lemma WatchlistTop(filtered: seq<Signal>)
    ensures var w := Watchlist(filtered);
      forall x, i :: x in multiset(filtered) - multiset(w) && 0 <= i < |w| ==> w[i].outlierCount >= x.outlierCount
  {
    var sorted := Sort(filtered, MoreOutliers());
    WatchlistIsSortedHead(filtered);
    TopOfSorted(sorted, Min(3, |sorted|));
  }

  /** In a list sorted by outlier count, the first `k` have at least as many outliers as
      any of the rest. */
  lemma TopOfSorted(sorted: seq<Signal>, k: nat)
    requires Sorted(sorted, MoreOutliers()) && k <= |sorted|
    ensures var w := sorted[..k];
      forall x, i :: x in multiset(sorted) - multiset(w) && 0 <= i < |w| ==> w[i].outlierCount >= x.outlierCount
  {
    var w := sorted[..k];
    assert multiset(sorted) - multiset(w) == multiset(sorted[k..]) by {
      assert sorted == w + sorted[k..];
    }
    forall x, i | x in multiset(sorted) - multiset(w) && 0 <= i < |w|
      ensures w[i].outlierCount >= x.outlierCount
    {
      var j := LaterIndex(sorted, k, x);
      SortedByCount(sorted, i, j);
    }
  }

  /** Where an element of the tail from `k` on sits in the whole list. */
  lemma LaterIndex(s: seq<Signal>, k: nat, x: Signal) returns (j: nat)
    requires k <= |s| && x in multiset(s[k..])
    ensures k <= j < |s| && s[j] == x
  {
    assert x in s[k..];
    var d :| 0 <= d < |s[k..]| && s[k..][d] == x;
    j := k + d;
  }

  /** The colour tier of a watchlist badge. */
  datatype Tier = RedTier | OrangeTier | YellowTier

  function BadgeTier(count: int): (t: Tier)
    ensures t == RedTier <==> count >= 9
    ensures t == OrangeTier <==> 7 <= count < 9
    ensures t == YellowTier <==> count < 7
  {
    if count >= 9 then RedTier else if count >= 7 then OrangeTier else YellowTier
  }

  /** A badge tier agrees with the chips: red exactly for the "Critical (9+)" chip's
      counts, and orange only for counts the "High (7-9)" chip passes. */
  lemma TierMatchesChips(count: int)
    ensures BadgeTier(count) == RedTier <==> InBucket(CriticalChip, count)
    ensures BadgeTier(count) == OrangeTier ==> InBucket(HighChip, count)
  {
  }

  // ---------------------------------------------------------------------------
  // Pages

  /** The pagination bar as written: shown, and its next button disabled, by the count of
      all false positives, while its page buttons count the chip's. */
  function BarAsWritten(signals: seq<Signal>, chip: string, page: nat): (b: Bar)
    ensures b.visible <==> |signals| > PerPage
    ensures b.buttons == PageCount(|ByBucket(signals, chip)|)
    ensures b.nextDisabled <==> page == PageCount(|signals|)
  {
    Bar(|signals| > PerPage, PageCount(|ByBucket(signals, chip)|), page == PageCount(|signals|))
  }

  /** As written, on the chip's last page the next button stays enabled whenever all the
      false positives need more pages than the chip's do, and it leads to an empty page. */
  lemma NextPastChipPages(signals: seq<Signal>, chip: string)
    requires 1 <= PageCount(|ByBucket(signals, chip)|) < PageCount(|signals|)
    ensures var last := PageCount(|ByBucket(signals, chip)|);
      && !BarAsWritten(signals, chip, last).nextDisabled
      && Shown(signals, chip, last + 1) == []
  {
  }

  /** One false positive with ten outliers and eight with none: under the
      "Critical (9+)" chip one card is left, yet the bar shows and its next button on
      page 1 leads to an empty page 2. */
  lemma NextPastChipPagesExample()
    ensures var one := Signal(1, Some("False Positive"), 0.9, "High", "Rocky", 10, None);
      var rest := seq(8, i => Signal(2 + i, Some("False Positive"), 0.5, "Low", "Rocky", 0, None));
      var b := BarAsWritten([one] + rest, CriticalChip, 1);
      && b.visible && b.buttons == 1 && !b.nextDisabled
      && Shown([one] + rest, CriticalChip, 2) == []
  {
    var one := Signal(1, Some("False Positive"), 0.9, "High", "Rocky", 10, None);
    var rest := seq(8, i => Signal(2 + i, Some("False Positive"), 0.5, "Low", "Rocky", 0, None));
    var keep := (s: Signal) => InBucket(CriticalChip, s.outlierCount);
    FilterAppend([one], rest, keep);
    FilterKeepsNone(rest, keep);
    assert ByBucket([one] + rest, CriticalChip) == [one];
    NextPastChipPages([one] + rest, CriticalChip);
  }

  /** The bar with every count taken from the chip's signals, as the explorer draws it. */
  function BarFixed(signals: seq<Signal>, chip: string, page: nat): (b: Bar)
    ensures b.visible <==> b.buttons > 1
    ensures b.buttons == PageCount(|ByBucket(signals, chip)|)
    ensures b.nextDisabled <==> page == b.buttons
  {
    ChipBar(|ByBucket(signals, chip)|, page)
  }

  /** With the corrected bar, "next" from any button page never reaches an empty page. */
  lemma BarFixedNextNonEmpty(signals: seq<Signal>, chip: string, page: nat)
    requires 1 <= page <= BarFixed(signals, chip, page).buttons
    ensures !BarFixed(signals, chip, page).nextDisabled ==> |Shown(signals, chip, page + 1)| > 0
  {
    NextStopsAtLast(ByBucket(signals, chip), page);
  }

  /** With the corrected bar and the page reset on a chip change, no run of clicks from
      the start ever lets "next" reach an empty page, nor leaves a chip with signals on
      an empty one. */
  lemma FixedNextNonEmpty(signals: seq<Signal>, clicks: seq<Click>)
    ensures var v := Run(Start, clicks, ChipCount(signals), true);
      var b := BarFixed(signals, v.chip, v.page);
      && (|ByBucket(signals, v.chip)| > 0 ==> |Shown(signals, v.chip, v.page)| > 0)
      && (b.visible && !b.nextDisabled ==> |Shown(signals, v.chip, v.page + 1)| > 0)
  {
    ResetNextNonEmpty(signals, clicks);
  }
}

=== FILE: atmosphere.dfy ===
/** The heuristic atmosphere predictor of the response service: a decision tree on planet
    type, radius and equilibrium temperature that picks a list of likely gases, a
    confidence level, a comment and a habitability flag. The gas shares are random draws
    around fixed centres; here they stay symbolic (`Noisy`) until a draw is supplied. */
module Atmosphere {
  import opened Wrappers
  import opened Text

  // ---------------------------------------------------------------------------
  // Percentages

  /** A Python number as far as `_fmt_pct` can tell them apart. */
  datatype PyNum = Finite(x: real) | NaN | Infinity | NegInfinity

  /** What `_fmt_pct` prints: "N/A", "Trace", or a one-decimal share with its spread. */
  datatype Pct = NA | Trace | Percent(value: real, spread: real)

  /** `_fmt_pct`: missing or non-finite values are "N/A", values up to 0.05 are "Trace". */
  function FmtPct(val: Option<PyNum>, spread: real): (p: Pct)
    ensures p.NA? <==> val.None? || !val.value.Finite?
    ensures p.Trace? <==> val.Some? && val.value.Finite? && val.value.x <= 0.05
    ensures p.Percent? ==> p.value == val.value.x && p.value > 0.05 && p.spread == spread
  {
    match val
    case None => NA
    case Some(Finite(x)) => if x <= 0.05 then Trace else Percent(x, spread)
    case Some(_) => NA
  }

  /** The text `_fmt_pct` returns: `f"{val:.1f}% ± {spread:.0f}%"` for a share. */
  function PctText(p: Pct): (s: string)
    ensures |s| >= 1
  {
    match p
    case NA => "N/A"
    case Trace => "Trace"
    case Percent(v, spread) => PyFixedText(v, 1) + "% ± " + PyFixedText(spread, 0) + "%"
  }

  /** The three kinds of text cannot be confused: only a share carries a '±'. */
  lemma PctTextKinds(p: Pct)
    ensures PctText(p) == "N/A" <==> p.NA?
    ensures PctText(p) == "Trace" <==> p.Trace?
    ensures '±' in PctText(p) <==> p.Percent?
  {
    if p.Percent? {
      var s := PctText(p);
      var head := PyFixedText(p.value, 1) + "% ";
      assert s[|head|] == '±';
    }
  }

  /** `_sample_with_noise`: the centre moved by the draw `u` (from `uniform(-jitter,
      jitter)`), clamped at 0. */
  function SampleWithNoise(center: real, u: real): (r: real)
    ensures r >= 0.0 && r >= center + u
    ensures center + u >= 0.0 ==> r == center + u
  {
    if 0.0 >= center + u then 0.0 else center + u
  }

  /** A draw within the jitter keeps the sample within the jitter of the centre, except
      that it never goes below 0. */
  lemma SampleWithinJitter(center: real, jitter: real, u: real)
    requires -jitter <= u <= jitter
    ensures SampleWithNoise(center, u) <= if center + jitter >= 0.0 then center + jitter else 0.0
    ensures SampleWithNoise(center, u) >= center - jitter
  {
  }

  // ---------------------------------------------------------------------------
  // The decision tree

  /** A gas share: a random draw around `center` printed with `spread`, or a fixed text. */
  datatype Share = Noisy(center: real, jitter: real, spread: real) | Exact(pct: Pct)

  /** The gases the predictor can name. */
  datatype Element =
    | Hydrogen | Helium | Methane | Ammonia | WaterVapor | Nitrogen | Oxygen | Argon
    | CarbonDioxide | TraceGases | Sodium | Potassium

  /** The element label the response carries. */
  function ElementName(e: Element): string {
    match e
    case Hydrogen => "Hydrogen (H₂)"
    case Helium => "Helium (He)"
    case Methane => "Methane (CH₄)"
    case Ammonia => "Ammonia (NH₃)"
    case WaterVapor => "Water vapor (H₂O)"
    case Nitrogen => "Nitrogen (N₂)"
    case Oxygen => "Oxygen (O₂)"
    case Argon => "Argon (Ar)"
    case CarbonDioxide => "Carbon dioxide (CO₂)"
    case TraceGases => "Trace gases"
    case Sodium => "Sodium (Na) vapor"
    case Potassium => "Potassium (K) vapor"
  }

  datatype Gas = Gas(element: Element, share: Share)

  datatype Confidence = Low | Medium | High

  function ConfidenceName(c: Confidence): string {
    match c
    case Low => "Low"
    case Medium => "Medium"
    case High => "High"
  }

  /** Which branch of the tree produced the prediction; each has its own comment. */
  datatype Kind = GiantKind | MiniNeptuneKind | TemperateKind | ThinKind | SuperEarthKind | ScorchedKind

  function Comment(k: Kind): string {
    match k
    case GiantKind => "Gas giant — H₂/He-dominated atmosphere expected."
    case MiniNeptuneKind => "Volatile-rich envelope — H₂/He with possible H₂O/CH₄."
    case TemperateKind => "Rocky planet in temperate range → N₂/O₂ atmosphere plausible."
    case ThinKind => "Rocky planet but temperature suggests high CO₂ or thin atmosphere."
    case SuperEarthKind => "Super-Earth — heavier, CO₂-rich atmosphere possible."
    case ScorchedKind => "Extreme Teq → runaway greenhouse / mineral vapor atmosphere."
  }

  datatype Atmosphere = Atmosphere(gases: seq<Gas>, confidence: Confidence, kind: Kind,
                                   habitable: bool)

  /** The temperature classes of the rocky branch. */
  datatype Bucket = Unknown | Cold | Habitable | Warm | Hot

  function TempBucket(t: Option<real>): (b: Bucket)
    ensures b == Unknown <==> t.None?
    ensures b == Cold <==> t.Some? && t.value < 250.0
    ensures b == Habitable <==> t.Some? && 250.0 <= t.value <= 350.0
    ensures b == Warm <==> t.Some? && 350.0 < t.value <= 1000.0
    ensures b == Hot <==> t.Some? && t.value > 1000.0
  {
    match t
    case None => Unknown
    case Some(v) =>
      if v < 250.0 then Cold
      else if 250.0 <= v <= 350.0 then Habitable
      else if 350.0 < v <= 1000.0 then Warm
      else Hot
  }

  const GasGiantTypes: seq<string> := ["gas giant", "hot jupiter", "jupiter-like"]
  const MiniNeptuneTypes: seq<string> := ["mini-neptune", "minineptune"]

  /** `(planet_type or "").lower()`. */
  function TypeKey(planetType: Option<string>): string {
    Lower(planetType.GetOr(""))
  }

  /** The gas-giant branch: a gas-giant type name or a radius above 6. */
  predicate GasGiantBranch(pt: string, r: Option<real>) {
    pt in GasGiantTypes || (r.Some? && r.value > 6.0)
  }

  /** The mini-Neptune branch, tried only when the gas-giant branch does not fire. */
  predicate MiniNeptuneBranch(pt: string, r: Option<real>) {
    pt in MiniNeptuneTypes || (r.Some? && 1.5 < r.value <= 6.0)
  }

  const GiantGases: seq<Gas> := [
    Gas(Hydrogen, Noisy(88.0, 3.0, 5.0)),
    Gas(Helium, Noisy(11.0, 2.0, 3.0)),
    Gas(Methane, Noisy(0.5, 0.5, 1.0)),
    Gas(Ammonia, Noisy(0.1, 0.2, 1.0))]

  const MiniNeptuneGases: seq<Gas> := [
    Gas(Hydrogen, Noisy(55.0, 6.0, 8.0)),
    Gas(Helium, Noisy(20.0, 4.0, 6.0)),
    Gas(WaterVapor, Noisy(8.0, 4.0, 6.0)),
    Gas(Methane, Noisy(3.0, 2.0, 2.0))]

  const TemperateGases: seq<Gas> := [
    Gas(Nitrogen, Noisy(75.0, 6.0, 6.0)),
    Gas(Oxygen, Noisy(21.0, 4.0, 4.0)),
    Gas(Argon, Noisy(0.9, 0.3, 0.2)),
    Gas(WaterVapor, Noisy(2.0, 2.0, 2.0)),
    Gas(CarbonDioxide, Noisy(0.1, 0.2, 0.2))]

  const ThinGases: seq<Gas> := [
    Gas(Nitrogen, Noisy(60.0, 10.0, 8.0)),
    Gas(CarbonDioxide, Noisy(25.0, 8.0, 8.0)),
    Gas(Oxygen, Noisy(10.0, 5.0, 6.0)),
    Gas(TraceGases, Exact(Trace))]

  const SuperEarthGases: seq<Gas> := [
    Gas(Nitrogen, Noisy(40.0, 12.0, 8.0)),
    Gas(CarbonDioxide, Noisy(25.0, 10.0, 8.0)),
    Gas(WaterVapor, Noisy(10.0, 6.0, 5.0)),
    Gas(Methane, Noisy(1.0, 1.0, 1.0))]

  const ScorchedGases: seq<Gas> := [
    Gas(CarbonDioxide, Exact(FmtPct(Some(Finite(80.0)), 8.0))),
    Gas(Sodium, Exact(Trace)),
    Gas(Potassium, Exact(Trace))]

  /** The tree before the hot override. */
  function Branch(pt: string, r: Option<real>, t: Option<real>): (a: Atmosphere)
    ensures |a.gases| >= 3
  {
    if GasGiantBranch(pt, r) then
      Atmosphere(GiantGases, High, GiantKind, false)
    else if MiniNeptuneBranch(pt, r) then
      Atmosphere(MiniNeptuneGases, Medium, MiniNeptuneKind, false)
    else
      var radius := r.GetOr(1.0);
      var bucket := TempBucket(t);
      if radius <= 1.5 && bucket == Habitable then
        Atmosphere(TemperateGases, Medium, TemperateKind, true)
      else if radius <= 1.5 && (bucket == Cold || bucket == Warm) then
        Atmosphere(ThinGases, Low, ThinKind, false)
      else
        Atmosphere(SuperEarthGases, Medium, SuperEarthKind, false)
  }

  /** `predict_atmosphere`: the tree, then the override for an equilibrium temperature
      above 1000 K. */
  function PredictAtmosphere(planetType: Option<string>, radius: Option<real>, teq: Option<real>): (a: Atmosphere)
    ensures |a.gases| >= 3
    ensures teq.Some? && teq.value > 1000.0 ==>
      a.gases == ScorchedGases && a.confidence == High && a.kind == ScorchedKind && !a.habitable
    ensures !(teq.Some? && teq.value > 1000.0) ==> a == Branch(TypeKey(planetType), radius, teq)
  {
    var a := Branch(TypeKey(planetType), radius, teq);
    if teq.Some? && teq.value > 1000.0 then
      a.(gases := ScorchedGases, confidence := High, kind := ScorchedKind, habitable := false)
    else a
  }

  /** The gas-giant branch wins over everything but the hot override and is rated High. */
  lemma GasGiantIsHigh(planetType: Option<string>, radius: Option<real>, teq: Option<real>)
    requires GasGiantBranch(TypeKey(planetType), radius)
    ensures PredictAtmosphere(planetType, radius, teq).confidence == High
    ensures !(teq.Some? && teq.value > 1000.0) ==> PredictAtmosphere(planetType, radius, teq).gases == GiantGases
    ensures !PredictAtmosphere(planetType, radius, teq).habitable
  {
  }

  /** The mini-Neptune branch is rated Medium unless the hot override applies. */
  lemma MiniNeptuneIsMedium(planetType: Option<string>, radius: Option<real>, teq: Option<real>)
    requires !GasGiantBranch(TypeKey(planetType), radius) && MiniNeptuneBranch(TypeKey(planetType), radius)
    requires !(teq.Some? && teq.value > 1000.0)
    ensures PredictAtmosphere(planetType, radius, teq).confidence == Medium
    ensures PredictAtmosphere(planetType, radius, teq).gases == MiniNeptuneGases
  {
  }

  /** Habitable exactly for a rocky planet (neither giant nor mini-Neptune) whose radius,
      1 when unknown, is at most 1.5 and whose temperature lies in [250, 350]. */
  lemma HabitableIff(planetType: Option<string>, radius: Option<real>, teq: Option<real>)
    ensures PredictAtmosphere(planetType, radius, teq).habitable <==>
      && !GasGiantBranch(TypeKey(planetType), radius)
      && !MiniNeptuneBranch(TypeKey(planetType), radius)
      && radius.GetOr(1.0) <= 1.5
      && teq.Some? && 250.0 <= teq.value <= 350.0
  {
  }

  /** A missing radius is read as 1 Earth radius: with no type name and a temperate
      temperature, the planet is judged habitable. */
  lemma MissingRadiusIsEarthSized(t: real)
    requires 250.0 <= t <= 350.0
    ensures PredictAtmosphere(None, None, Some(t)).habitable
    ensures PredictAtmosphere(None, None, Some(t)).gases == TemperateGases
  {
    assert TypeKey(None) == "";
  }

  /** With no type, radius or temperature the planet is read as an Earth-sized rock of
      unknown temperature, which the tree files as a Super-Earth. */
  lemma NothingKnownIsSuperEarth()
    ensures PredictAtmosphere(None, None, None).gases == SuperEarthGases
    ensures PredictAtmosphere(None, None, None).confidence == Medium
    ensures !PredictAtmosphere(None, None, None).habitable
  {
    assert TypeKey(None) == "";
  }

  /** Only the hot override and gas giants are rated High; only a small rocky planet
      outside the temperate range (cold, or warm up to 1000 K) is rated Low. */
  lemma ConfidenceLevels(planetType: Option<string>, radius: Option<real>, teq: Option<real>)
    ensures PredictAtmosphere(planetType, radius, teq).confidence == High <==>
      GasGiantBranch(TypeKey(planetType), radius) || (teq.Some? && teq.value > 1000.0)
    ensures PredictAtmosphere(planetType, radius, teq).confidence == Low <==>
      && !GasGiantBranch(TypeKey(planetType), radius)
      && !MiniNeptuneBranch(TypeKey(planetType), radius)
      && radius.GetOr(1.0) <= 1.5
      && teq.Some? && (teq.value < 250.0 || 350.0 < teq.value <= 1000.0)
  {
  }

  // ---------------------------------------------------------------------------
  // Realising the random shares

  /** The text of one share, given the offset its random draw produced. */
  function ShareText(s: Share, u: real): (p: Pct)
    ensures s.Noisy? ==> !p.NA?
    ensures s.Noisy? && p.Percent? ==> p.value >= 0.0 && p.spread == s.spread
  {
    match s
    case Noisy(center, _, spread) => FmtPct(Some(Finite(SampleWithNoise(center, u))), spread)
    case Exact(p) => p
  }

  /** A share drawn within its jitter prints as "Trace" only if the low end of its range
      reaches down to 0.05. */
  lemma NoisyTraceOnlyNearZero(s: Share, u: real)
    requires s.Noisy? && -s.jitter <= u <= s.jitter
    requires ShareText(s, u).Trace?
    ensures s.center - s.jitter <= 0.05
  {
    SampleWithinJitter(s.center, s.jitter, u);
  }
}

=== FILE: data_upload.dfy ===
/** The upload page: the guards in front of the two requests, the simulated progress
    bar, the animated filling of the manual form, and the four data templates. */
module DataUpload {
  import opened Wrappers
  import opened Text

  /** What a submit button does: refuse with a message and change nothing, or mark the
      page as analysing at 10 percent and send the request. */
  datatype Submit = Refused(message: string) | Sent(progress: int, analyzing: bool)

  const NoFileMessage: string := "Please select a file first!"
  const MissingFieldMessage: string := "Please fill all parameters!"

  /** `handleUpload`: refused without a selected file. */
  function HandleUpload(file: Option<string>): (r: Submit)
    ensures r.Refused? <==> file.None?
    ensures r.Refused? ==> r.message == NoFileMessage
    ensures r.Sent? ==> r.progress == 10 && r.analyzing
  {
    match file
    case None => Refused(NoFileMessage)
    case Some(_) => Sent(10, true)
  }

  /** The eight text fields of the manual form. */
  datatype Form = Form(period: string, duration: string, depth: string, prad: string,
                       sma: string, incl: string, teq: string, snr: string)

  function Fields(f: Form): (fs: seq<string>)
    ensures |fs| == 8
  {
    [f.period, f.duration, f.depth, f.prad, f.sma, f.incl, f.teq, f.snr]
  }

  /** `handlePredict`: refused while any field is empty. */
  function HandlePredict(f: Form): (r: Submit)
    ensures r.Refused? <==> "" in Fields(f)
    ensures r.Refused? ==> r.message == MissingFieldMessage
    ensures r.Sent? ==> r.progress == 10 && r.analyzing
  {
    if f.period == "" || f.duration == "" || f.depth == "" || f.prad == ""
       || f.sma == "" || f.incl == "" || f.teq == "" || f.snr == ""
    then Refused(MissingFieldMessage)
    else Sent(10, true)
  }

  // ---------------------------------------------------------------------------
  // Progress

  /** The progress values the bar shows after a request succeeds, as a closed form:
      10, then one more tenth per tick, up to 100. */
  function ProgressValues(): (ps: seq<int>)
    ensures |ps| == 10
  {
    seq(10, i => 10 * (i + 1))
  }

  /** The interval loop: start at 10, add 10 per tick, stop once at least 100. */
  method Progress() returns (ps: seq<int>)
    ensures ps == ProgressValues()
    ensures ps[0] == 10 && ps[|ps| - 1] == 100
    ensures forall i :: 0 <= i < |ps| - 1 ==> ps[i + 1] == ps[i] + 10
    ensures forall i :: 0 <= i < |ps| ==> 10 <= ps[i] <= 100
  {
    var prog := 10;
    ps := [prog];
    while true
      invariant 10 <= prog < 100
      invariant |ps| == prog / 10 && prog % 10 == 0
      invariant forall i :: 0 <= i < |ps| ==> ps[i] == 10 * (i + 1)
      decreases 100 - prog
    {
      prog := prog + 10;
      ps := ps + [prog];
      if prog >= 100 {
        return;
      }
    }
  }

  // ---------------------------------------------------------------------------
  // Filling the form

  /** `n` twentieths of `target`: the value after `n` steps of `target / 20`. */
  function Twentieth(n: nat, target: real): real {
    n as real * (target / 20.0)
  }

  /** The values `animateFill(setter, target)` emits, as a closed form: twenty even
      steps up to a positive target, and the target alone otherwise. */
  function FillValues(target: real): (vs: seq<real>)
    ensures |vs| >= 1
  {
    if target <= 0.0 then [target]
    else seq(20, (i: nat) => Twentieth(i + 1, target))
  }

  /** Of a positive target, `n` twentieths lie between 0 and the target, reaching it
      exactly at twenty, and one more twentieth is one more step. */
  lemma Twentieths(n: nat, target: real)
    requires target > 0.0 && n <= 20
    ensures 0.0 <= Twentieth(n, target) <= target
    ensures Twentieth(n, target) == target <==> n == 20
    ensures Twentieth(n + 1, target) == Twentieth(n, target) + target / 20.0
  {
    var step := target / 20.0;
    assert Twentieth(n, target) == n as real * step;
    assert Twentieth(n + 1, target) == n as real * step + step;
    assert target == 20.0 * step;
    if n < 20 {
      assert n as real * step < 20.0 * step;
    }
  }

  /** One tick of the fill: the next value is one step more, and it reaches a positive
      target exactly at the twentieth tick; a target of at most 0 is reached at once. */
  lemma NextTwentieth(k: nat, target: real)
    requires k < 20 && (k > 0 ==> target > 0.0)
    ensures Twentieth(k + 1, target) == Twentieth(k, target) + target / 20.0
    ensures target > 0.0 ==> (Twentieth(k + 1, target) >= target <==> k + 1 == 20)
    ensures target <= 0.0 ==> Twentieth(k + 1, target) >= target
    ensures k + 1 == 20 ==> Twentieth(k + 1, target) == target
  {
    if target > 0.0 {
      Twentieths(k, target);
      Twentieths(k + 1, target);
    } else {
      assert k == 0;
      assert Twentieth(0, target) == 0.0;
      assert Twentieth(1, target) == target / 20.0;
    }
  }

  /** The interval loop: add a twentieth of the target per tick, clamp to the target
      and stop once it is reached. */
  method AnimateFill(target: real) returns (vs: seq<real>)
    ensures vs == FillValues(target)
  {
    var current := 0.0;
    var step := target / 20.0;
    var k := 0;
    vs := [];
    while true
      invariant 0 <= k < 20 && (k > 0 ==> target > 0.0)
      invariant current == Twentieth(k, target)
      invariant |vs| == k && forall i :: 0 <= i < k ==> vs[i] == Twentieth(i + 1, target)
      decreases 20 - k
    {
      NextTwentieth(k, target);
      current := current + step;
      k := k + 1;
      if current >= target {
        current := target;
        vs := vs + [current];
        assert |vs| == |FillValues(target)|;
        assert forall i :: 0 <= i < |vs| ==> vs[i] == FillValues(target)[i];
        return;
      }
      vs := vs + [current];
    }
  }

  /** For a target of at least 0 the emitted values never fall, never pass the target,
      and end exactly at it; a target of 0 is emitted once. */
  lemma FillRisesToTarget(target: real)
    requires target >= 0.0
    ensures var vs := FillValues(target);
      && vs[|vs| - 1] == target
      && (forall i :: 0 <= i < |vs| ==> 0.0 <= vs[i] <= target)
      && (forall i :: 0 <= i < |vs| - 1 ==> vs[i] <= vs[i + 1])
      && (target == 0.0 ==> vs == [0.0])
  {
    var vs := FillValues(target);
    if target > 0.0 {
      forall i | 0 <= i < |vs|
        ensures 0.0 <= vs[i] <= target
        ensures i < |vs| - 1 ==> vs[i] <= vs[i + 1]
      {
        Twentieths(i + 1, target);
      }
      Twentieths(20, target);
    }
  }

  // ---------------------------------------------------------------------------
  // Templates

  const TemplateTitles: seq<string> := ["Transit Photometry", "Radial Velocity", "Atmospheric Spectra", "Microlensing"]

  const KoiKeys: seq<string> := ["koi_period", "koi_duration", "koi_depth", "koi_prad", "koi_sma", "koi_incl", "koi_teq", "koi_model_snr"]

  const TransitPhotometry: map<string, real> := map[
    "koi_period" := 10.3, "koi_duration" := 3.5, "koi_depth" := 550.0, "koi_prad" := 1.2,
    "koi_sma" := 0.05, "koi_incl" := 89.7, "koi_teq" := 1200.0, "koi_model_snr" := 48.0]
  const RadialVelocity: map<string, real> := map[
    "koi_period" := 32.1, "koi_duration" := 6.0, "koi_depth" := 0.0, "koi_prad" := 1.0,
    "koi_sma" := 0.21, "koi_incl" := 88.2, "koi_teq" := 500.0, "koi_model_snr" := 70.0]
  const AtmosphericSpectra: map<string, real> := map[
    "koi_period" := 3.2, "koi_duration" := 1.5, "koi_depth" := 300.0, "koi_prad" := 1.8,
    "koi_sma" := 0.04, "koi_incl" := 87.9, "koi_teq" := 1500.0, "koi_model_snr" := 55.0]
  const Microlensing: map<string, real> := map[
    "koi_period" := 200.5, "koi_duration" := 20.3, "koi_depth" := 0.0, "koi_prad" := 5.0,
    "koi_sma" := 1.5, "koi_incl" := 90.0, "koi_teq" := 250.0, "koi_model_snr" := 20.0]

  /** `templateValues`: the parameters each template fills in, by template title. */
  const TemplateValues: map<string, map<string, real>> := map[
    TemplateTitles[0] := TransitPhotometry, TemplateTitles[1] := RadialVelocity,
    TemplateTitles[2] := AtmosphericSpectra, TemplateTitles[3] := Microlensing]

  /** A template holds a value for every parameter. */
  predicate Complete(vals: map<string, real>) {
    forall k :: 0 <= k < |KoiKeys| ==> KoiKeys[k] in vals
  }

  /** Every template card has values, for all eight parameters, none negative. */
  lemma TemplatesComplete(t: nat)
    requires t < |TemplateTitles|
    ensures TemplateTitles[t] in TemplateValues
    ensures Complete(TemplateValues[TemplateTitles[t]])
    ensures forall k :: 0 <= k < |KoiKeys| ==> TemplateValues[TemplateTitles[t]][KoiKeys[k]] >= 0.0
  {
  }

  /** The text the last emitted value leaves in a field: `toFixed(2)` of it, which for
      a target of at least 0 is the target's own. */
  function Filled(target: real): (t: string)
    ensures |t| >= 1
    ensures target >= 0.0 ==> t == FixedText(target, 2)
  {
    var vs := FillValues(target);
    if target >= 0.0 then FillRisesToTarget(target); FixedText(vs[|vs| - 1], 2)
    else FixedText(vs[|vs| - 1], 2)
  }

  /** The form once every animation of a template has finished. */
  function FilledForm(vals: map<string, real>): (f: Form)
    requires Complete(vals)
    ensures forall k :: 0 <= k < 8 ==> Fields(f)[k] == Filled(vals[KoiKeys[k]])
  {
    FormOf(seq(8, k requires 0 <= k < 8 => Filled(vals[KoiKeys[k]])))
  }

  /** The form whose fields, in order, are `fs`. */
  function FormOf(fs: seq<string>): (f: Form)
    requires |fs| == 8
    ensures Fields(f) == fs
  {
    Form(fs[0], fs[1], fs[2], fs[3], fs[4], fs[5], fs[6], fs[7])
  }

  /** After a complete template has filled the form, every field shows its value to
      two places, so the manual prediction is not refused. */
  lemma FilledFormAccepted(vals: map<string, real>)
    requires Complete(vals)
    requires forall k :: 0 <= k < |KoiKeys| ==> vals[KoiKeys[k]] >= 0.0
    ensures forall k :: 0 <= k < 8 ==> Fields(FilledForm(vals))[k] == FixedText(vals[KoiKeys[k]], 2)
    ensures HandlePredict(FilledForm(vals)).Sent?
  {
    var fs := Fields(FilledForm(vals));
    assert "" !in fs;
  }

  /** Each of the four template cards fills a form the manual prediction accepts. */
  lemma TemplateFormAccepted(t: nat)
    requires t < |TemplateTitles|
    ensures TemplateTitles[t] in TemplateValues
    ensures HandlePredict(FilledForm(TemplateValues[TemplateTitles[t]])).Sent?
  {
    TemplatesComplete(t);
    FilledFormAccepted(TemplateValues[TemplateTitles[t]]);
  }
}

=== FILE: explorer.dfy ===
/** The explorer page: fetched signals without the false positives, the chip filter and
    the page on show, the "Filter" and "Sort By" buttons, and the CSV report. */
module Explorer {
  import opened Wrappers
  import opened Text
  import opened Lists
  import opened Signals

  /** The fetch handler keeps what is not a false positive; a signal without a
      prediction is kept. */
  function Fetched(results: seq<Signal>): (r: seq<Signal>)
    ensures forall i :: 0 <= i < |r| ==> r[i] in results && !IsFalsePositive(r[i])
    ensures forall i :: 0 <= i < |results| ==> (results[i] in r <==> !IsFalsePositive(results[i]))
  {
    Filter(results, (s: Signal) => !IsFalsePositive(s))
  }

  /** The fetch keeps the order of the results: fetching two halves gives the two kept
      halves one after the other. */
  lemma FetchedInOrder(a: seq<Signal>, b: seq<Signal>)
    ensures Fetched(a + b) == Fetched(a) + Fetched(b)
  {
    FilterAppend(a, b, (s: Signal) => !IsFalsePositive(s));
  }

  /** The page buttons of the explorer count the chip's signals, and the cards of all
      its pages are exactly the chip's signals in order. */
  lemma ShownPagesCoverChip(signals: seq<Signal>, chip: string)
    ensures var filtered := ByBucket(signals, chip);
      Pages(filtered, PageCount(|filtered|)) == filtered
  {
    AllPages(ByBucket(signals, chip));
  }

  // ---------------------------------------------------------------------------
  // The signal cards

  const Green: string := "text-green-400"
  const Yellow: string := "text-yellow-400"
  const Gray: string := "text-gray-400"

  /** `statusColor(pred)`: the colour of a prediction, compared lower-cased. */
  function StatusColor(pred: string): (c: string)
    ensures c == Green <==> Lower(pred) == "exoplanet"
    ensures c == Yellow <==> Lower(pred) == "candidate"
    ensures c == Gray <==> Lower(pred) != "exoplanet" && Lower(pred) != "candidate"
  {
    var p := Lower(pred);
    if p == "exoplanet" then Green else if p == "candidate" then Yellow else Gray
  }

  /** What a card shows: the badge text and its colour, the title, the reliability and
      the confidence percentage. */
  datatype Card = Card(id: int, badge: string, color: string, title: string,
                       reliability: string, confidence: string)

  /** The card of one signal. Both `statusColor(signal.prediction)` and
      `signal.prediction.toUpperCase()` throw (`None`) on a missing prediction. The title
      is the planet type, or "Unknown" for an empty one. */
  function CardOf(s: Signal): (c: Option<Card>)
    ensures c.None? <==> s.prediction.None?
    ensures c.Some? ==> Lower(c.value.badge) == Lower(s.prediction.value)
    ensures c.Some? ==> c.value.color == StatusColor(s.prediction.value) && c.value.color == StatusColor(c.value.badge)
    ensures c.Some? ==> c.value.title != "" && (s.planetType != "" ==> c.value.title == s.planetType)
    ensures c.Some? ==> c.value.id == s.id && c.value.reliability == s.reliability
    ensures c.Some? ==> '.' in c.value.confidence
  {
    match s.prediction
    case None => None
    case Some(p) =>
      LowerUpper(p);
      FixedTextHasPoint(s.confidence * 100.0, 1);
      Some(Card(s.id, Upper(p), StatusColor(p), if s.planetType == "" then "Unknown" else s.planetType,
                s.reliability, FixedText(s.confidence * 100.0, 1) + "%"))
  }

  /** The cards of a list of signals, or `None` once one of them throws. */
  function Cards(xs: seq<Signal>): (r: Option<seq<Card>>)
    ensures r.None? <==> exists i :: 0 <= i < |xs| && xs[i].prediction.None?
    ensures r.Some? ==> |r.value| == |xs| && forall i :: 0 <= i < |xs| ==> CardOf(xs[i]) == Some(r.value[i])
  {
    if |xs| == 0 then Some([])
    else
      match (CardOf(xs[0]), Cards(xs[1..]))
      case (Some(c), Some(cs)) =>
        assert forall i :: 1 <= i < |xs| ==> xs[i] == xs[1..][i - 1];
        Some([c] + cs)
      case (None, _) => None
      case (_, None) =>
        assert forall i :: 0 <= i < |xs[1..]| ==> xs[1..][i] == xs[i + 1];
        None
  }

  /** The card grid of the page on show: one card per shown signal, in order; rendering
      throws when a shown signal has no prediction. */
  function Render(signals: seq<Signal>, chip: string, page: nat): (r: Option<seq<Card>>)
    requires page >= 1
    ensures var shown := Shown(signals, chip, page);
      r.None? <==> exists i :: 0 <= i < |shown| && shown[i].prediction.None?
    ensures var shown := Shown(signals, chip, page);
      r.Some? ==> |r.value| == |shown| && forall i :: 0 <= i < |shown| ==> CardOf(shown[i]) == Some(r.value[i])
  {
    Cards(Shown(signals, chip, page))
  }

  /** Signals that all carry a prediction, as stored analyses do, always render, on
      every chip and page. */
  lemma PredictedSignalsRender(signals: seq<Signal>, chip: string, page: nat)
    requires page >= 1
    requires forall i :: 0 <= i < |signals| ==> signals[i].prediction.Some?
    ensures Render(signals, chip, page).Some?
  {
    var shown := Shown(signals, chip, page);
    forall i | 0 <= i < |shown|
      ensures shown[i].prediction.Some?
    {
      var j :| 0 <= j < |signals| && signals[j] == shown[i];
    }
  }

  /** The fetch keeps a signal without a prediction, and the first page of "All" then
      throws while rendering. */
  lemma MissingPredictionThrows()
    ensures var s := Signal(1, None, 0.5, "Low", "", 0, None);
      && Fetched([s]) == [s]
      && Shown(Fetched([s]), AllChip, 1) == [s]
      && Render(Fetched([s]), AllChip, 1).None?
  {
    var s := Signal(1, None, 0.5, "Low", "", 0, None);
    assert !IsFalsePositive(s);
    assert Fetched([s]) == [s] by {
      assert Fetched([s]) == [s] + Fetched([]);
    }
    UnknownChipKeepsAll([s], AllChip);
    assert Shown([s], AllChip, 1) == [s];
  }

  // ---------------------------------------------------------------------------
  // The "Filter" button

  /** A signal matches a prediction name when its own prediction lower-cases to the same
      text. */
  predicate Matches(s: Signal, name: string) {
    s.prediction.Some? && Lower(s.prediction.value) == Lower(name)
  }

  /** `applyFilter(name)`: "All" keeps the list; any other name keeps the matching
      signals, and the filter throws (`None`) on a signal without a prediction, since it
      calls `toLowerCase` on it. */
  function ApplyFilter(signals: seq<Signal>, name: string): (r: Option<seq<Signal>>)
    ensures name == AllChip ==> r == Some(signals)
    ensures name != AllChip ==> (r.None? <==> exists i :: 0 <= i < |signals| && signals[i].prediction.None?)
    ensures name != AllChip && r.Some? ==> forall i :: 0 <= i < |r.value| ==> Matches(r.value[i], name) && r.value[i] in signals
    ensures name != AllChip && r.Some? ==> forall i :: 0 <= i < |signals| ==> (signals[i] in r.value <==> Matches(signals[i], name))
  {
    if name == AllChip then Some(signals)
    else if exists i :: 0 <= i < |signals| && signals[i].prediction.None? then None
    else Some(Filter(signals, (s: Signal) => Matches(s, name)))
  }

  /** The button filters by "Exoplanet" and also makes that the chip; no chip has that
      name, so the chip filter then keeps everything the button kept. */
  lemma FilterButtonChip(signals: seq<Signal>)
    requires ApplyFilter(signals, "Exoplanet").Some?
    ensures var kept := ApplyFilter(signals, "Exoplanet").value;
      ByBucket(kept, "Exoplanet") == kept
  {
    UnknownChipKeepsAll(ApplyFilter(signals, "Exoplanet").value, "Exoplanet");
  }

  // ---------------------------------------------------------------------------
  // The "Sort By" button

  /** The keys of a signal. */
  datatype Key = Id | Prediction | Confidence | Reliability | PlanetType | OutlierCount | CreatedAt

  predicate NumberKey(k: Key) {
    k == Id || k == Confidence || k == OutlierCount
  }

  function NumberOf(s: Signal, k: Key): real
    requires NumberKey(k)
  {
    match k
    case Id => s.id as real
    case Confidence => s.confidence
    case OutlierCount => s.outlierCount as real
  }

  /** `String(a[key])` for a text key; a missing value reads "undefined". */
  function TextOf(s: Signal, k: Key): string
    requires !NumberKey(k)
  {
    match k
    case Prediction => s.prediction.GetOr("undefined")
    case Reliability => s.reliability
    case PlanetType => s.planetType
    case CreatedAt => s.createdAt.GetOr("undefined")
  }

  /** The comparator as "may come first": `b - a <= 0` for number keys, and
      `localeCompare` (given as `compare`) at most 0 for text keys. */
  function Before(k: Key, compare: (string, string) -> int): (Signal, Signal) -> bool {
    if NumberKey(k) then (a: Signal, b: Signal) => NumberOf(b, k) - NumberOf(a, k) <= 0.0
    else (a: Signal, b: Signal) => compare(TextOf(a, k), TextOf(b, k)) <= 0
  }

  /** `handleSort(key)`: a reordering of the signals. */
  function HandleSort(signals: seq<Signal>, k: Key, compare: (string, string) -> int): (r: seq<Signal>)
    ensures multiset(r) == multiset(signals)
  {
    Sort(signals, Before(k, compare))
  }

  /** Sorting by a number key puts the largest first. */
  lemma SortNumberDescending(signals: seq<Signal>, k: Key, compare: (string, string) -> int)
    requires NumberKey(k)
    ensures var r := HandleSort(signals, k, compare);
      forall i :: 0 <= i < |r| - 1 ==> NumberOf(r[i], k) >= NumberOf(r[i + 1], k)
  {
    var le := Before(k, compare);
    assert Total(le);
    SortSorted(signals, le);
  }

  /** `localeCompare` as a total order: of any two texts, one may come first. */
  ghost predicate TotalCompare(compare: (string, string) -> int) {
    forall a: string, b: string :: compare(a, b) <= 0 || compare(b, a) <= 0
  }

  /** Sorting by a text key orders the texts ascending by `localeCompare`. */
  lemma SortTextAscending(signals: seq<Signal>, k: Key, compare: (string, string) -> int)
    requires !NumberKey(k) && TotalCompare(compare)
    ensures var r := HandleSort(signals, k, compare);
      forall i :: 0 <= i < |r| - 1 ==> compare(TextOf(r[i], k), TextOf(r[i + 1], k)) <= 0
  {
    var le := Before(k, compare);
    forall a: Signal, b: Signal
      ensures le(a, b) || le(b, a)
    {
      assert compare(TextOf(a, k), TextOf(b, k)) <= 0 || compare(TextOf(b, k), TextOf(a, k)) <= 0;
    }
    SortSorted(signals, le);
  }

  // ---------------------------------------------------------------------------
  // The report

  const ReportHeader: seq<string> := ["ID", "Prediction", "Confidence", "Reliability", "Planet Type", "Outlier Count"]

  /** The six fields of a signal's line; an undefined prediction joins as empty text. */
  function ReportFields(s: Signal): (fs: seq<string>)
    ensures |fs| == |ReportHeader|
  {
    [IntToString(s.id), s.prediction.GetOr(""), FixedText(s.confidence * 100.0, 2) + "%",
     s.reliability, s.planetType, IntToString(s.outlierCount)]
  }

  function ReportLine(s: Signal): string {
    Join(ReportFields(s), ',')
  }

  function ReportLines(signals: seq<Signal>): (ls: seq<string>)
    ensures |ls| == |signals|
    ensures forall i :: 0 <= i < |ls| ==> ls[i] == ReportLine(signals[i])
  {
    seq(|signals|, i requires 0 <= i < |signals| => ReportLine(signals[i]))
  }

  /** `handleGenerateReport`: nothing without signals; otherwise the header line and one
      line per signal, joined by newlines. */
  function Report(signals: seq<Signal>): (csv: Option<string>)
    ensures csv.None? <==> |signals| == 0
  {
    if |signals| == 0 then None
    else Some(Join([Join(ReportHeader, ',')] + ReportLines(signals), '\n'))
  }

  /** The text a field of the report must avoid to come back whole. */
  predicate PlainField(t: string) {
    ',' !in t && '\n' !in t
  }

  /** When the text fields hold no comma or newline, the report reads back as the header
      and one line per signal, in order, each line splitting into its six fields. */
  lemma ReportReadsBack(signals: seq<Signal>, i: nat)
    requires |signals| > 0 && i < |signals|
    requires forall j :: 0 <= j < |signals| ==>
      && PlainField(signals[j].prediction.GetOr(""))
      && PlainField(signals[j].reliability)
      && PlainField(signals[j].planetType)
    ensures var lines := Split(Report(signals).value, '\n');
      && |lines| == |signals| + 1
      && Split(lines[0], ',') == ReportHeader
      && Split(lines[i + 1], ',') == ReportFields(signals[i])
  {
    var lines := [Join(ReportHeader, ',')] + ReportLines(signals);
    HeaderPlain();
    assert Free(lines, '\n') by {
      forall k | 0 <= k < |lines|
        ensures '\n' !in lines[k]
      {
        if k > 0 {
          FieldsPlain(signals[k - 1]);
        }
      }
    }
    SplitJoin(lines, '\n');
    SplitJoin(ReportHeader, ',');
    FieldsPlain(signals[i]);
    SplitJoin(ReportFields(signals[i]), ',');
  }

  lemma HeaderPlain()
    ensures Free(ReportHeader, ',') && '\n' !in Join(ReportHeader, ',')
  {
    forall k | 0 <= k < |ReportHeader|
      ensures PlainField(ReportHeader[k])
    {
    }
    JoinKeepsOut(ReportHeader, ',', '\n');
  }

  /** A line joins fields without commas or newlines, so it has no newline either. */
  lemma FieldsPlain(s: Signal)
    requires PlainField(s.prediction.GetOr("")) && PlainField(s.reliability) && PlainField(s.planetType)
    ensures Free(ReportFields(s), ',') && '\n' !in ReportLine(s)
  {
    var fs := ReportFields(s);
    NumbersPlain(s);
    assert forall k :: 0 <= k < |fs| ==> PlainField(fs[k]);
    JoinKeepsOut(fs, ',', '\n');
  }

  /** The written numbers of a line hold no comma or newline. */
  lemma NumbersPlain(s: Signal)
    ensures PlainField(IntToString(s.id)) && PlainField(IntToString(s.outlierCount))
    ensures PlainField(FixedText(s.confidence * 100.0, 2) + "%")
  {
    IntToStringNumeral(s.id);
    NumeralHasNoSeparator(IntToString(s.id));
    IntToStringNumeral(s.outlierCount);
    NumeralHasNoSeparator(IntToString(s.outlierCount));
    var t := FixedText(s.confidence * 100.0, 2);
    FixedTextNumeral(s.confidence * 100.0, 2);
    NumeralHasNoSeparator(t);
  }
}

=== FILE: fuzzy.dfy ===
/** The rule-based planet-type classifier of the prediction service: a fuzzy membership
    degree per feature, a weighted sum of degrees per planet class, and an argmax. */
module Fuzzy {
  import opened Wrappers
  import opened Text

  /** A membership degree, or the ZeroDivisionError the soft-only triangle raises when
      both of its soft bounds and the value coincide. */
  datatype Grade = Degree(d: real) | DivisionByZero

  /** Python truthiness of an optional bound: `None` and `0` are both false. */
  predicate Truthy(b: Option<real>) {
    b.Some? && b.value != 0.0
  }

  /** The trapezoid/triangle membership of `value` in the band given by optional primary
      bounds (degree 1) and soft bounds (degree falling linearly to 0). A missing value
      (`None` models NaN as well) has degree 0. */
  function Membership(value: Option<real>, primMin: Option<real>, primMax: Option<real>,
                      softMin: Option<real>, softMax: Option<real>): (g: Grade)
    ensures g.Degree? ==> 0.0 <= g.d <= 1.0
    ensures g.DivisionByZero? <==>
      && value.Some? && primMin.None? && primMax.None? && softMin.Some? && softMax.Some?
      && softMin.value == value.value == softMax.value
  {
    if value.None? then Degree(0.0)
    else
      var v := value.value;
      if primMin.Some? && primMax.Some? then
        var lo, hi := primMin.value, primMax.value;
        if lo <= v <= hi then Degree(1.0)
        else if softMin.Some? && softMin.value <= v < lo then
          RatioBounds(v - softMin.value, lo - softMin.value);
          Degree((v - softMin.value) / (lo - softMin.value))
        else if softMax.Some? && hi < v <= softMax.value then
          RatioBounds(softMax.value - v, softMax.value - hi);
          Degree((softMax.value - v) / (softMax.value - hi))
        else Degree(0.0)
      else if primMin.Some? then
        var lo := primMin.value;
        if v >= lo then Degree(1.0)
        else if Truthy(softMin) && softMin.value <= v < lo then
          RatioBounds(v - softMin.value, lo - softMin.value);
          Degree((v - softMin.value) / (lo - softMin.value))
        else Degree(0.0)
      else if primMax.Some? then
        var hi := primMax.value;
        if v <= hi then Degree(1.0)
        else if Truthy(softMax) && hi < v <= softMax.value then
          RatioBounds(softMax.value - v, softMax.value - hi);
          Degree((softMax.value - v) / (softMax.value - hi))
        else Degree(0.0)
      else if softMin.Some? && softMax.Some? then
        var lo, hi := softMin.value, softMax.value;
        if !(lo <= v <= hi) then Degree(0.0)
        else
          var mid := 0.5 * (lo + hi);
          if mid - lo == 0.0 then DivisionByZero
          else
            TriangleBounds(v, lo, hi);
            Degree(1.0 - Abs(v - mid) / (mid - lo))
      else Degree(0.0)
  }

  /** A shoulder ratio: a non-negative part of a positive whole lies in [0, 1), and is
      positive exactly when the part is. */
  lemma RatioBounds(a: real, d: real)
    requires 0.0 <= a < d
    ensures 0.0 <= a / d < 1.0
    ensures a / d > 0.0 <==> a > 0.0
  {
    var q := a / d;
    assert q * d == a;
  }

  lemma TriangleBounds(v: real, lo: real, hi: real)
    requires lo <= v <= hi && 0.5 * (lo + hi) - lo != 0.0
    ensures 0.0 <= 1.0 - Abs(v - 0.5 * (lo + hi)) / (0.5 * (lo + hi) - lo) <= 1.0
  {
    var mid := 0.5 * (lo + hi);
    var h := mid - lo;
    assert h > 0.0;
    assert Abs(v - mid) <= h;
    assert Abs(v - mid) / h <= 1.0 by {
      assert Abs(v - mid) / h * h == Abs(v - mid);
    }
    assert Abs(v - mid) / h >= 0.0;
  }

  /** With both primary bounds inside the soft ones the degree is 1 exactly on the
      primary band and positive exactly strictly inside the soft band. */
  lemma TrapezoidSupport(v: real, lo: real, hi: real, sLo: real, sHi: real)
    requires sLo < lo <= hi < sHi
    ensures (Membership(Some(v), Some(lo), Some(hi), Some(sLo), Some(sHi)) == Degree(1.0))
            <==> lo <= v <= hi
    ensures (Membership(Some(v), Some(lo), Some(hi), Some(sLo), Some(sHi)).d > 0.0)
            <==> sLo < v < sHi
  {
    if sLo <= v < lo {
      RatioBounds(v - sLo, lo - sLo);
    } else if hi < v <= sHi {
      RatioBounds(sHi - v, sHi - hi);
    }
  }

  /** The trapezoid rises up to the end of the primary band ... */
  lemma TrapezoidRising(v1: real, v2: real, lo: real, hi: real, sLo: real, sHi: real)
    requires sLo < lo <= hi < sHi
    requires v1 <= v2 <= hi
    ensures Membership(Some(v1), Some(lo), Some(hi), Some(sLo), Some(sHi)).d
            <= Membership(Some(v2), Some(lo), Some(hi), Some(sLo), Some(sHi)).d
  {
    if sLo <= v1 < lo && sLo <= v2 < lo {
      RatioMonotone(v1 - sLo, v2 - sLo, lo - sLo);
    }
  }

  /** ... and falls from its start onwards. */
  lemma TrapezoidFalling(v1: real, v2: real, lo: real, hi: real, sLo: real, sHi: real)
    requires sLo < lo <= hi < sHi
    requires lo <= v1 <= v2
    ensures Membership(Some(v2), Some(lo), Some(hi), Some(sLo), Some(sHi)).d
            <= Membership(Some(v1), Some(lo), Some(hi), Some(sLo), Some(sHi)).d
  {
    if hi < v1 <= sHi && hi < v2 <= sHi {
      RatioMonotone(sHi - v2, sHi - v1, sHi - hi);
    }
  }

  lemma RatioMonotone(a: real, b: real, d: real)
    requires a <= b && d > 0.0
    ensures a / d <= b / d
  {
    assert b / d - a / d == (b - a) / d;
  }

  /** With only a lower primary bound every value at or above it has degree 1, and a soft
      lower bound of 0 is ignored because it is tested for truthiness. */
  lemma LowerOnly(v: real, lo: real, sLo: Option<real>, sHi: Option<real>)
    ensures v >= lo ==> Membership(Some(v), Some(lo), None, sLo, sHi) == Degree(1.0)
    ensures Membership(Some(v), Some(lo), None, Some(0.0), sHi)
            == Membership(Some(v), Some(lo), None, None, sHi)
    ensures 0.0 <= v < lo ==> Membership(Some(v), Some(lo), None, Some(0.0), sHi) == Degree(0.0)
  {
  }

  /** The mirror image for an upper primary bound alone. */
  lemma UpperOnly(v: real, hi: real, sLo: Option<real>, sHi: Option<real>)
    ensures v <= hi ==> Membership(Some(v), None, Some(hi), sLo, sHi) == Degree(1.0)
    ensures Membership(Some(v), None, Some(hi), sLo, Some(0.0))
            == Membership(Some(v), None, Some(hi), sLo, None)
  {
  }

  /** With soft bounds only the degree is a symmetric triangle: 1 at the midpoint and 0
      outside the soft band. */
  lemma Triangle(v: real, d: real, sLo: real, sHi: real)
    requires sLo < sHi
    ensures Membership(Some(0.5 * (sLo + sHi)), None, None, Some(sLo), Some(sHi)) == Degree(1.0)
    ensures (v < sLo || v > sHi) ==> Membership(Some(v), None, None, Some(sLo), Some(sHi)) == Degree(0.0)
    ensures Membership(Some(0.5 * (sLo + sHi) + d), None, None, Some(sLo), Some(sHi))
            == Membership(Some(0.5 * (sLo + sHi) - d), None, None, Some(sLo), Some(sHi))
  {
    var mid := 0.5 * (sLo + sHi);
    assert mid - sLo > 0.0;
    assert sLo <= mid <= sHi;
    assert Abs(mid - mid) / (mid - sLo) == 0.0;
    assert Membership(Some(mid), None, None, Some(sLo), Some(sHi))
      == Degree(1.0 - Abs(mid - mid) / (mid - sLo));
    assert Abs(mid + d - mid) == Abs(mid - d - mid);
  }

  /** A missing value, or a feature without any bound, has degree 0. */
  lemma NothingKnown(value: Option<real>, primMin: Option<real>, primMax: Option<real>,
                     softMin: Option<real>, softMax: Option<real>)
    requires value.None? || (primMin.None? && primMax.None? && softMin.None? && softMax.None?)
    ensures Membership(value, primMin, primMax, softMin, softMax) == Degree(0.0)
  {
  }

  // ---------------------------------------------------------------------------
  // Class specifications and the weighted score

  /** One feature's band and weight within a planet class. */
  datatype FeatureSpec = FeatureSpec(
    feature: string,
    primMin: Option<real>, primMax: Option<real>,
    softMin: Option<real>, softMax: Option<real>,
    w: real)

  datatype ClassSpec = ClassSpec(name: string, features: seq<FeatureSpec>)

  function F(feature: string, primMin: Option<real>, primMax: Option<real>,
             softMin: Option<real>, softMax: Option<real>, w: real): FeatureSpec {
    FeatureSpec(feature, primMin, primMax, softMin, softMax, w)
  }

  const SuperEarth := ClassSpec("Super-Earth", [
    F("koi_prad", Some(1.5), Some(2.5), Some(1.2), Some(3.0), 0.50),
    F("koi_depth", Some(500.0), Some(2000.0), Some(300.0), Some(3000.0), 0.15),
    F("koi_duration", Some(2.0), Some(6.0), Some(1.0), Some(8.0), 0.10),
    F("koi_teq", None, None, Some(100.0), Some(1200.0), 0.15),
    F("koi_period", None, None, None, None, 0.10)])

  const MiniNeptune := ClassSpec("Mini-Neptune", [
    F("koi_prad", Some(2.5), Some(4.0), Some(2.2), Some(5.0), 0.45),
    F("koi_depth", Some(1500.0), Some(5000.0), Some(1000.0), Some(8000.0), 0.20),
    F("koi_duration", Some(3.0), Some(7.0), Some(2.0), Some(9.0), 0.10),
    F("koi_teq", None, None, Some(50.0), Some(1500.0), 0.15),
    F("koi_sma", None, None, Some(0.03), Some(0.6), 0.10)])

  const NeptuneLike := ClassSpec("Neptune-like", [
    F("koi_prad", Some(4.0), Some(6.0), Some(3.5), Some(7.0), 0.45),
    F("koi_depth", Some(4000.0), Some(10000.0), Some(3000.0), Some(14000.0), 0.20),
    F("koi_duration", Some(4.0), Some(10.0), Some(3.0), Some(12.0), 0.10),
    F("koi_sma", None, None, Some(0.1), Some(10.0), 0.10),
    F("koi_teq", None, None, Some(50.0), Some(1000.0), 0.15)])

  const GasGiant := ClassSpec("Gas Giant", [
    F("koi_prad", Some(6.0), Some(11.0), Some(5.0), Some(13.0), 0.45),
    F("koi_depth", Some(5000.0), None, Some(4000.0), None, 0.15),
    F("koi_duration", Some(6.0), Some(12.0), Some(5.0), Some(15.0), 0.10),
    F("koi_teq", None, Some(500.0), None, Some(1000.0), 0.15),
    F("koi_sma", Some(0.5), None, Some(0.1), Some(10.0), 0.15)])

  const HotJupiter := ClassSpec("Hot Jupiter", [
    F("koi_prad", Some(8.0), None, Some(6.5), None, 0.40),
    F("koi_period", None, Some(10.0), None, Some(20.0), 0.25),
    F("koi_teq", Some(1000.0), None, Some(800.0), None, 0.15),
    F("koi_depth", Some(10000.0), None, Some(8000.0), None, 0.10),
    F("koi_duration", Some(2.0), Some(5.0), Some(1.5), Some(6.0), 0.10)])

  /** The five planet classes in declaration order (ties in the argmax go to the first). */
  const ClassSpecs: seq<ClassSpec> := [SuperEarth, MiniNeptune, NeptuneLike, GasGiant, HotJupiter]

  /** A feature can never raise: it is not a degenerate soft-only triangle. */
  predicate WellFormed(f: FeatureSpec) {
    !(f.primMin.None? && f.primMax.None? && f.softMin.Some? && f.softMax.Some?
      && f.softMin.value == f.softMax.value)
  }

  predicate AllWellFormed(fs: seq<FeatureSpec>) {
    forall k :: 0 <= k < |fs| ==> WellFormed(fs[k]) && fs[k].w >= 0.0
  }

  function WeightSum(fs: seq<FeatureSpec>): real {
    if |fs| == 0 then 0.0 else fs[0].w + WeightSum(fs[1..])
  }

  /** No two classes share a name, so the score dictionary has one entry per class. */
  lemma ClassNamesDistinct()
    ensures forall i, j :: 0 <= i < j < |ClassSpecs| ==> ClassSpecs[i].name != ClassSpecs[j].name
  {
  }

  /** Every class of the table is well formed and its weights add up to exactly 1;
      only Super-Earth carries weight it cannot earn. */
  lemma SpecsWellFormed()
    ensures forall c :: 0 <= c < |ClassSpecs| ==>
      AllWellFormed(ClassSpecs[c].features) && WeightSum(ClassSpecs[c].features) == 1.0
    ensures EarnableWeight(SuperEarth.features) == 0.9
    ensures ValidTable(ClassSpecs)
  {
    SuperEarthChecks();
    MiniNeptuneChecks();
    NeptuneLikeChecks();
    GasGiantChecks();
    HotJupiterChecks();
  }

  /** One class's features are well formed, weigh 1 in total, and can earn `earnable`. */
  predicate ClassOk(c: ClassSpec, earnable: real) {
    AllWellFormed(c.features) && WeightSum(c.features) == 1.0 && EarnableWeight(c.features) == earnable
  }

  lemma SuperEarthChecks() ensures ClassOk(SuperEarth, 0.9) {}
  lemma MiniNeptuneChecks() ensures ClassOk(MiniNeptune, 1.0) {}
  lemma NeptuneLikeChecks() ensures ClassOk(NeptuneLike, 1.0) {}
  lemma GasGiantChecks() ensures ClassOk(GasGiant, 1.0) {}
  lemma HotJupiterChecks() ensures ClassOk(HotJupiter, 1.0) {}

  /** Every class can be scored without raising, and no score can exceed 1. */
  predicate ValidTable(specs: seq<ClassSpec>) {
    forall c :: 0 <= c < |specs| ==>
      AllWellFormed(specs[c].features) && EarnableWeight(specs[c].features) <= 1.0
  }

  /** A feature with at least one bound: the only kind that can earn its weight. */
  predicate Bounded(f: FeatureSpec) {
    f.primMin.Some? || f.primMax.Some? || f.softMin.Some? || f.softMax.Some?
  }

  /** The weight a class can actually earn: the weights of its bounded features. */
  function EarnableWeight(fs: seq<FeatureSpec>): real {
    if |fs| == 0 then 0.0 else (if Bounded(fs[0]) then fs[0].w else 0.0) + EarnableWeight(fs[1..])
  }

  /** `row.get(feat, nan)`. */
  function Lookup(row: map<string, real>, feature: string): Option<real> {
    if feature in row then Some(row[feature]) else None
  }

  function FeatureDegree(f: FeatureSpec, row: map<string, real>): (d: real)
    requires WellFormed(f)
    ensures 0.0 <= d <= 1.0
    ensures !Bounded(f) ==> d == 0.0
  {
    var v := Lookup(row, f.feature);
    var g := Membership(v, f.primMin, f.primMax, f.softMin, f.softMax);
    g.d
  }

  /** The degree of every feature of a class, in table order. */
  function Degrees(fs: seq<FeatureSpec>, row: map<string, real>): (ds: seq<real>)
    requires AllWellFormed(fs)
    ensures |ds| == |fs|
    ensures forall k :: 0 <= k < |fs| ==> 0.0 <= ds[k] <= 1.0 && (!Bounded(fs[k]) ==> ds[k] == 0.0)
  {
    seq(|fs|, k requires 0 <= k < |fs| => FeatureDegree(fs[k], row))
  }

  /** The weighted sum of degrees in [0, 1] lies between 0 and the weight the bounded
      features carry. */
  function WeightedSum(fs: seq<FeatureSpec>, ds: seq<real>): (s: real)
    requires |ds| == |fs|
    requires forall k :: 0 <= k < |fs| ==> fs[k].w >= 0.0 && 0.0 <= ds[k] <= 1.0
    requires forall k :: 0 <= k < |fs| ==> !Bounded(fs[k]) ==> ds[k] == 0.0
    ensures 0.0 <= s <= EarnableWeight(fs)
  {
    if |fs| == 0 then 0.0
    else
      var rest := WeightedSum(fs[1..], ds[1..]);
      assert EarnableWeight(fs) == (if Bounded(fs[0]) then fs[0].w else 0.0) + EarnableWeight(fs[1..]);
      Weighted(fs[0].w, ds[0]) + rest
  }

  /** One feature's contribution `w * score`, between 0 and its weight. */
  function Weighted(w: real, d: real): (c: real)
    requires w >= 0.0 && 0.0 <= d <= 1.0
    ensures 0.0 <= c <= w
    ensures d == 0.0 ==> c == 0.0
  {
    assert w * d <= w * 1.0;
    w * d
  }

  /** The score of one class for a row: `sum(w * membership)` over its features. */
  function ClassScore(fs: seq<FeatureSpec>, row: map<string, real>): (s: real)
    requires AllWellFormed(fs)
    ensures 0.0 <= s <= EarnableWeight(fs)
  {
    WeightedSum(fs, Degrees(fs, row))
  }

  lemma {:induction false} EarnableAtMostWeight(fs: seq<FeatureSpec>)
    requires AllWellFormed(fs)
    ensures EarnableWeight(fs) <= WeightSum(fs)
  {
    if |fs| > 0 {
      assert AllWellFormed(fs[1..]);
      EarnableAtMostWeight(fs[1..]);
    }
  }

  /** The score of every class of a table, in table order. */
  function ScoresOf(specs: seq<ClassSpec>, row: map<string, real>): (scores: seq<real>)
    requires ValidTable(specs)
    ensures |scores| == |specs|
    ensures forall c :: 0 <= c < |scores| ==> 0.0 <= scores[c] <= 1.0
  {
    seq(|specs|, c requires 0 <= c < |specs| => ClassScore(specs[c].features, row))
  }

  function Scores(row: map<string, real>): (scores: seq<real>)
    ensures |scores| == |ClassSpecs|
    ensures forall c :: 0 <= c < |scores| ==> 0.0 <= scores[c] <= 1.0
  {
    SpecsWellFormed();
    ScoresOf(ClassSpecs, row)
  }

  /** Python's `max(d, key=d.get)`: the first position holding the largest value. */
  function ArgMax(xs: seq<real>): (i: nat)
    requires |xs| > 0
    ensures i < |xs|
    ensures forall j :: 0 <= j < |xs| ==> xs[j] <= xs[i]
    ensures forall j :: 0 <= j < i ==> xs[j] < xs[i]
  {
    if |xs| == 1 then 0
    else
      var k := ArgMax(xs[..|xs| - 1]);
      if xs[|xs| - 1] > xs[k] then |xs| - 1 else k
  }

  datatype Assignment = Assignment(best: string, scores: seq<real>)

  /** Position `i` holds the largest score and no earlier position ties it. */
  predicate FirstBest(scores: seq<real>, i: nat)
    requires i < |scores|
  {
    && (forall j :: 0 <= j < |scores| ==> scores[j] <= scores[i])
    && (forall j :: 0 <= j < i ==> scores[j] < scores[i])
  }

  /** `assign_planet_type_multi`: the best-scoring class name together with all scores. */
  function AssignPlanetType(row: map<string, real>): (a: Assignment)
    ensures |a.scores| == |ClassSpecs|
    ensures forall c :: 0 <= c < |a.scores| ==> 0.0 <= a.scores[c] <= 1.0
    ensures exists i :: 0 <= i < |ClassSpecs| && a.best == ClassSpecs[i].name && FirstBest(a.scores, i)
  {
    var scores := Scores(row);
    var i := ArgMax(scores);
    Assignment(ClassSpecs[i].name, scores)
  }

  /** Super-Earth can never score above 0.9: its orbital-period entry has no bounds, so
      its weight of 0.10 is never earned. */
  lemma SuperEarthCapped(row: map<string, real>)
    ensures Scores(row)[0] <= 0.9
  {
    SpecsWellFormed();
  }

  /** With no features at all every score is 0 and the tie goes to the first class. */
  lemma EmptyRowIsSuperEarth()
    ensures AssignPlanetType(map[]).best == "Super-Earth"
  {
    SpecsWellFormed();
    var scores := Scores(map[]);
    assert scores == ScoresOf(ClassSpecs, map[]);
    EmptyRowScoresZero(ClassSpecs);
    TieGoesFirst(scores);
    assert ClassSpecs[0] == SuperEarth;
  }

  /** In any valid table an empty row scores 0 for every class. */
  lemma EmptyRowScoresZero(specs: seq<ClassSpec>)
    requires ValidTable(specs)
    ensures forall c :: 0 <= c < |specs| ==> ScoresOf(specs, map[])[c] == 0.0
  {
    forall c | 0 <= c < |specs|
      ensures ScoresOf(specs, map[])[c] == 0.0
    {
      NoFeaturesScoreZero(specs[c].features);
    }
  }

  /** When every value is equal the first position wins. */
  lemma TieGoesFirst(xs: seq<real>)
    requires |xs| > 0
    requires forall j :: 0 <= j < |xs| ==> xs[j] == xs[0]
    ensures ArgMax(xs) == 0
  {
  }

  lemma {:induction false} NoFeaturesScoreZero(fs: seq<FeatureSpec>)
    requires AllWellFormed(fs)
    ensures ClassScore(fs, map[]) == 0.0
  {
    var ds := Degrees(fs, map[]);
    forall k | 0 <= k < |fs|
      ensures ds[k] == 0.0
    {
      NothingKnown(None, fs[k].primMin, fs[k].primMax, fs[k].softMin, fs[k].softMax);
    }
    ZeroDegreesSumZero(fs, ds);
  }

  lemma {:induction false} ZeroDegreesSumZero(fs: seq<FeatureSpec>, ds: seq<real>)
    requires |ds| == |fs|
    requires forall k :: 0 <= k < |fs| ==> fs[k].w >= 0.0 && ds[k] == 0.0
    ensures WeightedSum(fs, ds) == 0.0
  {
    if |fs| > 0 {
      ZeroDegreesSumZero(fs[1..], ds[1..]);
    }
  }
}

=== FILE: help.dfy ===
/** The help page: search suggestions over the documentation titles, the search that
    selects a document, the suggestion buttons, the two accordions and the feedback
    buttons of the questions. */
module Help {
  import opened Wrappers
  import opened Text
  import opened Lists

  /** A documentation entry. */
  datatype Doc = Doc(title: string, content: string)

  /** The titles of the page's five documentation entries, in order. */
  const HelpTitles: seq<string> := [
    "What is a light curve?",
    "How do I upload data?",
    "How does the analysis page work?",
    "How can I share my findings?",
    "How do I detect anomalies?"
  ]

  function Titles(docs: seq<Doc>): (ts: seq<string>)
    ensures |ts| == |docs|
    ensures forall i :: 0 <= i < |ts| ==> ts[i] == docs[i].title
  {
    seq(|docs|, i requires 0 <= i < |docs| => docs[i].title)
  }

  /** A title is suggested when it contains the query, both lower-cased. */
  predicate Suggests(query: string, title: string) {
    Contains(Lower(title), Lower(query))
  }

  /** The suggestion buttons: the titles containing the query, case aside, in order. */
  function Suggestions(titles: seq<string>, query: string): (r: seq<string>)
    ensures forall i :: 0 <= i < |r| ==> r[i] in titles && Suggests(query, r[i])
    ensures forall i :: 0 <= i < |titles| ==> (titles[i] in r <==> Suggests(query, titles[i]))
  {
    Filter(titles, (t: string) => Suggests(query, t))
  }

  /** An empty query suggests every title. */
  lemma EmptyQuerySuggestsAll(titles: seq<string>)
    ensures Suggestions(titles, "") == titles
  {
    FilterKeepsAll(titles, (t: string) => Suggests("", t));
  }

  /** On the page, that is all five questions. */
  lemma EmptyQuerySuggestsFive()
    ensures |Suggestions(HelpTitles, "")| == 5
  {
    EmptyQuerySuggestsAll(HelpTitles);
  }

  /** Lower-casing goes character by character. */
  lemma LowerAppend(a: string, b: string)
    ensures Lower(a + b) == Lower(a) + Lower(b)
  {
    assert forall i :: 0 <= i < |a + b| ==> Lower(a + b)[i] == (Lower(a) + Lower(b))[i];
  }

  /** A text that contains `p + q` contains `p`. */
  lemma ContainsPrefix(hay: string, p: string, q: string)
    requires Contains(hay, p + q)
    ensures Contains(hay, p)
  {
    ContainsIffOccurs(hay, p + q);
    var i :| OccursAt(hay, p + q, i);
    assert hay[i..i + |p|] == (p + q)[..|p|];
    assert OccursAt(hay, p, i);
    ContainsIffOccurs(hay, p);
  }

  /** Typing more narrows the suggestions: each suggestion for the longer query is one
      for the shorter. */
  lemma TypingNarrows(titles: seq<string>, query: string, more: string, i: nat)
    requires i < |Suggestions(titles, query + more)|
    ensures Suggestions(titles, query + more)[i] in Suggestions(titles, query)
  {
    var t := Suggestions(titles, query + more)[i];
    LowerAppend(query, more);
    ContainsPrefix(Lower(t), Lower(query), Lower(more));
    var k :| 0 <= k < |titles| && titles[k] == t;
  }

  /** `handleSearch`: the first document whose title equals the query, case aside;
      `None` (null) when there is none. */
  function HandleSearch(docs: seq<Doc>, query: string): (r: Option<Doc>)
    ensures r.None? <==> forall i :: 0 <= i < |docs| ==> Lower(docs[i].title) != Lower(query)
    ensures r.Some? ==> exists i :: (0 <= i < |docs| && docs[i] == r.value && Lower(docs[i].title) == Lower(query)
      && forall j :: 0 <= j < i ==> Lower(docs[j].title) != Lower(query))
  {
    Find(docs, (d: Doc) => Lower(d.title) == Lower(query))
  }

  /** The search box and the selected document. */
  datatype Search = Search(query: string, selected: Option<Doc>)

  /** A suggestion button puts its title in the box and selects the first document with
      exactly that title. */
  function ClickSuggestion(docs: seq<Doc>, question: string): (s: Search)
    ensures s.query == question
    ensures s.selected.None? <==> question !in Titles(docs)
    ensures s.selected.Some? ==> s.selected.value in docs && s.selected.value.title == question
  {
    var r := Find(docs, (d: Doc) => d.title == question);
    assert r.None? <==> question !in Titles(docs) by {
      if question in Titles(docs) {
        var k :| 0 <= k < |docs| && Titles(docs)[k] == question;
      }
    }
    Search(question, r)
  }

  /** When no two titles are equal case aside, a suggestion selects the same document
      that searching for its title does. */
  lemma ClickAgreesWithSearch(docs: seq<Doc>, k: nat)
    requires k < |docs|
    requires forall a, b :: 0 <= a < b < |docs| ==> Lower(docs[a].title) != Lower(docs[b].title)
    ensures ClickSuggestion(docs, docs[k].title).selected == Some(docs[k])
    ensures HandleSearch(docs, docs[k].title) == Some(docs[k])
  {
    var q := docs[k].title;
    var s := ClickSuggestion(docs, q).selected;
    var i :| 0 <= i < |docs| && docs[i] == s.value && docs[i].title == q;
    assert i == k;
    var h := HandleSearch(docs, q);
    var j :| 0 <= j < |docs| && docs[j] == h.value && Lower(docs[j].title) == Lower(q);
    assert j == k;
  }

  // ---------------------------------------------------------------------------
  // Accordions and feedback

  /** Which item of an accordion is open: at most one. */
  type Active = Option<nat>

  predicate IsOpen(active: Active, index: nat) {
    active == Some(index)
  }

  /** Clicking item `index`: closes it when it is open, otherwise opens it alone. */
  function Toggle(active: Active, index: nat): (r: Active)
    ensures IsOpen(r, index) <==> !IsOpen(active, index)
    ensures forall k :: k != index ==> !IsOpen(r, k)
  {
    if active == Some(index) then None else Some(index)
  }

  /** After any click at most one item is open; clicking a closed item twice closes
      everything, and an item clicked twice is as open as it was. */
  lemma ToggleAtMostOne(active: Active, index: nat, a: nat, b: nat)
    ensures IsOpen(Toggle(active, index), a) && IsOpen(Toggle(active, index), b) ==> a == b
    ensures !IsOpen(active, index) ==> Toggle(Toggle(active, index), index) == None
    ensures IsOpen(Toggle(Toggle(active, index), index), index) <==> IsOpen(active, index)
  {
  }

  /** The answers each question got, by question index. */
  type Feedback = map<nat, string>

  /** A "Yes" or "No" click records its answer for its question only. */
  function Give(fb: Feedback, index: nat, answer: string): (r: Feedback)
    ensures index in r && r[index] == answer
    ensures forall k :: k != index ==> (k in r <==> k in fb)
    ensures forall k :: k != index && k in fb ==> r[k] == fb[k]
  {
    fb[index := answer]
  }

  /** The last click wins. */
  lemma LastClickWins(fb: Feedback, index: nat, first: string, second: string)
    ensures Give(Give(fb, index, first), index, second) == Give(fb, index, second)
  {
  }

  /** Clicks on different questions do not interfere. */
  lemma ClicksCommute(fb: Feedback, i: nat, j: nat, a: string, b: string)
    requires i != j
    ensures Give(Give(fb, i, a), j, b) == Give(Give(fb, j, b), i, a)
  {
  }

  /** The "Yes" button is highlighted for a question answered "yes", "No" for "no". */
  predicate Highlighted(fb: Feedback, index: nat, answer: string) {
    index in fb && fb[index] == answer
  }

  /** After a click exactly the clicked button of that question is highlighted, and the
      highlights of the other questions stay as they were. */
  lemma ClickHighlights(fb: Feedback, index: nat, answer: string, other: string, k: nat)
    requires answer in {"yes", "no"} && other in {"yes", "no"} && other != answer
    ensures Highlighted(Give(fb, index, answer), index, answer)
    ensures !Highlighted(Give(fb, index, answer), index, other)
    ensures k != index ==> (Highlighted(Give(fb, index, answer), k, other) <==> Highlighted(fb, k, other))
  {
  }
}

=== FILE: json.dfy ===
/** Dynamic values: the dictionaries the Python service passes around and the objects the
    TypeScript pages receive from it. Object key order is not modelled. */
module Json {
  import opened Wrappers

  datatype Json =
    | JNull                      // Python None, JavaScript null
    | JUndefined                 // JavaScript undefined (a missing property read)
    | JBool(b: bool)
    | JNum(n: real)
    | JStr(s: string)
    | JArr(items: seq<Json>)
    | JObj(fields: map<string, Json>)

  /** Python truthiness (`if x:` / `x or y`). */
  predicate Truthy(j: Json) {
    match j
    case JNull => false
    case JUndefined => false
    case JBool(b) => b
    case JNum(n) => n != 0.0
    case JStr(s) => |s| > 0
    case JArr(items) => |items| > 0
    case JObj(fields) => |fields| > 0
  }

  /** Python `len(j)`; `None` where `len` raises a TypeError. */
  function Len(j: Json): Option<nat> {
    match j
    case JStr(s) => Some(|s|)
    case JArr(items) => Some(|items|)
    case JObj(fields) => Some(|fields|)
    case _ => None
  }

  /** `d.get(key)` on a dictionary, `None` when the key is absent. */
  function Get(d: map<string, Json>, key: string): Option<Json> {
    if key in d then Some(d[key]) else None
  }

  /** `d.get(key, default)`. */
  function GetOr(d: map<string, Json>, key: string, default: Json): Json {
    if key in d then d[key] else default
  }

  /** Python `j[key]` with a string key: a dictionary lookup, a KeyError when the key is
      absent, and a TypeError on anything that is not a dictionary. */
  function Index(j: Json, key: string): (r: Result<Json, PyError>)
    ensures r.Ok? <==> j.JObj? && key in j.fields
    ensures r.Ok? ==> r.value == j.fields[key]
    ensures j.JObj? && key !in j.fields ==> r == Err(KeyError(key))
    ensures !j.JObj? ==> r == Err(TypeError)
  {
    match j
    case JObj(fields) => if key in fields then Ok(fields[key]) else Err(KeyError(key))
    case _ => Err(TypeError)
  }

  /** Python `j.get(key, default)`: an AttributeError on anything but a dictionary. */
  function GetAttr(j: Json, key: string, default: Json): (r: Result<Json, PyError>)
    ensures r.Ok? <==> j.JObj?
    ensures r.Ok? ==> r.value == GetOr(j.fields, key, default)
    ensures !j.JObj? ==> r == Err(AttributeError)
  {
    match j
    case JObj(fields) => Ok(GetOr(fields, key, default))
    case _ => Err(AttributeError)
  }

  /** Python `len(j)` as a result: a TypeError on unsized values. */
  function Length(j: Json): (r: Result<nat, PyError>)
    ensures r.Ok? <==> Len(j).Some?
    ensures r.Ok? ==> r.value == Len(j).value
    ensures r.Err? ==> r.error == TypeError
  {
    match Len(j)
    case Some(n) => Ok(n)
    case None => Err(TypeError)
  }
}

=== FILE: lists.dfy ===
/** List operations the pages share: `Array.prototype.filter` and a stable
    comparison sort, each with what it keeps. */
module Lists {
  import opened Wrappers

  /** `xs.filter(keep)`: the kept elements, in their order. */
  function Filter<T>(xs: seq<T>, keep: T -> bool): (r: seq<T>)
    ensures |r| <= |xs|
    ensures forall i :: 0 <= i < |r| ==> keep(r[i]) && r[i] in xs
    ensures forall i :: 0 <= i < |xs| ==> (xs[i] in r <==> keep(xs[i]))
  {
    if |xs| == 0 then []
    else (if keep(xs[0]) then [xs[0]] else []) + Filter(xs[1..], keep)
  }

  /** Filtering goes element by element, so it keeps the order of the list. */
  lemma {:induction false} FilterAppend<T>(a: seq<T>, b: seq<T>, keep: T -> bool)
    ensures Filter(a + b, keep) == Filter(a, keep) + Filter(b, keep)
  {
    if |a| == 0 {
      assert a + b == b;
    } else {
      assert (a + b)[0] == a[0];
      assert (a + b)[1..] == a[1..] + b;
      FilterAppend(a[1..], b, keep);
    }
  }

  /** Filtering a prefix gives a prefix of the filtered list. */
  lemma FilterPrefix<T>(xs: seq<T>, k: nat, keep: T -> bool)
    requires k <= |xs|
    ensures |Filter(xs[..k], keep)| <= |Filter(xs, keep)|
    ensures Filter(xs[..k], keep) == Filter(xs, keep)[..|Filter(xs[..k], keep)|]
  {
    assert xs == xs[..k] + xs[k..];
    FilterAppend(xs[..k], xs[k..], keep);
  }

  /** A filter that keeps every element returns the list unchanged. */
  lemma {:induction false} FilterKeepsAll<T>(xs: seq<T>, keep: T -> bool)
    requires forall i :: 0 <= i < |xs| ==> keep(xs[i])
    ensures Filter(xs, keep) == xs
  {
    if |xs| > 0 {
      FilterKeepsAll(xs[1..], keep);
    }
  }

  /** A filter that keeps nothing returns the empty list. */
  lemma {:induction false} FilterKeepsNone<T>(xs: seq<T>, keep: T -> bool)
    requires forall i :: 0 <= i < |xs| ==> !keep(xs[i])
    ensures Filter(xs, keep) == []
  {
    if |xs| > 0 {
      FilterKeepsNone(xs[1..], keep);
    }
  }

  /** The filter's length is the number of kept elements. */
  function Count<T>(xs: seq<T>, keep: T -> bool): (n: nat)
    ensures n <= |xs|
  {
    if |xs| == 0 then 0 else (if keep(xs[0]) then 1 else 0) + Count(xs[1..], keep)
  }

  lemma {:induction false} FilterCount<T>(xs: seq<T>, keep: T -> bool)
    ensures |Filter(xs, keep)| == Count(xs, keep)
  {
    if |xs| > 0 {
      FilterCount(xs[1..], keep);
    }
  }

  /** `xs.find(keep)`: the first element kept, `None` (undefined) when there is none. */
  function Find<T>(xs: seq<T>, keep: T -> bool): (r: Option<T>)
    ensures r.None? <==> forall i :: 0 <= i < |xs| ==> !keep(xs[i])
    ensures r.Some? ==> exists i :: 0 <= i < |xs| && xs[i] == r.value && keep(xs[i]) && forall j :: 0 <= j < i ==> !keep(xs[j])
  {
    if |xs| == 0 then None
    else if keep(xs[0]) then Some(xs[0])
    else
      var r := Find(xs[1..], keep);
      assert forall i :: 1 <= i < |xs| ==> xs[i] == xs[1..][i - 1];
      r
  }

  // ---------------------------------------------------------------------------
  // Sorting

  /** `le(a, b)`: `a` may come before `b` (the comparator gives at most 0). */
  ghost predicate Total<T(!new)>(le: (T, T) -> bool) {
    forall a: T, b: T :: le(a, b) || le(b, a)
  }

  predicate Sorted<T>(s: seq<T>, le: (T, T) -> bool) {
    forall i :: 0 <= i < |s| - 1 ==> le(s[i], s[i + 1])
  }

  /** `x` placed before the first element it may precede. */
  function Insert<T>(x: T, s: seq<T>, le: (T, T) -> bool): (r: seq<T>)
    ensures |r| == |s| + 1
    ensures multiset(r) == multiset(s) + multiset{x}
    ensures r[0] == x || (|s| > 0 && r[0] == s[0])
  {
    if |s| == 0 then [x]
    else if le(x, s[0]) then [x] + s
    else
      assert s == [s[0]] + s[1..];
      [s[0]] + Insert(x, s[1..], le)
  }

  /** `[...s].sort(cmp)`: an insertion sort, stable like the engine's (see SortStable). */
  function Sort<T>(s: seq<T>, le: (T, T) -> bool): (r: seq<T>)
    ensures |r| == |s|
    ensures multiset(r) == multiset(s)
  {
    if |s| == 0 then []
    else
      assert s == [s[0]] + s[1..];
      Insert(s[0], Sort(s[1..], le), le)
  }

  lemma {:induction false} InsertSorted<T(!new)>(x: T, s: seq<T>, le: (T, T) -> bool)
    requires Total(le) && Sorted(s, le)
    ensures Sorted(Insert(x, s, le), le)
  {
    if |s| > 0 && !le(x, s[0]) {
      var tail := Insert(x, s[1..], le);
      InsertSorted(x, s[1..], le);
      assert le(s[0], x);
      assert |s| > 1 ==> le(s[0], s[1]);
      assert le(s[0], tail[0]);
      var r := [s[0]] + tail;
      forall i | 0 <= i < |r| - 1
        ensures le(r[i], r[i + 1])
      {
        if i > 0 {
          assert r[i] == tail[i - 1] && r[i + 1] == tail[i];
        }
      }
    }
  }

  /** With a total comparator the result is in order. */
  lemma {:induction false} SortSorted<T(!new)>(s: seq<T>, le: (T, T) -> bool)
    requires Total(le)
    ensures Sorted(Sort(s, le), le)
  {
    if |s| > 0 {
      SortSorted(s[1..], le);
      InsertSorted(s[0], Sort(s[1..], le), le);
    }
  }

  /** `a` before `b` before `c` lets `a` come before `c`. */
  ghost predicate Transitive<T(!new)>(le: (T, T) -> bool) {
    forall a: T, b: T, c: T :: le(a, b) && le(b, c) ==> le(a, c)
  }

  /** The elements tied with `x`: each of the two may come before the other. */
  function TiedWith<T>(x: T, le: (T, T) -> bool): T -> bool {
    y => le(x, y) && le(y, x)
  }

  /** Any two elements tied with `x` may come in either order. */
  ghost predicate TiesComparable<T(!new)>(le: (T, T) -> bool, x: T) {
    forall a: T, b: T :: TiedWith(x, le)(a) && TiedWith(x, le)(b) ==> le(a, b)
  }

  lemma TransitiveTies<T(!new)>(le: (T, T) -> bool, x: T)
    requires Transitive(le)
    ensures TiesComparable(le, x)
  {
    forall a: T, b: T | TiedWith(x, le)(a) && TiedWith(x, le)(b)
      ensures le(a, b)
    {
      assert le(a, x) && le(x, b);
    }
  }

  /** Inserting `x0` adds it to its own tie class only, in front: everything it passes
      on the way in ranks strictly before it. */
  lemma {:induction false} InsertKeepsTies<T(!new)>(x0: T, t: seq<T>, le: (T, T) -> bool, x: T)
    requires TiesComparable(le, x)
    ensures Filter(Insert(x0, t, le), TiedWith(x, le))
      == (if TiedWith(x, le)(x0) then [x0] else []) + Filter(t, TiedWith(x, le))
  {
    if |t| == 0 {
      assert Insert(x0, t, le) == [x0];
    } else if le(x0, t[0]) {
      assert Insert(x0, t, le) == [x0] + t;
      FilterCons(x0, t, TiedWith(x, le));
    } else {
      InsertKeepsTies(x0, t[1..], le, x);
      NotBothTied(le, x, x0, t[0]);
      InsertPastStep(x0, t, le, TiedWith(x, le));
    }
  }

  /** An element that may not precede `y` is not tied with `y`'s ties. */
  lemma NotBothTied<T(!new)>(le: (T, T) -> bool, x: T, x0: T, y: T)
    requires TiesComparable(le, x) && !le(x0, y)
    ensures !(TiedWith(x, le)(x0) && TiedWith(x, le)(y))
  {
  }

  /** The step of `InsertKeepsTies` where `x0` passes `t[0]`. */
  lemma InsertPastStep<T>(x0: T, t: seq<T>, le: (T, T) -> bool, p: T -> bool)
    requires |t| > 0 && !le(x0, t[0]) && !(p(x0) && p(t[0]))
    requires Filter(Insert(x0, t[1..], le), p) == (if p(x0) then [x0] else []) + Filter(t[1..], p)
    ensures Filter(Insert(x0, t, le), p) == (if p(x0) then [x0] else []) + Filter(t, p)
  {
    var a := if p(x0) then [x0] else [];
    var b := if p(t[0]) then [t[0]] else [];
    var f := Filter(t[1..], p);
    InsertPast(x0, t, le);
    FilterCons(t[0], Insert(x0, t[1..], le), p);
    assert Filter(t, p) == b + f;
    SwapEmpty(a, b, f);
  }

  /** `x0` that may not precede `t[0]` goes into the tail. */
  lemma InsertPast<T>(x0: T, t: seq<T>, le: (T, T) -> bool)
    requires |t| > 0 && !le(x0, t[0])
    ensures Insert(x0, t, le) == [t[0]] + Insert(x0, t[1..], le)
  {
  }

  /** Two prefixes commute when one of them is empty. */
  lemma SwapEmpty<T>(a: seq<T>, b: seq<T>, f: seq<T>)
    requires a == [] || b == []
    ensures b + (a + f) == a + (b + f)
  {
    if a == [] {
      assert a + f == f && a + (b + f) == b + f;
    } else {
      assert b + (a + f) == a + f && b + f == f;
    }
  }

  /** Filtering `[y] + t` decides `y` first. */
  lemma FilterCons<T>(y: T, t: seq<T>, keep: T -> bool)
    ensures Filter([y] + t, keep) == (if keep(y) then [y] else []) + Filter(t, keep)
  {
    assert ([y] + t)[1..] == t;
  }

  /** The sort is stable: elements tied with one another keep their original order. */
  lemma SortStable<T(!new)>(s: seq<T>, le: (T, T) -> bool, x: T)
    requires Transitive(le)
    ensures Filter(Sort(s, le), TiedWith(x, le)) == Filter(s, TiedWith(x, le))
  {
    TransitiveTies(le, x);
    SortKeepsTies(s, le, x);
  }

  lemma {:induction false} SortKeepsTies<T(!new)>(s: seq<T>, le: (T, T) -> bool, x: T)
    requires TiesComparable(le, x)
    ensures Filter(Sort(s, le), TiedWith(x, le)) == Filter(s, TiedWith(x, le))
  {
    if |s| > 0 {
      var p := TiedWith(x, le);
      var a := if p(s[0]) then [s[0]] else [];
      assert s == [s[0]] + s[1..];
      calc {
        Filter(Sort(s, le), p);
        Filter(Insert(s[0], Sort(s[1..], le), le), p);
        { InsertKeepsTies(s[0], Sort(s[1..], le), le, x); }
        a + Filter(Sort(s[1..], le), p);
        { SortKeepsTies(s[1..], le, x); }
        a + Filter(s[1..], p);
        { FilterCons(s[0], s[1..], p); }
        Filter(s, p);
      }
    }
  }

  // ---------------------------------------------------------------------------
  // Numbers

  /** `Math.max(...ws)` of a non-empty list. */
  function SeqMax(ws: seq<real>): (m: real)
    requires |ws| > 0
    ensures forall i :: 0 <= i < |ws| ==> ws[i] <= m
    ensures exists i :: 0 <= i < |ws| && ws[i] == m
  {
    if |ws| == 1 then ws[0]
    else
      var rest := SeqMax(ws[1..]);
      assert forall i :: 1 <= i < |ws| ==> ws[i] == ws[1..][i - 1];
      if ws[0] >= rest then ws[0] else rest
  }

  /** A non-negative part of a positive whole is at most 100 percent of it. */
  lemma FractionAtMostOne(w: real, m: real)
    requires 0.0 <= w <= m && m > 0.0
    ensures 0.0 <= w / m * 100.0 <= 100.0
    ensures w == m ==> w / m * 100.0 == 100.0
  {
    assert w / m <= 1.0;
  }
}

=== FILE: notification_bell.dfy ===
/** The notification bell: the unread count behind its dot, and the two ways of
    marking notifications as read. */
module NotificationBell {
  import opened Lists

  datatype Notification = Notification(id: int, text: string, time: string, read: bool)

  /** The bell's three notifications as it starts, all unread. */
  const InitialNotifications: seq<Notification> := [
    Notification(1, "New dataset uploaded successfully", "2m ago", false),
    Notification(2, "Model training completed", "10m ago", false),
    Notification(3, "Anomaly detected in Kepler dataset", "1h ago", false)
  ]

  predicate Unread(n: Notification) {
    !n.read
  }

  /** `notifications.filter(n => !n.read).length`: the number of unread entries. */
  function UnreadCount(ns: seq<Notification>): (c: nat)
    ensures c == Count(ns, Unread)
    ensures c == 0 <==> forall i :: 0 <= i < |ns| ==> ns[i].read
  {
    FilterCount(ns, Unread);
    ZeroCountIffNone(ns);
    |Filter(ns, Unread)|
  }

  /** No unread entry exactly when the count of unread entries is 0. */
  lemma {:induction false} ZeroCountIffNone(ns: seq<Notification>)
    ensures Count(ns, Unread) == 0 <==> forall i :: 0 <= i < |ns| ==> ns[i].read
  {
    if |ns| > 0 {
      ZeroCountIffNone(ns[1..]);
      assert forall i :: 1 <= i < |ns| ==> ns[i] == ns[1..][i - 1];
    }
  }

  /** The dot on the bell and the "Mark all as read" button both show exactly while
      something is unread. */
  predicate ShowsDot(ns: seq<Notification>) {
    UnreadCount(ns) > 0
  }

  lemma DotIffSomethingUnread(ns: seq<Notification>)
    ensures ShowsDot(ns) <==> exists i :: 0 <= i < |ns| && !ns[i].read
  {
  }

  /** The bell starts with three unread notifications and its dot on. */
  lemma InitialUnread()
    ensures UnreadCount(InitialNotifications) == 3 && ShowsDot(InitialNotifications)
  {
    var ns := InitialNotifications;
    assert ns[1..][1..][1..] == [];
    assert Count(ns, Unread) == 3;
  }

  /** `markAllAsRead`: every entry read, everything else about it unchanged. */
  function MarkAllAsRead(ns: seq<Notification>): (r: seq<Notification>)
    ensures |r| == |ns|
    ensures forall i :: 0 <= i < |r| ==> r[i].read
    ensures forall i :: 0 <= i < |r| ==> r[i].id == ns[i].id && r[i].text == ns[i].text && r[i].time == ns[i].time
  {
    seq(|ns|, i requires 0 <= i < |ns| => ns[i].(read := true))
  }

  /** Marking everything read twice is marking it once, and leaves nothing unread. */
  lemma MarkAllIdempotent(ns: seq<Notification>)
    ensures MarkAllAsRead(MarkAllAsRead(ns)) == MarkAllAsRead(ns)
    ensures UnreadCount(MarkAllAsRead(ns)) == 0 && !ShowsDot(MarkAllAsRead(ns))
  {
  }

  /** `markOneAsRead(id)`: the entries with that id become read, all others stay as they
      are. */
  function MarkOneAsRead(ns: seq<Notification>, id: int): (r: seq<Notification>)
    ensures |r| == |ns|
    ensures forall i :: 0 <= i < |r| && ns[i].id == id ==> r[i] == ns[i].(read := true)
    ensures forall i :: 0 <= i < |r| && ns[i].id != id ==> r[i] == ns[i]
  {
    seq(|ns|, i requires 0 <= i < |ns| => if ns[i].id == id then ns[i].(read := true) else ns[i])
  }

  /** An id no entry has changes nothing. */
  lemma UnknownIdNoChange(ns: seq<Notification>, id: int)
    requires forall i :: 0 <= i < |ns| ==> ns[i].id != id
    ensures MarkOneAsRead(ns, id) == ns
  {
  }

  /** Unread entries with the given id. */
  predicate UnreadWith(id: int, n: Notification) {
    !n.read && n.id == id
  }

  /** Marking one id read lowers the unread count by exactly the unread entries with that
      id, so it never rises. */
  lemma {:induction false} MarkOneLowersCount(ns: seq<Notification>, id: int)
    ensures Count(MarkOneAsRead(ns, id), Unread) + Count(ns, n => UnreadWith(id, n)) == Count(ns, Unread)
  {
    if |ns| > 0 {
      MarkOneLowersCount(ns[1..], id);
      assert MarkOneAsRead(ns, id)[1..] == MarkOneAsRead(ns[1..], id);
    }
  }

  /** Neither way of marking raises the unread count. */
  lemma UnreadNeverRises(ns: seq<Notification>, id: int)
    ensures UnreadCount(MarkOneAsRead(ns, id)) <= UnreadCount(ns)
    ensures UnreadCount(MarkAllAsRead(ns)) <= UnreadCount(ns)
  {
    MarkOneLowersCount(ns, id);
    MarkAllIdempotent(ns);
  }
}

=== FILE: responses.dfy ===
/** The response shapers of the service: the upload summary, the explorer list and the
    full analysis record. Each projects the stored analysis dictionary onto the fields
    a page needs; a missing key or a value of the wrong type raises the Python error the
    source would raise. */
module Responses {
  import opened Wrappers
  import opened Text
  import opened Json
  import Atmosphere

  /** Lists of strings as JSON arrays. */
  function Strings(ss: seq<string>): (j: seq<Json>)
    ensures |j| == |ss| && forall i :: 0 <= i < |ss| ==> j[i] == JStr(ss[i])
  {
    seq(|ss|, i requires 0 <= i < |ss| => JStr(ss[i]))
  }

  /** `raw.get("planet_type", {}).get("ml_prediction") if "planet_type" in raw else None`. */
  function MlPrediction(raw: map<string, Json>): (r: Result<Json, PyError>)
    ensures r.Ok? <==> "planet_type" !in raw || raw["planet_type"].JObj?
    ensures r.Ok? && "planet_type" in raw ==> r.value == GetOr(raw["planet_type"].fields, "ml_prediction", JNull)
    ensures r.Ok? && "planet_type" !in raw ==> r.value == JNull
  {
    if "planet_type" in raw then GetAttr(raw["planet_type"], "ml_prediction", JNull) else Ok(JNull)
  }

  /** `raw["reliability"]["label"]`. */
  function LabelOf(raw: map<string, Json>): (r: Result<Json, PyError>)
    ensures r.Ok? <==> "reliability" in raw && raw["reliability"].JObj? && "label" in raw["reliability"].fields
    ensures r.Ok? ==> r.value == raw["reliability"].fields["label"]
    ensures "reliability" !in raw ==> r == Err(KeyError("reliability"))
  {
    match Index(JObj(raw), "reliability")
    case Err(e) => Err(e)
    case Ok(rel) => Index(rel, "label")
  }

  // ---------------------------------------------------------------------------
  // format_upload_response

  const OutlierPrefix: string := "[10:45:06] Outlier count = "

  /** The fourth default log line, which reports the number of outliers. */
  function OutlierLine(n: nat): string {
    OutlierPrefix + NatToString(n)
  }

  /** The outlier count a default log line reports, if it is one. */
  function ReadOutlierLine(line: string): Option<nat> {
    if |line| >= |OutlierPrefix| && line[..|OutlierPrefix|] == OutlierPrefix
    then ParseNat(line[|OutlierPrefix|..])
    else None
  }

  /** The count in the outlier line can be read back. */
  lemma OutlierLineRoundTrip(n: nat)
    ensures ReadOutlierLine(OutlierLine(n)) == Some(n)
  {
    var line := OutlierLine(n);
    assert line[..|OutlierPrefix|] == OutlierPrefix;
    assert line[|OutlierPrefix|..] == NatToString(n);
    ParseNatToString(n);
  }

  /** The fixed lines of the canned log, around the outlier line. */
  const CannedHead: seq<string> := [
    "[10:45:01] Booting stellar analysis module...",
    "[10:45:03] Connecting to Deep Space Network... OK",
    "[10:45:05] Calibrating light curve sensors..."]
  const CannedTail: seq<string> := [
    "[10:45:08] Cross-referencing with known phenomena...",
    "[10:45:10] No match found. Flagging as high-priority anomaly.",
    "[10:45:12] Multi-spectrum analysis complete."]

  /** The canned log used when the analysis carries none. */
  function DefaultLogs(outliers: nat): (logs: seq<string>)
    ensures |logs| == 7 && logs[3] == OutlierLine(outliers)
  {
    CannedHead + [OutlierLine(outliers)] + CannedTail
  }

  const UploadKeys: set<string> :=
    {"analysis_id", "prediction", "confidence", "reliability", "planet_type", "extreme_outlier", "logs"}

  /** `raw.get('outliers', [])`, whose length the default log needs. */
  function OutliersOf(raw: map<string, Json>): Json {
    GetOr(raw, "outliers", JArr([]))
  }

  /** What the upload response needs of the stored analysis. */
  predicate UploadReady(raw: map<string, Json>) {
    && Len(OutliersOf(raw)).Some?
    && "prediction" in raw && "confidence" in raw
    && "reliability" in raw && raw["reliability"].JObj? && "label" in raw["reliability"].fields
    && ("planet_type" in raw ==> raw["planet_type"].JObj?)
    && "extreme_outlier" in raw
  }

  /** `format_upload_response`. The default log is built before `raw.get` looks for
      "logs", so an unsized "outliers" value raises even when the analysis has its own
      log; the dictionary's fields are then read in order and the first failure raises. */
  function FormatUploadResponse(raw: map<string, Json>, analysisId: int): (r: Result<map<string, Json>, PyError>)
    ensures r.Ok? <==> UploadReady(raw)
    ensures r.Ok? ==> r.value.Keys == UploadKeys
    ensures r.Ok? ==>
      && r.value["analysis_id"] == JNum(analysisId as real)
      && r.value["prediction"] == raw["prediction"]
      && r.value["confidence"] == raw["confidence"]
      && r.value["extreme_outlier"] == raw["extreme_outlier"]
      && r.value["reliability"] == raw["reliability"].fields["label"]
    ensures r.Ok? && "planet_type" in raw ==>
      r.value["planet_type"] == GetOr(raw["planet_type"].fields, "ml_prediction", JNull)
    ensures r.Ok? && "planet_type" !in raw ==> r.value["planet_type"] == JNull
    ensures r.Ok? && "logs" in raw ==> r.value["logs"] == raw["logs"]
    ensures r.Ok? && "logs" !in raw ==>
      r.value["logs"] == JArr(Strings(DefaultLogs(Len(OutliersOf(raw)).value)))
    ensures Len(OutliersOf(raw)).None? ==> r == Err(TypeError)
    ensures Len(OutliersOf(raw)).Some? && "prediction" !in raw ==> r == Err(KeyError("prediction"))
  {
    match Length(OutliersOf(raw))
    case Err(e) => Err(e)
    case Ok(n) =>
      var logs := GetOr(raw, "logs", JArr(Strings(DefaultLogs(n))));
      match Index(JObj(raw), "prediction")
      case Err(e) => Err(e)
      case Ok(prediction) =>
        match Index(JObj(raw), "confidence")
        case Err(e) => Err(e)
        case Ok(confidence) =>
          match LabelOf(raw)
          case Err(e) => Err(e)
          case Ok(level) =>
            match MlPrediction(raw)
            case Err(e) => Err(e)
            case Ok(planetType) =>
              match Index(JObj(raw), "extreme_outlier")
              case Err(e) => Err(e)
              case Ok(extreme) =>
                Ok(map["analysis_id" := JNum(analysisId as real),
                       "prediction" := prediction,
                       "confidence" := confidence,
                       "reliability" := level,
                       "planet_type" := planetType,
                       "extreme_outlier" := extreme,
                       "logs" := logs])
  }

  /** Without a stored log, the upload response's fourth line reports exactly the number
      of stored outliers. */
  lemma UploadLogCountsOutliers(raw: map<string, Json>, analysisId: int)
    requires FormatUploadResponse(raw, analysisId).Ok? && "logs" !in raw
    ensures FormatUploadResponse(raw, analysisId).value["logs"].JArr?
    ensures |FormatUploadResponse(raw, analysisId).value["logs"].items| == 7
    ensures FormatUploadResponse(raw, analysisId).value["logs"].items[3].JStr?
    ensures ReadOutlierLine(FormatUploadResponse(raw, analysisId).value["logs"].items[3].s)
      == Len(OutliersOf(raw))
  {
    var n := Len(OutliersOf(raw)).value;
    OutlierLineRoundTrip(n);
  }

  // ---------------------------------------------------------------------------
  // format_explorer_response

  /** A stored analysis row: its id column and its JSON result column. */
  datatype Record = Record(id: int, result: Json)

  const ExplorerKeys: set<string> :=
    {"analysis_id", "prediction", "confidence", "reliability", "planet_type", "outlier_count"}

  /** Python `round(j, digits)`: numbers round half to even, a bool is the integer 0 or
      1, anything else is a TypeError. */
  function PyRound(j: Json, digits: nat): (r: Result<Json, PyError>)
    ensures r.Ok? <==> j.JNum? || j.JBool?
    ensures j.JNum? ==> r == Ok(JNum(RoundHalfEven(j.n, digits)))
  {
    match j
    case JNum(n) => Ok(JNum(RoundHalfEven(n, digits)))
    case JBool(b) => Ok(JNum(if b then 1.0 else 0.0))
    case _ => Err(TypeError)
  }

  /** What one explorer entry needs of a stored result. */
  predicate EntryReady(res: Json) {
    && res.JObj?
    && "prediction" in res.fields
    && "confidence" in res.fields && (res.fields["confidence"].JNum? || res.fields["confidence"].JBool?)
    && "reliability" in res.fields && res.fields["reliability"].JObj?
    && "label" in res.fields["reliability"].fields
    && ("planet_type" in res.fields ==> res.fields["planet_type"].JObj?)
    && "outliers" in res.fields && Len(res.fields["outliers"]).Some?
  }

  /** One element of `format_explorer_response`. */
  function ExplorerEntry(obj: Record): (r: Result<map<string, Json>, PyError>)
    ensures r.Ok? <==> EntryReady(obj.result)
    ensures !obj.result.JObj? ==> r == Err(TypeError)
    ensures r.Ok? ==> r.value.Keys == ExplorerKeys
    ensures r.Ok? ==>
      && r.value["analysis_id"] == JNum(obj.id as real)
      && r.value["prediction"] == obj.result.fields["prediction"]
      && r.value["reliability"] == obj.result.fields["reliability"].fields["label"]
      && r.value["outlier_count"] == JNum(Len(obj.result.fields["outliers"]).value as real)
    ensures r.Ok? && obj.result.fields["confidence"].JNum? ==>
      r.value["confidence"] == JNum(RoundHalfEven(obj.result.fields["confidence"].n, 3))
  {
    match Index(obj.result, "prediction")
    case Err(e) => Err(e)
    case Ok(prediction) =>
      var res := obj.result.fields;
      match Index(obj.result, "confidence")
      case Err(e) => Err(e)
      case Ok(c) =>
        match PyRound(c, 3)
        case Err(e) => Err(e)
        case Ok(confidence) =>
          match LabelOf(res)
          case Err(e) => Err(e)
          case Ok(level) =>
            match MlPrediction(res)
            case Err(e) => Err(e)
            case Ok(planetType) =>
              match Index(obj.result, "outliers")
              case Err(e) => Err(e)
              case Ok(outliers) =>
                match Length(outliers)
                case Err(e) => Err(e)
                case Ok(count) =>
                  Ok(map["analysis_id" := JNum(obj.id as real),
                         "prediction" := prediction,
                         "confidence" := confidence,
                         "reliability" := level,
                         "planet_type" := planetType,
                         "outlier_count" := JNum(count as real)])
  }

  /** `format_explorer_response`: one entry per row, in order; the first row that cannot
      be formatted raises. */
  function FormatExplorerResponse(objs: seq<Record>): (r: Result<seq<map<string, Json>>, PyError>)
    ensures r.Ok? <==> forall i :: 0 <= i < |objs| ==> EntryReady(objs[i].result)
    ensures r.Ok? ==> |r.value| == |objs|
    ensures r.Ok? ==> forall i :: 0 <= i < |objs| ==> ExplorerEntry(objs[i]) == Ok(r.value[i])
    ensures r.Err? ==> exists i :: 0 <= i < |objs| && FirstFailure(objs, i, r.error)
  {
    if |objs| == 0 then Ok([])
    else
      match ExplorerEntry(objs[0])
      case Err(e) =>
        assert FirstFailure(objs, 0, e);
        Err(e)
      case Ok(entry) =>
        match FormatExplorerResponse(objs[1..])
        case Err(e) =>
          var i :| 0 <= i < |objs| - 1 && FirstFailure(objs[1..], i, e);
          assert FirstFailure(objs, i + 1, e);
          Err(e)
        case Ok(rest) => Ok([entry] + rest)
  }

  /** Row `i` is the first that fails, with error `e`. */
  predicate FirstFailure(objs: seq<Record>, i: int, e: PyError)
    requires 0 <= i < |objs|
  {
    ExplorerEntry(objs[i]) == Err(e) && forall j :: 0 <= j < i ==> ExplorerEntry(objs[j]).Ok?
  }

  /** Each listed confidence is the stored one rounded to three places: within half a
      thousandth of it, and left alone by rounding again. */
  lemma ExplorerConfidenceRounded(objs: seq<Record>, i: int)
    requires FormatExplorerResponse(objs).Ok? && 0 <= i < |objs|
    requires objs[i].result.fields["confidence"].JNum?
    ensures FormatExplorerResponse(objs).value[i]["confidence"].JNum?
    ensures RoundedFrom(FormatExplorerResponse(objs).value[i]["confidence"].n, objs[i].result.fields["confidence"].n)
  {
    assert ExplorerEntry(objs[i]) == Ok(FormatExplorerResponse(objs).value[i]);
    var x := objs[i].result.fields["confidence"].n;
    RoundThousandthsClose(x);
    RoundHalfEvenIdempotent(x, 3);
  }

  /** `y` is `x` rounded to three places: within half a thousandth of it, and a fixed
      point of rounding. */
  predicate RoundedFrom(y: real, x: real) {
    && x - 1.0 / 2000.0 <= y <= x + 1.0 / 2000.0
    && RoundHalfEven(y, 3) == y
  }

  // ---------------------------------------------------------------------------
  // format_analysis_response

  /** The analysis response: the stored fields minus the two it sets, plus the predicted
      atmosphere and the seven-line log. */
  datatype Analysis = Analysis(fields: map<string, Json>, atmosphere: Atmosphere.Atmosphere,
                               logs: seq<string>)

  const AddedKeys: set<string> := {"likely_atmosphere", "logs"}

  /** `str(j)` for the values a log line shows; numbers and containers are printed by
      `show`, whose formatting is not modelled. */
  function Str(j: Json, show: Json -> string): string {
    match j
    case JStr(s) => s
    case JNull => "None"
    case JBool(b) => if b then "True" else "False"
    case _ => show(j)
  }

  /** `f"{j or 'N/A'}"`. */
  function OrNA(j: Json, show: Json -> string): string {
    if Truthy(j) then Str(j, show) else "N/A"
  }

  /** Python `float(j)`; `parse` reads numeric strings. */
  function ToFloat(j: Json, parse: string -> Option<real>): (r: Result<real, PyError>)
    ensures j.JNum? ==> r == Ok(j.n)
    ensures r.Err? ==> !j.JNum? && !j.JBool?
  {
    match j
    case JNum(n) => Ok(n)
    case JBool(b) => Ok(if b then 1.0 else 0.0)
    case JStr(s) => if parse(s).Some? then Ok(parse(s).value) else Err(ValueError(s))
    case _ => Err(TypeError)
  }

  /** `float(j) if j is not None else None`. */
  function OptFloat(j: Json, parse: string -> Option<real>): (r: Result<Option<real>, PyError>)
    ensures j == JNull ==> r == Ok(None)
    ensures j.JNum? ==> r == Ok(Some(j.n))
  {
    if j == JNull then Ok(None)
    else
      match ToFloat(j, parse)
      case Err(e) => Err(e)
      case Ok(x) => Ok(Some(x))
  }

  /** `(planet_type or "")` before `.lower()`: a falsy value is the empty name, a string
      is itself, any other truthy value has no `.lower` and raises. */
  function TypeName(j: Json): (r: Result<Option<string>, PyError>)
    ensures !Truthy(j) ==> r == Ok(None)
    ensures j.JStr? && |j.s| > 0 ==> r == Ok(Some(j.s))
    ensures r.Err? <==> Truthy(j) && !j.JStr?
  {
    if !Truthy(j) then Ok(None)
    else if j.JStr? then Ok(Some(j.s))
    else Err(AttributeError)
  }

  /** The planet type name, radius and temperature the analysis reads out of its
      planet-type stage. */
  datatype PlanetFacts = PlanetFacts(name: Json, radius: Json, teq: Json)

  /** `stats.get(key, {}).get("value")`. */
  function StatValue(stats: Json, key: string): Result<Json, PyError> {
    match GetAttr(stats, key, JObj(map[]))
    case Err(e) => Err(e)
    case Ok(stat) => GetAttr(stat, "value", JNull)
  }

  /** The extraction at the top of `format_analysis_response`: nothing when the
      planet-type stage is falsy, otherwise its prediction and the `value`s of its
      `koi_prad` and `koi_teq` statistics. */
  function PlanetFactsOf(raw: map<string, Json>): (r: Result<PlanetFacts, PyError>)
    ensures !Truthy(GetOr(raw, "planet_type", JNull)) ==> r == Ok(PlanetFacts(JNull, JNull, JNull))
    ensures Truthy(GetOr(raw, "planet_type", JNull)) && !raw["planet_type"].JObj? ==> r == Err(AttributeError)
    ensures r.Ok? && Truthy(GetOr(raw, "planet_type", JNull)) ==>
      r.value.name == GetOr(raw["planet_type"].fields, "ml_prediction", JNull)
  {
    if !Truthy(GetOr(raw, "planet_type", JNull)) then Ok(PlanetFacts(JNull, JNull, JNull))
    else
      var pt := raw["planet_type"];
      match GetAttr(pt, "ml_prediction", JNull)
      case Err(e) => Err(e)
      case Ok(name) =>
        match GetAttr(pt, "planet_stats", JObj(map[]))
        case Err(e) => Err(e)
        case Ok(stats) =>
          match StatValue(stats, "koi_prad")
          case Err(e) => Err(e)
          case Ok(radius) =>
            match StatValue(stats, "koi_teq")
            case Err(e) => Err(e)
            case Ok(teq) => Ok(PlanetFacts(name, radius, teq))
  }

  /** The call to `predict_atmosphere` with the extracted facts. */
  function AtmosphereOf(facts: PlanetFacts, parse: string -> Option<real>): (r: Result<Atmosphere.Atmosphere, PyError>)
    ensures facts == PlanetFacts(JNull, JNull, JNull) ==> r == Ok(Atmosphere.PredictAtmosphere(None, None, None))
    ensures r.Ok? ==> |r.value.gases| >= 3
    ensures r.Ok? <==> TypeName(facts.name).Ok? && OptFloat(facts.radius, parse).Ok? && OptFloat(facts.teq, parse).Ok?
    ensures r.Ok? ==> r.value == Atmosphere.PredictAtmosphere(TypeName(facts.name).value,
      OptFloat(facts.radius, parse).value, OptFloat(facts.teq, parse).value)
  {
    match TypeName(facts.name)
    case Err(e) => Err(e)
    case Ok(pt) =>
      match OptFloat(facts.radius, parse)
      case Err(e) => Err(e)
      case Ok(r) =>
        match OptFloat(facts.teq, parse)
        case Err(e) => Err(e)
        case Ok(t) => Ok(Atmosphere.PredictAtmosphere(pt, r, t))
  }

  /** `f"{response.get('confidence', 0)*100:.2f}"`: a number scaled to percent with two
      decimals; a bool is 0 or 1; a string or list is repeated by `*` and then refuses the
      format; anything else cannot be multiplied. */
  function ConfidencePercent(j: Json): (r: Result<string, PyError>)
    ensures j.JNum? ==> r == Ok(PyFixedText(j.n * 100.0, 2))
    ensures r.Ok? <==> j.JNum? || j.JBool?
  {
    match j
    case JNum(n) => Ok(PyFixedText(n * 100.0, 2))
    case JBool(b) => Ok(if b then "100.00" else "0.00")
    case JStr(_) => Err(ValueError("Unknown format code 'f'"))
    case _ => Err(TypeError)
  }

  /** The gas names the atmosphere line lists, comma-separated. */
  function GasList(a: Atmosphere.Atmosphere): (s: string)
    ensures |a.gases| > 0 ==> |s| > 0
  {
    var names := seq(|a.gases|, i requires 0 <= i < |a.gases| => Atmosphere.ElementName(a.gases[i].element));
    assert |names| > 0 ==> names[0] == Atmosphere.ElementName(a.gases[0].element);
    JoinWith(names, ", ")
  }

  /** `s` begins with `p`. */
  predicate Prefixed(s: string, p: string) {
    |p| <= |s| && s[..|p|] == p
  }

  /** A log line: the clock reading in brackets, then the text. */
  function Stamped(stamp: string, text: string): (line: string)
    ensures Prefixed(line, "[" + stamp + "] ")
    ensures line[|stamp| + 3..] == text
  {
    "[" + stamp + "] " + text
  }

  /** The seven log lines of the analysis response. */
  function AnalysisLogs(raw: map<string, Json>, facts: PlanetFacts, atm: Atmosphere.Atmosphere,
                        pct: string, level: Json, clock: nat -> string, show: Json -> string): (logs: seq<string>)
    ensures |logs| == 7
    ensures forall i :: 0 <= i < 7 ==> Prefixed(logs[i], "[" + clock(i) + "] ")
    ensures |atm.gases| > 0 ==> logs[5] == Stamped(clock(5), "Atmosphere: " + GasList(atm))
  {
    var gases := GasList(atm);
    [Stamped(clock(0), "Booting analysis pipeline..."),
     Stamped(clock(1), "Prediction: " + Str(GetOr(raw, "prediction", JStr("Unknown")), show)
                       + " (Confidence: " + pct + "%)"),
     Stamped(clock(2), "Reliability: " + Str(level, show)),
     Stamped(clock(3), "Planet Type: " + OrNA(facts.name, show)),
     Stamped(clock(4), "Radius: " + OrNA(facts.radius, show) + " R⊕, Temp: " + OrNA(facts.teq, show) + " K"),
     Stamped(clock(5), "Atmosphere: " + (if |gases| > 0 then gases else "None")),
     Stamped(clock(6), "Analysis complete.")]
  }

  /** What every analysis response looks like: every stored field but the two it sets is
      kept with its value, at least three gases are predicted, and the log has seven
      stamped lines whose sixth names the predicted gases (so its "None" fallback never
      shows). */
  predicate Shaped(a: Analysis, raw: map<string, Json>, clock: nat -> string) {
    && a.fields.Keys == raw.Keys - AddedKeys
    && (forall k :: k in a.fields ==> a.fields[k] == raw[k])
    && |a.atmosphere.gases| >= 3
    && |a.logs| == 7
    && (forall i :: 0 <= i < 7 ==> Prefixed(a.logs[i], "[" + clock(i) + "] "))
    && a.logs[5] == Stamped(clock(5), "Atmosphere: " + GasList(a.atmosphere))
  }

  /** The response once every value it needs has been read: a copy of the stored fields
      with the atmosphere and the log added. */
  function Assemble(raw: map<string, Json>, facts: PlanetFacts, atm: Atmosphere.Atmosphere,
                    pct: string, level: Json, clock: nat -> string, show: Json -> string): (a: Analysis)
    requires |atm.gases| >= 3
    ensures a.atmosphere == atm
    ensures Shaped(a, raw, clock)
  {
    Analysis(raw - AddedKeys, atm, AnalysisLogs(raw, facts, atm, pct, level, clock, show))
  }

  /** `format_analysis_response`. `clock(i)` is the `%H:%M:%S` reading taken for log line
      `i`, `show` prints numbers and containers, and `parse` is `float` on strings. */
  function FormatAnalysisResponse(raw: map<string, Json>, clock: nat -> string, show: Json -> string,
                                  parse: string -> Option<real>): (r: Result<Analysis, PyError>)
    ensures r.Ok? ==> Shaped(r.value, raw, clock)
    ensures !Truthy(GetOr(raw, "planet_type", JNull)) && r.Ok? ==>
      r.value.atmosphere == Atmosphere.PredictAtmosphere(None, None, None)
    ensures Truthy(GetOr(raw, "planet_type", JNull)) && !raw["planet_type"].JObj? ==> r == Err(AttributeError)
    ensures r.Ok? <==> && PlanetFactsOf(raw).Ok?
                       && AtmosphereOf(PlanetFactsOf(raw).value, parse).Ok?
                       && (GetOr(raw, "confidence", JNum(0.0)).JNum? || GetOr(raw, "confidence", JNum(0.0)).JBool?)
                       && GetOr(raw, "reliability", JObj(map[])).JObj?
    ensures r.Ok? ==> r.value.atmosphere == AtmosphereOf(PlanetFactsOf(raw).value, parse).value
  {
    match PlanetFactsOf(raw)
    case Err(e) => Err(e)
    case Ok(facts) =>
      match AtmosphereOf(facts, parse)
      case Err(e) => Err(e)
      case Ok(atm) => Respond(raw, facts, atm, clock, show)
  }

  /** The rest of the response once the atmosphere is known: the confidence and the
      reliability label the log shows are read, either of which may raise. */
  function Respond(raw: map<string, Json>, facts: PlanetFacts, atm: Atmosphere.Atmosphere,
                   clock: nat -> string, show: Json -> string): (r: Result<Analysis, PyError>)
    requires |atm.gases| >= 3
    ensures r.Ok? <==> && (GetOr(raw, "confidence", JNum(0.0)).JNum? || GetOr(raw, "confidence", JNum(0.0)).JBool?)
                       && GetOr(raw, "reliability", JObj(map[])).JObj?
    ensures r.Ok? ==> r.value.atmosphere == atm && Shaped(r.value, raw, clock)
  {
    match ConfidencePercent(GetOr(raw, "confidence", JNum(0.0)))
    case Err(e) => Err(e)
    case Ok(pct) =>
      match GetAttr(GetOr(raw, "reliability", JObj(map[])), "label", JStr("Unknown"))
      case Err(e) => Err(e)
      case Ok(level) => Ok(Assemble(raw, facts, atm, pct, level, clock, show))
  }

  /** An analysis without a planet-type stage is given the Super-Earth atmosphere,
      rated Medium and not habitable. */
  lemma NoPlanetTypeIsSuperEarth(raw: map<string, Json>, clock: nat -> string, show: Json -> string,
                                 parse: string -> Option<real>)
    requires !Truthy(GetOr(raw, "planet_type", JNull))
    requires FormatAnalysisResponse(raw, clock, show, parse).Ok?
    ensures FormatAnalysisResponse(raw, clock, show, parse).value.atmosphere.gases == Atmosphere.SuperEarthGases
    ensures FormatAnalysisResponse(raw, clock, show, parse).value.atmosphere.confidence == Atmosphere.Medium
    ensures !FormatAnalysisResponse(raw, clock, show, parse).value.atmosphere.habitable
  {
    Atmosphere.NothingKnownIsSuperEarth();
  }

  /** A planet-type stage that names its type and records numeric radius and temperature
      values gets exactly the atmosphere `predict_atmosphere` gives for those three. */
  lemma StageAtmosphere(raw: map<string, Json>, clock: nat -> string, show: Json -> string,
                        parse: string -> Option<real>, name: string, radius: real, teq: real)
    requires "planet_type" in raw && raw["planet_type"].JObj?
    requires GetOr(raw["planet_type"].fields, "ml_prediction", JNull) == JStr(name) && |name| > 0
    requires "planet_stats" in raw["planet_type"].fields
    requires StatValue(raw["planet_type"].fields["planet_stats"], "koi_prad") == Ok(JNum(radius))
    requires StatValue(raw["planet_type"].fields["planet_stats"], "koi_teq") == Ok(JNum(teq))
    ensures PlanetFactsOf(raw) == Ok(PlanetFacts(JStr(name), JNum(radius), JNum(teq)))
    ensures AtmosphereOf(PlanetFactsOf(raw).value, parse)
      == Ok(Atmosphere.PredictAtmosphere(Some(name), Some(radius), Some(teq)))
    ensures FormatAnalysisResponse(raw, clock, show, parse).Ok? ==>
      FormatAnalysisResponse(raw, clock, show, parse).value.atmosphere
        == Atmosphere.PredictAtmosphere(Some(name), Some(radius), Some(teq))
  {
    var pt := raw["planet_type"].fields;
    assert "ml_prediction" in pt;
    assert Truthy(GetOr(raw, "planet_type", JNull));
  }
}

=== FILE: scoring.dfy ===
/** The statistical side of the prediction endpoint: standard scores against stored
    feature statistics, outlier flags, the reliability score and label, the renaming of
    booster feature-importance keys, and how these combine with the classifier outputs
    (which are inputs here, since the trained models are opaque). */
module Scoring {
  import opened Wrappers
  import opened Text
  import Fuzzy

  /** The eight request features in the order the classifier was trained on. */
  const FeatureOrder: seq<string> := ["koi_period", "koi_duration", "koi_depth", "koi_prad",
    "koi_sma", "koi_incl", "koi_teq", "koi_model_snr"]

  /** Display names, position for position with `FeatureOrder`. */
  const FeaturePretty: seq<string> := ["Orbital Period (days)", "Transit Duration (hrs)",
    "Transit Depth (ppm)", "Planet Radius (Earth radii)", "Semi-Major Axis (AU)",
    "Inclination (deg)", "Equilibrium Temp (K)", "Signal-to-Noise Ratio"]

  /** The six features of the planet-type stage: every request feature but inclination. */
  const PlanetKeys: seq<string> := ["koi_period", "koi_duration", "koi_depth", "koi_prad",
    "koi_sma", "koi_teq"]

  predicate Distinct<T(==)>(xs: seq<T>) {
    forall i, j :: 0 <= i < j < |xs| ==> xs[i] != xs[j]
  }

  /** Both key lists have no repeats, so the dictionaries built from them have one entry
      per position. */
  lemma KeyListsDistinct()
    ensures Distinct(FeatureOrder) && Distinct(PlanetKeys)
    ensures forall k :: 0 <= k < |PlanetKeys| ==> PlanetKeys[k] == FeatureOrder[if k < 5 then k else 6]
  {
  }

  // ---------------------------------------------------------------------------
  // Standard scores

  /** One `stats_out` entry. */
  datatype ZStat = ZStat(value: real, mean: real, std: real, z: real)
  datatype ZEntry = ZEntry(key: string, stat: ZStat)

  /** A stored standard deviation, with 0 replaced by 1 so that the division is defined. */
  function SafeStd(s: real): (r: real)
    ensures r != 0.0
    ensures s != 0.0 ==> r == s
  {
    if s != 0.0 then s else 1.0
  }

  /** The standard score of one value; the recorded statistics give the value back. */
  function ZStatOf(v: real, mean: real, std: real): (st: ZStat)
    ensures st.value == v && st.mean == mean && st.std == SafeStd(std)
    ensures st.mean + st.z * st.std == st.value
    ensures std != 0.0 ==> st.std == std
    ensures std == 0.0 ==> st.std == 1.0 && st.z == v - mean
  {
    var s := SafeStd(std);
    ZStat(v, mean, s, (v - mean) / s)
  }

  /** Position `k` can be scored: the sample has a value there and both stored
      statistics know its key. */
  predicate Available(values: seq<real>, keys: seq<string>, means: map<string, real>,
                      stds: map<string, real>, k: nat)
    requires k < |keys|
  {
    k < |values| && keys[k] in means && keys[k] in stds
  }

  /** `compute_zscores` over `keys[i..]`: one entry per key, in key order. Reading past
      the sample is an IndexError; a key missing from the stored means or deviations is a
      KeyError; the first failing position decides. */
  function ZScoresFrom(values: seq<real>, keys: seq<string>, means: map<string, real>,
                       stds: map<string, real>, i: nat): (r: Result<seq<ZEntry>, PyError>)
    requires i <= |keys|
    ensures r.Ok? <==> forall k :: i <= k < |keys| ==> Available(values, keys, means, stds, k)
    ensures r.Ok? ==> |r.value| == |keys| - i
    ensures r.Ok? ==> forall k :: i <= k < |keys| ==> (Available(values, keys, means, stds, k)
      && r.value[k - i] == ZEntry(keys[k], ZStatOf(values[k], means[keys[k]], stds[keys[k]])))
    ensures r.Err? && r.error.KeyError? ==> r.error.key in keys[i..]
    decreases |keys| - i
  {
    if i == |keys| then Ok([])
    else if !Available(values, keys, means, stds, i) then
      if i >= |values| then Err(IndexError) else Err(KeyError(keys[i]))
    else
      match ZScoresFrom(values, keys, means, stds, i + 1)
      case Err(e) => Err(e)
      case Ok(rest) =>
        Ok([ZEntry(keys[i], ZStatOf(values[i], means[keys[i]], stds[keys[i]]))] + rest)
  }

  function ComputeZScores(values: seq<real>, keys: seq<string>, means: map<string, real>,
                          stds: map<string, real>): (r: Result<seq<ZEntry>, PyError>)
    ensures r.Ok? <==> forall k :: 0 <= k < |keys| ==> Available(values, keys, means, stds, k)
    ensures r.Ok? ==> |r.value| == |keys|
    ensures r.Ok? ==> forall k :: 0 <= k < |keys| ==> (Available(values, keys, means, stds, k)
      && r.value[k].key == keys[k] && r.value[k].stat.value == values[k]
      && r.value[k].stat.mean == means[keys[k]] && r.value[k].stat.std == SafeStd(stds[keys[k]])
      && r.value[k].stat.mean + r.value[k].stat.z * r.value[k].stat.std == values[k])
  {
    ZScoresFrom(values, keys, means, stds, 0)
  }

  // ---------------------------------------------------------------------------
  // Outlier flags

  /** One `{"feature": k, "z": v}` entry of the outlier list. */
  datatype Flag = Flag(feature: string, z: real)

  /** The entries whose standard score exceeds 3 in magnitude, in dictionary order. */
  function Flags(zs: seq<ZEntry>): (r: seq<Flag>)
    ensures |r| <= |zs|
    ensures forall f :: f in r ==> Abs(f.z) > 3.0
    ensures forall f :: f in r ==> exists k :: 0 <= k < |zs| && zs[k].key == f.feature && zs[k].stat.z == f.z
    ensures forall k :: 0 <= k < |zs| && Abs(zs[k].stat.z) > 3.0 ==> Flag(zs[k].key, zs[k].stat.z) in r
  {
    if |zs| == 0 then []
    else
      var rest := Flags(zs[1..]);
      assert forall k :: 1 <= k < |zs| ==> zs[1..][k - 1] == zs[k];
      if Abs(zs[0].stat.z) > 3.0 then [Flag(zs[0].key, zs[0].stat.z)] + rest else rest
  }

  /** Flagging keeps the order of the dictionary: it distributes over concatenation. */
  lemma {:induction false} FlagsAppend(a: seq<ZEntry>, b: seq<ZEntry>)
    ensures Flags(a + b) == Flags(a) + Flags(b)
  {
    if |a| > 0 {
      assert (a + b)[1..] == a[1..] + b;
      FlagsAppend(a[1..], b);
    } else {
      assert a + b == b;
    }
  }

  /** `any(abs(v) > 5 ...)`. */
  function Extreme(zs: seq<ZEntry>): (b: bool)
    ensures b <==> exists k :: 0 <= k < |zs| && Abs(zs[k].stat.z) > 5.0
  {
    if |zs| == 0 then false
    else
      assert forall k :: 1 <= k < |zs| ==> zs[1..][k - 1] == zs[k];
      Abs(zs[0].stat.z) > 5.0 || Extreme(zs[1..])
  }

  /** An extreme outlier is always also a flagged outlier. */
  lemma ExtremeIsFlagged(zs: seq<ZEntry>)
    ensures Extreme(zs) ==> |Flags(zs)| > 0
  {
    if Extreme(zs) {
      var k :| 0 <= k < |zs| && Abs(zs[k].stat.z) > 5.0;
      assert Flag(zs[k].key, zs[k].stat.z) in Flags(zs);
    }
  }

  // ---------------------------------------------------------------------------
  // Reliability

  /** What the model needs of `np.exp`: positive, increasing, and 1 at 0. */
  ghost predicate ExpModel(exp: real -> real) {
    && exp(0.0) == 1.0
    && (forall x :: exp(x) > 0.0)
    && (forall x, y :: x <= y ==> exp(x) <= exp(y))
  }

  /** The penalty factor `exp(-0.15 * n)` for `n` outliers. */
  function Penalty(exp: real -> real, n: nat): (p: real)
    requires ExpModel(exp)
    ensures 0.0 < p <= 1.0
    ensures n == 0 ==> p == 1.0
  {
    assert -0.15 * n as real <= 0.0;
    exp(-0.15 * n as real)
  }

  /** `confidence * exp(-0.15 * n)`: never more than the confidence it discounts. */
  function ReliabilityScore(exp: real -> real, confidence: real, n: nat): (r: real)
    requires ExpModel(exp)
    ensures 0.0 <= confidence ==> 0.0 <= r <= confidence
    ensures n == 0 ==> r == confidence
  {
    Scale(confidence, Penalty(exp, n))
  }

  /** `c * p` for a factor `p` in (0, 1]. */
  function Scale(c: real, p: real): (r: real)
    requires 0.0 < p <= 1.0
    ensures 0.0 <= c ==> 0.0 <= r <= c
    ensures p == 1.0 ==> r == c
  {
    if c >= 0.0 then
      MulMonotone(c, p, 1.0);
      c * p
    else c * p
  }

  lemma MulMonotone(c: real, a: real, b: real)
    requires 0.0 <= c && a <= b
    ensures c * a <= c * b
  {
  }

  /** More outliers never raise the reliability score. */
  lemma ReliabilityNonIncreasing(exp: real -> real, confidence: real, n: nat, m: nat)
    requires ExpModel(exp)
    requires 0.0 <= confidence
    requires n <= m
    ensures ReliabilityScore(exp, confidence, m) <= ReliabilityScore(exp, confidence, n)
  {
    var pn, pm := Penalty(exp, n), Penalty(exp, m);
    assert -0.15 * m as real <= -0.15 * n as real;
    assert pm <= pn;
    ScaleMonotone(confidence, pm, pn);
  }

  lemma ScaleMonotone(c: real, p: real, q: real)
    requires 0.0 <= c && 0.0 < p <= q <= 1.0
    ensures Scale(c, p) <= Scale(c, q)
  {
    calc {
      Scale(c, p);
    ==
      c * p;
    <= { MulMonotone(c, p, q); }
      c * q;
    ==
      Scale(c, q);
    }
  }

  /** `reliability_label_from_score`. */
  function ReliabilityLabel(score: real): (level: string)
    ensures level == "High" <==> score > 0.8
    ensures level == "Medium" <==> 0.5 < score <= 0.8
    ensures level == "Low" <==> score <= 0.5
  {
    if score > 0.8 then "High"
    else if score > 0.5 then "Medium"
    else "Low"
  }

  /** The order of the labels: Low < Medium < High. */
  function LabelRank(level: string): nat {
    if level == "High" then 2 else if level == "Medium" then 1 else 0
  }

  /** The label is monotone in the score. */
  lemma ReliabilityLabelMonotone(s: real, t: real)
    requires s <= t
    ensures LabelRank(ReliabilityLabel(s)) <= LabelRank(ReliabilityLabel(t))
  {
  }

  // ---------------------------------------------------------------------------
  // Class labels

  const ClassNames: seq<string> := ["Exoplanet", "Candidate", "False Positive"]
  const PlanetNames: seq<string> := ["Super-Earth", "Mini-Neptune", "Neptune-like", "Gas Giant", "Hot Jupiter"]

  /** `class_map.get(pred, f"Unknown ({pred})")`. */
  function ClassLabel(pred: int): string {
    if 0 <= pred < |ClassNames| then ClassNames[pred] else "Unknown (" + IntToString(pred) + ")"
  }

  /** `planet_class_map.get(pred, f"Unknown({pred})")`. */
  function PlanetLabel(pred: int): string {
    if 0 <= pred < |PlanetNames| then PlanetNames[pred] else "Unknown(" + IntToString(pred) + ")"
  }

  /** The planet-type stage runs exactly for classifier code 0: no fallback label can
      read "Exoplanet". */
  lemma ExoplanetIffCodeZero(pred: int)
    ensures ClassLabel(pred) == "Exoplanet" <==> pred == 0
  {
    if !(0 <= pred < |ClassNames|) {
      assert ClassLabel(pred)[0] == 'U';
    }
  }

  /** The planet classifier's labels are the rule table's class names, code for
      position, and no fallback label names a rule class. */
  lemma PlanetLabelsAreRuleClasses(pred: int)
    ensures 0 <= pred < |Fuzzy.ClassSpecs| ==> PlanetLabel(pred) == Fuzzy.ClassSpecs[pred].name
    ensures !(0 <= pred < |Fuzzy.ClassSpecs|) ==>
      forall c :: 0 <= c < |Fuzzy.ClassSpecs| ==> PlanetLabel(pred) != Fuzzy.ClassSpecs[c].name
  {
    if !(0 <= pred < |Fuzzy.ClassSpecs|) {
      forall c | 0 <= c < |Fuzzy.ClassSpecs|
        ensures PlanetLabel(pred) != Fuzzy.ClassSpecs[c].name
      {
        assert PlanetLabel(pred)[0] == 'U';
        assert Fuzzy.ClassSpecs[c].name[0] != 'U';
      }
    }
  }

  /** `rule_scores.get(name, 0.0)`. */
  function RuleScore(scores: seq<real>, name: string): (r: real)
    requires |scores| == |Fuzzy.ClassSpecs|
    ensures (exists c :: 0 <= c < |scores| && Fuzzy.ClassSpecs[c].name == name && r == scores[c])
      || (r == 0.0 && forall c :: 0 <= c < |scores| ==> Fuzzy.ClassSpecs[c].name != name)
  {
    RuleScoreFrom(scores, name, 0)
  }

  function RuleScoreFrom(scores: seq<real>, name: string, c: nat): (r: real)
    requires |scores| == |Fuzzy.ClassSpecs| && c <= |scores|
    ensures (exists k :: c <= k < |scores| && Fuzzy.ClassSpecs[k].name == name && r == scores[k])
      || (r == 0.0 && forall k :: c <= k < |scores| ==> Fuzzy.ClassSpecs[k].name != name)
    decreases |scores| - c
  {
    if c == |scores| then 0.0
    else if Fuzzy.ClassSpecs[c].name == name then scores[c]
    else RuleScoreFrom(scores, name, c + 1)
  }

  /** The rule score the planet classifier's answer looks up is that class's score, and 0
      for an unknown code. */
  lemma RuleScoreOfPlanetLabel(scores: seq<real>, pred: int)
    requires |scores| == |Fuzzy.ClassSpecs|
    ensures 0 <= pred < |scores| ==> RuleScore(scores, PlanetLabel(pred)) == scores[pred]
    ensures !(0 <= pred < |scores|) ==> RuleScore(scores, PlanetLabel(pred)) == 0.0
  {
    PlanetLabelsAreRuleClasses(pred);
    Fuzzy.ClassNamesDistinct();
  }

  /** `m` is an element of `xs` and no element exceeds it. */
  predicate IsMax(xs: seq<real>, m: real) {
    m in xs && forall k :: 0 <= k < |xs| ==> xs[k] <= m
  }

  /** `max(proba)`; Python raises ValueError on an empty list. */
  function MaxOf(xs: seq<real>): (r: Option<real>)
    ensures r.Some? <==> |xs| > 0
    ensures r.Some? ==> IsMax(xs, r.value)
  {
    if |xs| == 0 then None
    else
      match MaxOf(xs[1..])
      case None => Some(xs[0])
      case Some(m) => Some(if xs[0] >= m then xs[0] else m)
  }

  /** The largest of a list of probabilities is a probability. */
  lemma MaxOfProbabilities(xs: seq<real>)
    requires |xs| > 0
    ensures (forall k :: 0 <= k < |xs| ==> 0.0 <= xs[k] <= 1.0) ==> 0.0 <= MaxOf(xs).value <= 1.0
  {
  }

  /** The planet-stage reliability: the classifier's top probability, times the rule
      score of the class it chose, discounted for outliers. */
  function PlanetReliability(exp: real -> real, maxProba: real, ruleScores: seq<real>,
                             mlType: string, n: nat): (r: real)
    requires ExpModel(exp)
    requires |ruleScores| == |Fuzzy.ClassSpecs|
    requires forall c :: 0 <= c < |ruleScores| ==> 0.0 <= ruleScores[c] <= 1.0
    ensures 0.0 <= maxProba <= 1.0 ==> 0.0 <= r <= RuleScore(ruleScores, mlType)
  {
    ReliabilityScore(exp, Times(maxProba, RuleScore(ruleScores, mlType)), n)
  }

  /** A fraction of a non-negative quantity is at most that quantity. */
  function Times(a: real, b: real): (c: real)
    ensures 0.0 <= a <= 1.0 && 0.0 <= b ==> 0.0 <= c <= b
  {
    if 0.0 <= a <= 1.0 && 0.0 <= b then
      FractionOf(a, b);
      a * b
    else a * b
  }

  lemma FractionOf(a: real, b: real)
    requires 0.0 <= a <= 1.0 && 0.0 <= b
    ensures 0.0 <= a * b <= b
  {
    MulMonotone(b, a, 1.0);
  }

  // ---------------------------------------------------------------------------
  // Feature-importance renaming

  /** The display name of a booster key: `f<i>` with `i < 8` becomes the i-th pretty name
      (Python counts negative indices from the end, down to -8), larger indices and keys
      not starting with `f` are kept; an unparsable index is a ValueError and an index
      below -8 an IndexError. */
  function RenameKey(k: string): (r: Result<string, PyError>)
    ensures (|k| == 0 || k[0] != 'f') ==> r == Ok(k)
    ensures r.Ok? ==> r.value == k || r.value in FeaturePretty
  {
    if |k| > 0 && k[0] == 'f' then
      match ParseInt(k[1..])
      case None => Err(ValueError(k[1..]))
      case Some(idx) =>
        if idx < |FeaturePretty| then
          if idx >= 0 then Ok(FeaturePretty[idx])
          else if idx >= -|FeaturePretty| then Ok(FeaturePretty[idx + |FeaturePretty|])
          else Err(IndexError)
        else Ok(k)
    else Ok(k)
  }

  /** The booster's own keys `f0`..`f7` become the display names of the features at those
      positions; `f8` and beyond are kept as they are. */
  lemma RenameBoosterKey(i: nat)
    ensures i < |FeaturePretty| ==> RenameKey("f" + NatToString(i)) == Ok(FeaturePretty[i])
    ensures i >= |FeaturePretty| ==> RenameKey("f" + NatToString(i)) == Ok("f" + NatToString(i))
  {
    var k := "f" + NatToString(i);
    assert k[1..] == NatToString(i);
    ParseNatToString(i);
    assert NatToString(i)[0] != '-' && NatToString(i)[0] != '+' by {
      assert IsDigit(NatToString(i)[0]);
    }
  }

  /** A key renaming that may raise. */
  type Renaming = string -> Result<string, PyError>

  /** The `importance_pretty` loop for a given renaming: each renamed key is written in
      turn, so a later entry overwrites an earlier one of the same name; the first key
      that cannot be renamed aborts the loop. */
  function RenameAll(imp: seq<(string, real)>, rename: Renaming): (r: Result<map<string, real>, PyError>)
    ensures r.Ok? && |imp| > 0 ==>
      && rename(imp[|imp| - 1].0).Ok?
      && rename(imp[|imp| - 1].0).value in r.value
      && r.value[rename(imp[|imp| - 1].0).value] == imp[|imp| - 1].1
  {
    if |imp| == 0 then Ok(map[])
    else
      var init, last := imp[..|imp| - 1], imp[|imp| - 1];
      match RenameAll(init, rename)
      case Err(e) => Err(e)
      case Ok(m) =>
        match rename(last.0)
        case Err(e) => Err(e)
        case Ok(name) => Ok(m[name := last.1])
  }

  /** The loop over any renaming completes exactly when every key can be renamed. */
  lemma {:induction false} RenameAllOk(imp: seq<(string, real)>, rename: Renaming)
    ensures RenameAll(imp, rename).Ok? <==> forall k :: 0 <= k < |imp| ==> rename(imp[k].0).Ok?
  {
    if |imp| > 0 {
      var init := imp[..|imp| - 1];
      assert forall k :: 0 <= k < |init| ==> init[k] == imp[k];
      RenameAllOk(init, rename);
    }
  }

  /** The map the loop builds holds exactly the names the keys are renamed to. */
  lemma {:induction false} RenameAllKeys(imp: seq<(string, real)>, rename: Renaming, n: string)
    requires RenameAll(imp, rename).Ok?
    ensures n in RenameAll(imp, rename).value <==> exists k :: 0 <= k < |imp| && rename(imp[k].0) == Ok(n)
  {
    if |imp| > 0 {
      var init, last := imp[..|imp| - 1], imp[|imp| - 1];
      RenameAllKeys(init, rename, n);
      var m := RenameAll(init, rename).value;
      if n != rename(last.0).value {
        if n in m {
          var k :| 0 <= k < |init| && rename(init[k].0) == Ok(n);
          assert imp[k] == init[k];
        }
        if exists k :: 0 <= k < |imp| && rename(imp[k].0) == Ok(n) {
          var k :| 0 <= k < |imp| && rename(imp[k].0) == Ok(n);
          assert k < |init| && imp[k] == init[k];
        }
      }
    }
  }

  /** The loop with `importance_pretty`'s own renaming. */
  function RenameImportance(imp: seq<(string, real)>): (r: Result<map<string, real>, PyError>)
    ensures r.Ok? && |imp| > 0 ==>
      && RenameKey(imp[|imp| - 1].0).Ok?
      && RenamesTo(imp, |imp| - 1, RenameKey(imp[|imp| - 1].0).value)
      && RenameKey(imp[|imp| - 1].0).value in r.value
      && r.value[RenameKey(imp[|imp| - 1].0).value] == imp[|imp| - 1].1
  {
    RenameAll(imp, RenameKey)
  }

  /** The loop completes exactly when every key can be renamed; otherwise the first
      failure is raised. */
  lemma RenameImportanceOk(imp: seq<(string, real)>)
    ensures RenameImportance(imp).Ok? <==> forall k :: 0 <= k < |imp| ==> Renames(imp, k)
  {
    var f: Renaming := RenameKey;
    RenameAllOk(imp, f);
    forall k | 0 <= k < |imp|
      ensures Renames(imp, k) <==> f(imp[k].0).Ok?
    {
    }
  }

  /** The renamed map holds exactly the names the keys are renamed to. */
  lemma RenamedKeys(imp: seq<(string, real)>, n: string)
    requires RenameImportance(imp).Ok?
    ensures n in RenameImportance(imp).value <==> exists k :: 0 <= k < |imp| && RenamesTo(imp, k, n)
  {
    var f: Renaming := RenameKey;
    RenameAllKeys(imp, f, n);
    forall k | 0 <= k < |imp|
      ensures RenamesTo(imp, k, n) <==> f(imp[k].0) == Ok(n)
    {
    }
  }

  /** The k-th key of an importance list can be renamed. */
  predicate Renames(imp: seq<(string, real)>, k: int)
    requires 0 <= k < |imp|
  {
    RenameKey(imp[k].0).Ok?
  }

  /** The k-th key of an importance list is renamed to `n`. */
  predicate RenamesTo(imp: seq<(string, real)>, k: int, n: string)
    requires 0 <= k < |imp|
  {
    RenameKey(imp[k].0) == Ok(n)
  }

  /** Every name in the map carries the weight of the last entry renamed to it. */
  lemma {:induction false} RenameAllLastWins(imp: seq<(string, real)>, rename: Renaming, n: string)
    requires RenameAll(imp, rename).Ok? && n in RenameAll(imp, rename).value
    ensures exists k :: (0 <= k < |imp| && rename(imp[k].0) == Ok(n)
      && RenameAll(imp, rename).value[n] == imp[k].1
      && forall j :: k < j < |imp| ==> rename(imp[j].0) != Ok(n))
  {
    var init, last := imp[..|imp| - 1], imp[|imp| - 1];
    var m := RenameAll(init, rename).value;
    if rename(last.0) == Ok(n) {
      assert rename(imp[|imp| - 1].0) == Ok(n);
    } else {
      assert n in m;
      RenameAllLastWins(init, rename, n);
      var k :| 0 <= k < |init| && rename(init[k].0) == Ok(n) && m[n] == init[k].1
        && forall j :: k < j < |init| ==> rename(init[j].0) != Ok(n);
      assert imp[k] == init[k];
      forall j | k < j < |imp|
        ensures rename(imp[j].0) != Ok(n)
      {
        if j < |init| {
          assert imp[j] == init[j];
        }
      }
    }
  }

  /** An entry no later entry shares a name with keeps its weight. */
  lemma RenameAllKeeps(imp: seq<(string, real)>, rename: Renaming, k: nat)
    requires RenameAll(imp, rename).Ok? && k < |imp| && rename(imp[k].0).Ok?
    requires forall j :: k < j < |imp| ==> rename(imp[j].0) != rename(imp[k].0)
    ensures rename(imp[k].0).value in RenameAll(imp, rename).value
    ensures RenameAll(imp, rename).value[rename(imp[k].0).value] == imp[k].1
  {
    var n := rename(imp[k].0).value;
    RenameAllKeys(imp, rename, n);
    RenameAllLastWins(imp, rename, n);
    var k' :| 0 <= k' < |imp| && rename(imp[k'].0) == Ok(n)
      && RenameAll(imp, rename).value[n] == imp[k'].1
      && forall j :: k' < j < |imp| ==> rename(imp[j].0) != Ok(n);
    assert k' == k;
  }

  /** With the endpoint's renaming: each display name in the result has the weight of
      the last booster key renamed to it. */
  lemma ImportanceLastWins(imp: seq<(string, real)>, n: string)
    requires RenameImportance(imp).Ok? && n in RenameImportance(imp).value
    ensures exists k :: (0 <= k < |imp| && RenamesTo(imp, k, n)
      && RenameImportance(imp).value[n] == imp[k].1
      && forall j :: k < j < |imp| ==> !RenamesTo(imp, j, n))
  {
    var f: Renaming := RenameKey;
    RenameAllLastWins(imp, f, n);
    var k :| 0 <= k < |imp| && f(imp[k].0) == Ok(n) && RenameAll(imp, f).value[n] == imp[k].1
      && forall j :: k < j < |imp| ==> f(imp[j].0) != Ok(n);
    assert RenamesTo(imp, k, n);
    forall j | k < j < |imp|
      ensures !RenamesTo(imp, j, n)
    {
      assert f(imp[j].0) != Ok(n);
    }
  }

  /** The booster key `f<i>`, for `i < 8`, gives its weight to the i-th display name when
      no later key is renamed to the same name. */
  lemma BoosterWeight(imp: seq<(string, real)>, k: nat, i: nat)
    requires RenameImportance(imp).Ok? && k < |imp| && i < |FeaturePretty|
    requires imp[k].0 == "f" + NatToString(i)
    requires forall j :: k < j < |imp| ==> !RenamesTo(imp, j, FeaturePretty[i])
    ensures FeaturePretty[i] in RenameImportance(imp).value
    ensures RenameImportance(imp).value[FeaturePretty[i]] == imp[k].1
  {
    RenameBoosterKey(i);
    var f: Renaming := RenameKey;
    forall j | k < j < |imp|
      ensures f(imp[j].0) != f(imp[k].0)
    {
      assert !RenamesTo(imp, j, FeaturePretty[i]);
    }
    RenameAllKeeps(imp, f, k);
  }

  /** A key that does not start with `f` is copied through with the weight of its last
      occurrence, whatever the other keys are, once the loop completes. */
  lemma PlainKeysKept(imp: seq<(string, real)>, k: nat)
    requires RenameImportance(imp).Ok? && k < |imp|
    requires |imp[k].0| == 0 || imp[k].0[0] != 'f'
    requires forall j :: k < j < |imp| ==> !RenamesTo(imp, j, imp[k].0)
    ensures imp[k].0 in RenameImportance(imp).value
    ensures RenameImportance(imp).value[imp[k].0] == imp[k].1
  {
    var f: Renaming := RenameKey;
    forall j | k < j < |imp|
      ensures f(imp[j].0) != f(imp[k].0)
    {
      assert !RenamesTo(imp, j, imp[k].0);
    }
    RenameAllKeeps(imp, f, k);
  }

  // ---------------------------------------------------------------------------
  // The prediction endpoint's own logic

  /** The eight request fields; the request schema guarantees each is present. */
  datatype Request = Request(period: real, duration: real, depth: real, prad: real,
                             sma: real, incl: real, teq: real, snr: real)

  /** The sample row, in `FeatureOrder`. */
  function Sample(q: Request): (row: seq<real>)
    ensures |row| == |FeatureOrder|
  {
    [q.period, q.duration, q.depth, q.prad, q.sma, q.incl, q.teq, q.snr]
  }

  /** The planet stage's features: the sample without inclination, in `PlanetKeys`. */
  function PlanetSample(q: Request): (row: seq<real>)
    ensures |row| == |PlanetKeys|
    ensures forall k :: 0 <= k < |PlanetKeys| ==> row[k] == Sample(q)[if k < 5 then k else 6]
  {
    [q.period, q.duration, q.depth, q.prad, q.sma, q.teq]
  }

  /** The rule scorer's row: the planet features keyed by name. */
  function PlanetRow(q: Request): (row: map<string, real>)
    ensures forall key :: key in row <==> key in PlanetKeys
    ensures forall k :: 0 <= k < |PlanetKeys| ==> row[PlanetKeys[k]] == PlanetSample(q)[k]
  {
    map["koi_period" := q.period, "koi_duration" := q.duration, "koi_depth" := q.depth,
        "koi_prad" := q.prad, "koi_sma" := q.sma, "koi_teq" := q.teq]
  }

  /** The planet stage's z-scores are the KOI stage's entries without inclination, so
      they cannot fail once those succeed. */
  lemma PlanetZScoresOk(q: Request, means: map<string, real>, stds: map<string, real>)
    ensures ComputeZScores(Sample(q), FeatureOrder, means, stds).Ok? ==>
      && ComputeZScores(PlanetSample(q), PlanetKeys, means, stds).Ok?
      && Picked(ComputeZScores(PlanetSample(q), PlanetKeys, means, stds).value,
                ComputeZScores(Sample(q), FeatureOrder, means, stds).value, PlanetIndex)
  {
    KeyListsDistinct();
    assert Selects(Sample(q), FeatureOrder, PlanetSample(q), PlanetKeys, PlanetIndex);
    SubKeysZScores(Sample(q), FeatureOrder, PlanetSample(q), PlanetKeys, PlanetIndex, means, stds);
  }

  /** Where each planet key sits among the feature keys. */
  const PlanetIndex: seq<nat> := [0, 1, 2, 3, 4, 6]

  /** The selection `index` of the keys, with their values. */
  predicate Selects(values: seq<real>, keys: seq<string>, sub: seq<real>, subKeys: seq<string>, index: seq<nat>) {
    && |index| == |subKeys| == |sub|
    && (forall k :: 0 <= k < |index| ==> index[k] < |keys| && index[k] < |values|)
    && (forall k :: 0 <= k < |index| ==> subKeys[k] == keys[index[k]] && sub[k] == values[index[k]])
  }

  /** `part` is the entries of `all` at the positions `index`, in that order. */
  predicate Picked<T(==)>(part: seq<T>, all: seq<T>, index: seq<nat>) {
    |part| == |index| && forall k :: 0 <= k < |index| ==> index[k] < |all| && part[k] == all[index[k]]
  }

  /** Scoring a selection of the keys, with their values, succeeds whenever scoring all
      of them does, and gives the selected entries. */
  lemma SubKeysZScores(values: seq<real>, keys: seq<string>, sub: seq<real>, subKeys: seq<string>,
                       index: seq<nat>, means: map<string, real>, stds: map<string, real>)
    requires Selects(values, keys, sub, subKeys, index)
    ensures ComputeZScores(values, keys, means, stds).Ok? ==>
      && ComputeZScores(sub, subKeys, means, stds).Ok?
      && Picked(ComputeZScores(sub, subKeys, means, stds).value, ComputeZScores(values, keys, means, stds).value, index)
  {
    if ComputeZScores(values, keys, means, stds).Ok? {
      SubKeysOk(values, keys, sub, subKeys, index, means, stds);
      forall k | 0 <= k < |index|
        ensures ComputeZScores(sub, subKeys, means, stds).value[k] == ComputeZScores(values, keys, means, stds).value[index[k]]
      {
        SubKeyEntry(values, keys, sub, subKeys, index, means, stds, k);
      }
    }
  }

  lemma SubKeysOk(values: seq<real>, keys: seq<string>, sub: seq<real>, subKeys: seq<string>,
                  index: seq<nat>, means: map<string, real>, stds: map<string, real>)
    requires Selects(values, keys, sub, subKeys, index)
    requires ComputeZScores(values, keys, means, stds).Ok?
    ensures ComputeZScores(sub, subKeys, means, stds).Ok?
  {
    forall k | 0 <= k < |subKeys|
      ensures Available(sub, subKeys, means, stds, k)
    {
      assert Available(values, keys, means, stds, index[k]);
    }
  }

  lemma SubKeyEntry(values: seq<real>, keys: seq<string>, sub: seq<real>, subKeys: seq<string>,
                    index: seq<nat>, means: map<string, real>, stds: map<string, real>, k: nat)
    requires Selects(values, keys, sub, subKeys, index) && k < |index|
    requires ComputeZScores(values, keys, means, stds).Ok? && ComputeZScores(sub, subKeys, means, stds).Ok?
    ensures ComputeZScores(sub, subKeys, means, stds).value[k] == ComputeZScores(values, keys, means, stds).value[index[k]]
  {
    var all := ComputeZScores(values, keys, means, stds).value;
    var part := ComputeZScores(sub, subKeys, means, stds).value;
    var j := index[k];
    assert Available(values, keys, means, stds, j);
    ZEntryOf(part[k], subKeys[k], sub[k], means, stds);
    ZEntryOf(all[j], keys[j], values[j], means, stds);
  }

  /** An entry is determined by its key, value and the stored statistics of its key. */
  lemma ZEntryOf(e: ZEntry, key: string, v: real, means: map<string, real>, stds: map<string, real>)
    requires key in means && key in stds
    requires e.key == key && e.stat.value == v && e.stat.mean == means[key] && e.stat.std == SafeStd(stds[key])
    requires e.stat.mean + e.stat.z * e.stat.std == v
    ensures e == ZEntry(key, ZStatOf(v, means[key], stds[key]))
  {
    var s := SafeStd(stds[key]);
    assert e.stat.z * s == v - means[key];
    assert e.stat.z == (v - means[key]) / s;
  }

  /** What the trained classifiers return for the sample: opaque, hence inputs. */
  datatype ModelOutputs = ModelOutputs(pred: int, proba: seq<real>, importance: seq<(string, real)>,
                                       planetPred: int, planetProba: seq<real>)

  datatype Reliability = Reliability(score: real, level: string)

  datatype PlanetStage = PlanetStage(mlType: string, mlCode: int, ruleType: string,
                                     ruleScores: seq<real>, agreement: bool, zs: seq<ZEntry>,
                                     flags: seq<Flag>, extreme: bool, reliability: Reliability)

  datatype Outcome = Outcome(prediction: string, code: int, confidence: real,
                             reliability: Reliability, zs: seq<ZEntry>, flags: seq<Flag>,
                             extreme: bool, importance: map<string, real>,
                             planet: Option<PlanetStage>)

  /** The payload `predict` builds, minus the generated explanations. Any fault becomes
      an error response. */
  function Predict(exp: real -> real, q: Request, out: ModelOutputs, means: map<string, real>,
                   stds: map<string, real>): (r: Result<Outcome, PyError>)
    requires ExpModel(exp)
    ensures r.Ok? ==> IsMax(out.proba, r.value.confidence)
    ensures r.Ok? ==> r.value.prediction == ClassLabel(out.pred)
    ensures r.Ok? ==> (r.value.planet.Some? <==> out.pred == 0)
    ensures r.Ok? ==> |r.value.zs| == |FeatureOrder| && |r.value.flags| <= |FeatureOrder|
    ensures r.Ok? && r.value.extreme ==> |r.value.flags| > 0
    ensures r.Ok? && 0.0 <= r.value.confidence ==> 0.0 <= r.value.reliability.score <= r.value.confidence
    ensures r.Ok? ==> r.value.reliability.level == ReliabilityLabel(r.value.reliability.score)
    ensures r.Ok? && r.value.planet.Some? ==>
      r.value.planet.value.ruleType == Fuzzy.AssignPlanetType(PlanetRow(q)).best
      && (r.value.planet.value.agreement <==> r.value.planet.value.mlType == r.value.planet.value.ruleType)
    ensures r.Ok? <==> KoiOutcome(exp, q, out, means, stds).Ok? && (out.pred == 0 ==> |out.planetProba| > 0)
    ensures r.Ok? ==> Ok(r.value.(planet := None)) == KoiOutcome(exp, q, out, means, stds)
    ensures r.Ok? && r.value.planet.Some? ==>
      PlanetStageOf(exp, q, out, means, stds, Fuzzy.AssignPlanetType(PlanetRow(q))) == Ok(r.value.planet.value)
  {
    PlanetZScoresOk(q, means, stds);
    match KoiOutcome(exp, q, out, means, stds)
    case Err(e) => Err(e)
    case Ok(base) =>
      ExoplanetIffCodeZero(out.pred);
      if base.prediction == "Exoplanet" then
        match PlanetStageOf(exp, q, out, means, stds, Fuzzy.AssignPlanetType(PlanetRow(q)))
        case Err(e) => Err(e)
        case Ok(p) => Ok(WithPlanet(base, p))
      else Ok(base)
  }

  function WithPlanet(o: Outcome, p: PlanetStage): (r: Outcome)
    ensures r.planet == Some(p)
    ensures r.prediction == o.prediction && r.code == o.code && r.confidence == o.confidence
    ensures r.reliability == o.reliability && r.importance == o.importance
    ensures r.zs == o.zs && r.flags == o.flags && r.extreme == o.extreme
    ensures r.(planet := o.planet) == o
  {
    o.(planet := Some(p))
  }

  /** The classification half of the payload, before the planet stage. */
  function KoiOutcome(exp: real -> real, q: Request, out: ModelOutputs, means: map<string, real>,
                      stds: map<string, real>): (r: Result<Outcome, PyError>)
    requires ExpModel(exp)
    ensures r.Ok? ==> IsMax(out.proba, r.value.confidence)
    ensures r.Ok? ==> r.value.prediction == ClassLabel(out.pred) && r.value.planet.None?
    ensures r.Ok? ==> |r.value.zs| == |FeatureOrder| && |r.value.flags| <= |FeatureOrder|
    ensures r.Ok? && r.value.extreme ==> |r.value.flags| > 0
    ensures r.Ok? && 0.0 <= r.value.confidence ==> 0.0 <= r.value.reliability.score <= r.value.confidence
    ensures r.Ok? ==> r.value.reliability.level == ReliabilityLabel(r.value.reliability.score)
    ensures r.Ok? <==> && |out.proba| > 0
                       && ComputeZScores(Sample(q), FeatureOrder, means, stds).Ok?
                       && RenameImportance(out.importance).Ok?
    ensures r.Ok? ==> r.value.code == out.pred
    ensures r.Ok? ==> ComputeZScores(Sample(q), FeatureOrder, means, stds) == Ok(r.value.zs)
    ensures r.Ok? ==> r.value.flags == Flags(r.value.zs) && r.value.extreme == Extreme(r.value.zs)
    ensures r.Ok? ==> r.value.reliability.score == ReliabilityScore(exp, r.value.confidence, |r.value.flags|)
    ensures r.Ok? ==> RenameImportance(out.importance) == Ok(r.value.importance)
  {
    match MaxOf(out.proba)
    case None => Err(ValueError("max() arg is an empty sequence"))
    case Some(confidence) =>
      match ComputeZScores(Sample(q), FeatureOrder, means, stds)
      case Err(e) => Err(e)
      case Ok(zs) =>
        var flags := Flags(zs);
        ExtremeIsFlagged(zs);
        var score := ReliabilityScore(exp, confidence, |flags|);
        match RenameImportance(out.importance)
        case Err(e) => Err(e)
        case Ok(importance) =>
          Ok(Outcome(ClassLabel(out.pred), out.pred, confidence,
                     Reliability(score, ReliabilityLabel(score)), zs, flags, Extreme(zs),
                     importance, None))
  }

  /** The planet-type stage: the planet classifier's answer next to the rule scorer's,
      with its own outlier discount. The planet z-scores are computed before the top
      planet probability is taken, so a missing statistic is reported first. */
  function PlanetStageOf(exp: real -> real, q: Request, out: ModelOutputs, means: map<string, real>,
                         stds: map<string, real>, rule: Fuzzy.Assignment): (r: Result<PlanetStage, PyError>)
    requires ExpModel(exp)
    requires |rule.scores| == |Fuzzy.ClassSpecs|
    requires forall c :: 0 <= c < |rule.scores| ==> 0.0 <= rule.scores[c] <= 1.0
    ensures r.Ok? ==> r.value.ruleType == rule.best && r.value.ruleScores == rule.scores
    ensures r.Ok? ==> (r.value.agreement <==> r.value.mlType == r.value.ruleType)
    ensures r.Ok? ==> r.value.reliability.level == ReliabilityLabel(r.value.reliability.score)
    ensures r.Ok? ==> 0 <= r.value.mlCode < |Fuzzy.ClassSpecs| ==> r.value.mlType == Fuzzy.ClassSpecs[r.value.mlCode].name
    ensures r.Ok? && (forall k :: 0 <= k < |out.planetProba| ==> 0.0 <= out.planetProba[k] <= 1.0) ==>
      0.0 <= r.value.reliability.score <= RuleScore(r.value.ruleScores, r.value.mlType)
    ensures r.Ok? <==> |out.planetProba| > 0 && ComputeZScores(PlanetSample(q), PlanetKeys, means, stds).Ok?
    ensures ComputeZScores(PlanetSample(q), PlanetKeys, means, stds).Err? ==>
      r == Err(ComputeZScores(PlanetSample(q), PlanetKeys, means, stds).error)
    ensures r.Ok? ==> r.value.mlCode == out.planetPred
    ensures r.Ok? ==> ComputeZScores(PlanetSample(q), PlanetKeys, means, stds) == Ok(r.value.zs)
    ensures r.Ok? ==> r.value.flags == Flags(r.value.zs) && r.value.extreme == Extreme(r.value.zs)
    ensures r.Ok? ==> (r.value.reliability.score
      == PlanetReliability(exp, MaxOf(out.planetProba).value, rule.scores, r.value.mlType, |r.value.flags|))
  {
    match ComputeZScores(PlanetSample(q), PlanetKeys, means, stds)
    case Err(e) => Err(e)
    case Ok(zs) =>
      match MaxOf(out.planetProba)
      case None => Err(ValueError("max() arg is an empty sequence"))
      case Some(maxProba) =>
        MaxOfProbabilities(out.planetProba);
        Ok(StageOf(exp, out.planetPred, maxProba, rule, zs))
  }

  function StageOf(exp: real -> real, mlCode: int, maxProba: real, rule: Fuzzy.Assignment,
                   zs: seq<ZEntry>): (p: PlanetStage)
    requires ExpModel(exp)
    requires |rule.scores| == |Fuzzy.ClassSpecs|
    requires forall c :: 0 <= c < |rule.scores| ==> 0.0 <= rule.scores[c] <= 1.0
    ensures p.ruleType == rule.best && p.mlCode == mlCode && p.ruleScores == rule.scores
    ensures p.agreement <==> p.mlType == p.ruleType
    ensures p.reliability.level == ReliabilityLabel(p.reliability.score)
    ensures 0 <= mlCode < |Fuzzy.ClassSpecs| ==> p.mlType == Fuzzy.ClassSpecs[mlCode].name
    ensures 0.0 <= maxProba <= 1.0 ==> 0.0 <= p.reliability.score <= RuleScore(p.ruleScores, p.mlType)
    ensures p.zs == zs && p.flags == Flags(zs) && p.extreme == Extreme(zs)
    ensures p.reliability.score == PlanetReliability(exp, maxProba, rule.scores, p.mlType, |p.flags|)
  {
    var mlType := PlanetLabel(mlCode);
    PlanetLabelsAreRuleClasses(mlCode);
    var flags := Flags(zs);
    var score := PlanetReliability(exp, maxProba, rule.scores, mlType, |flags|);
    PlanetStage(mlType, mlCode, rule.best, rule.scores, mlType == rule.best,
                zs, flags, Extreme(zs), Reliability(score, ReliabilityLabel(score)))
  }
}

=== FILE: signals.dfy ===
/** The signal list the explorer and anomaly pages share: the record fetched from the
    explorer endpoint, the outlier-count buckets of the filter chips, and eight-per-page
    slicing with its page controls. */
module Signals {
  import opened Wrappers
  import opened Text
  import opened Lists

  /** One entry of the explorer endpoint, as the pages read it. A prediction may be
      missing; `createdAt` is optional. A null planet type (sent for an analysis without
      a planet-type stage) is written as "", which is how the report's `join` prints it;
      `String(null)` would read "null", but the page only ever sorts by confidence, so no
      text comparison sees it. */
  datatype Signal = Signal(id: int, prediction: Option<string>, confidence: real, reliability: string,
                           planetType: string, outlierCount: int, createdAt: Option<string>)

  const FalsePositive: string := "false positive"

  /** `s.prediction?.toLowerCase() === "false positive"`: a missing prediction is not. */
  predicate IsFalsePositive(s: Signal) {
    s.prediction.Some? && Lower(s.prediction.value) == FalsePositive
  }

  // ---------------------------------------------------------------------------
  // Buckets

  const AllChip: string := "All"
  const LowChip: string := "Low (0-3)"
  const MediumChip: string := "Medium (3-7)"
  const HighChip: string := "High (7-9)"
  const CriticalChip: string := "Critical (9+)"

  /** Whether a signal with `count` outliers passes the chip named `chip`. The ranges
      are inclusive at both ends; "All" and any other name pass everything. */
  function InBucket(chip: string, count: int): (b: bool)
    ensures chip == LowChip ==> (b <==> 0 <= count <= 3)
    ensures chip == MediumChip ==> (b <==> 3 <= count <= 7)
    ensures chip == HighChip ==> (b <==> 7 <= count <= 9)
    ensures chip == CriticalChip ==> (b <==> count >= 9)
    ensures chip !in {LowChip, MediumChip, HighChip, CriticalChip} ==> b
  {
    if chip == AllChip then true
    else if chip == LowChip then 0 <= count && count <= 3
    else if chip == MediumChip then 3 <= count && count <= 7
    else if chip == HighChip then 7 <= count && count <= 9
    else if chip == CriticalChip then count >= 9
    else true
  }

  /** The chips cover every count from 0 up, and the boundary counts 3, 7 and 9 pass two
      neighbouring chips each. */
  lemma BucketsCoverAndOverlap(count: int)
    requires count >= 0
    ensures InBucket(LowChip, count) || InBucket(MediumChip, count) || InBucket(HighChip, count) || InBucket(CriticalChip, count)
    ensures InBucket(LowChip, 3) && InBucket(MediumChip, 3)
    ensures InBucket(MediumChip, 7) && InBucket(HighChip, 7)
    ensures InBucket(HighChip, 9) && InBucket(CriticalChip, 9)
  {
  }

  /** `signals.filter(...)` by the selected chip. */
  function ByBucket(signals: seq<Signal>, chip: string): (r: seq<Signal>)
    ensures forall i :: 0 <= i < |r| ==> r[i] in signals && InBucket(chip, r[i].outlierCount)
    ensures forall i :: 0 <= i < |signals| ==> (signals[i] in r <==> InBucket(chip, signals[i].outlierCount))
  {
    Filter(signals, (s: Signal) => InBucket(chip, s.outlierCount))
  }

  /** "All" and unknown chips leave the list as it is. */
  lemma UnknownChipKeepsAll(signals: seq<Signal>, chip: string)
    requires chip !in {LowChip, MediumChip, HighChip, CriticalChip}
    ensures ByBucket(signals, chip) == signals
  {
    FilterKeepsAll(signals, (s: Signal) => InBucket(chip, s.outlierCount));
  }

  // ---------------------------------------------------------------------------
  // Pages

  const PerPage: nat := 8

  function Min(a: int, b: int): int {
    if a <= b then a else b
  }

  /** `xs.slice((page - 1) * 8, page * 8)`: page numbers start at 1. */
  function Page<T>(xs: seq<T>, page: nat): (r: seq<T>)
    requires page >= 1
    ensures |r| <= PerPage
    ensures (page - 1) * PerPage >= |xs| ==> r == []
    ensures (page - 1) * PerPage < |xs| ==> |r| == Min(PerPage, |xs| - (page - 1) * PerPage)
    ensures forall i :: 0 <= i < |r| ==> r[i] == xs[(page - 1) * PerPage + i]
  {
    var start := Min((page - 1) * PerPage, |xs|);
    xs[start..Min(page * PerPage, |xs|)]
  }

  /** The cards on show: the chip's signals, page `page`. */
  function Shown(signals: seq<Signal>, chip: string, page: nat): (r: seq<Signal>)
    requires page >= 1
    ensures |r| <= PerPage
    ensures forall i :: 0 <= i < |r| ==> r[i] in signals && InBucket(chip, r[i].outlierCount)
  {
    var filtered := ByBucket(signals, chip);
    var r := Page(filtered, page);
    assert forall i :: 0 <= i < |r| ==> r[i] in filtered;
    r
  }

  /** Pages 1 to `n`, one after the other. */
  function Pages<T>(xs: seq<T>, n: nat): seq<T> {
    if n == 0 then [] else Pages(xs, n - 1) + Page(xs, n)
  }

  /** The first `n` pages are the first `8n` items. */
  lemma {:induction false} PagesPrefix<T>(xs: seq<T>, n: nat)
    ensures Pages(xs, n) == xs[..Min(n * PerPage, |xs|)]
  {
    if n > 0 {
      PagesPrefix(xs, n - 1);
      var a := Min((n - 1) * PerPage, |xs|);
      var b := Min(n * PerPage, |xs|);
      assert Page(xs, n) == xs[a..b];
      assert xs[..a] + xs[a..b] == xs[..b];
    }
  }

  /** `Math.ceil(n / 8)`. */
  function PageCount(n: nat): (c: nat)
    ensures c * PerPage >= n
    ensures c > 0 ==> (c - 1) * PerPage < n
  {
    (n + PerPage - 1) / PerPage
  }

  /** All page buttons together show the whole list, each item once. */
  lemma AllPages<T>(xs: seq<T>)
    ensures Pages(xs, PageCount(|xs|)) == xs
  {
    PagesPrefix(xs, PageCount(|xs|));
  }

  /** Every page a button leads to shows at least one item. */
  lemma ButtonPagesNonEmpty<T>(xs: seq<T>, page: nat)
    requires 1 <= page <= PageCount(|xs|)
    ensures |Page(xs, page)| > 0
  {
    assert (page - 1) * PerPage < |xs|;
  }

  /** The "Empty Slot" placeholders after `shown` cards. */
  function EmptySlots(shown: nat): (n: nat)
    ensures shown <= PerPage ==> shown + n == PerPage
  {
    if shown < PerPage then PerPage - shown else 0
  }

  /** A page of cards and its placeholders always fill the eight slots. */
  lemma SlotsFilled<T>(xs: seq<T>, page: nat)
    requires page >= 1
    ensures |Page(xs, page)| + EmptySlots(|Page(xs, page)|) == PerPage
  {
  }

  /** The pagination bar shows with more than one page of items. */
  predicate ShowsPagination(count: nat) {
    count > PerPage
  }

  lemma PaginationIffSeveralPages(count: nat)
    ensures ShowsPagination(count) <==> PageCount(count) > 1
  {
  }

  /** The previous-page button: `Math.max(1, p - 1)`. */
  function Prev(page: nat): (p: nat)
    requires page >= 1
    ensures p >= 1 && p <= page
    ensures page > 1 ==> p == page - 1
  {
    if page - 1 >= 1 then page - 1 else 1
  }

  /** The next-page button is disabled exactly on page `ceil(count / 8)`. */
  predicate NextDisabled(page: nat, count: nat) {
    page == PageCount(count)
  }

  /** Starting from a button page, repeated "next" stops at the last page, and every page
      passed on the way shows items. */
  lemma NextStopsAtLast<T>(xs: seq<T>, page: nat)
    requires 1 <= page <= PageCount(|xs|)
    ensures !NextDisabled(page, |xs|) ==> page + 1 <= PageCount(|xs|) && |Page(xs, page + 1)| > 0
  {
    if !NextDisabled(page, |xs|) {
      ButtonPagesNonEmpty(xs, page + 1);
    }
  }

  // ---------------------------------------------------------------------------
  // Clicks on the chip row and the pagination bar

  /** The pagination bar: whether it shows, its number of page buttons, and whether
      "next" is disabled. */
  datatype Bar = Bar(visible: bool, buttons: nat, nextDisabled: bool)

  /** The bar drawn from the chip's `count` signals, as the explorer draws it. */
  function ChipBar(count: nat, page: nat): (b: Bar)
    ensures b.visible <==> b.buttons > 1
    ensures b.buttons == PageCount(count)
    ensures b.nextDisabled <==> page == b.buttons
  {
    PaginationIffSeveralPages(count);
    Bar(ShowsPagination(count), PageCount(count), NextDisabled(page, count))
  }

  /** What a user can press: a chip, a numbered page button, "prev" or "next". */
  datatype Click = PickChip(chip: string) | PageButton(n: nat) | PrevPage | NextPage

  /** The chip and page a page keeps in its state; both start as "All" and 1. */
  datatype View = View(chip: string, page: nat)

  const Start: View := View(AllChip, 1)

  /** One click. A chip button sets the chip; as written (`resetPage` false) the page is
      kept, and the corrected handler sets it back to 1. The page buttons, "prev" and
      "next" exist only while the bar shows: a numbered button sets its page, "prev"
      steps back unless on page 1, and "next" steps on unless the bar disables it. */
  function Step(v: View, c: Click, bar: Bar, resetPage: bool): (w: View)
    requires v.page >= 1
    ensures w.page >= 1
    ensures c.PickChip? ==> w.chip == c.chip && (w.page == 1 || (!resetPage && w.page == v.page))
    ensures !c.PickChip? ==> w.chip == v.chip
    ensures !c.PickChip? && w.page != v.page ==> bar.visible
    ensures c.PageButton? && w.page != v.page ==> w.page <= bar.buttons
    ensures c.NextPage? && w.page != v.page ==> !bar.nextDisabled && w.page == v.page + 1
    ensures c.PrevPage? ==> w.page <= v.page
  {
    match c
    case PickChip(f) => View(f, if resetPage then 1 else v.page)
    case PageButton(n) => if bar.visible && 1 <= n <= bar.buttons then View(v.chip, n) else v
    case PrevPage => if bar.visible && v.page != 1 then View(v.chip, Prev(v.page)) else v
    case NextPage => if bar.visible && !bar.nextDisabled then View(v.chip, v.page + 1) else v
  }

  /** The view after a run of clicks, each drawn on the bar of the chip's `count(chip)`
      signals. */
  function Run(v: View, clicks: seq<Click>, count: string -> nat, resetPage: bool): (w: View)
    requires v.page >= 1
    ensures w.page >= 1
    ensures |clicks| == 0 ==> w == v
    decreases |clicks|
  {
    if |clicks| == 0 then v
    else Run(Step(v, clicks[0], ChipBar(count(v.chip), v.page), resetPage), clicks[1..], count, resetPage)
  }

  /** A page the chip's own buttons could show: page 1, or one of its button pages. */
  predicate InRange(count: nat, page: nat) {
    page == 1 || 1 <= page <= PageCount(count)
  }

  /** With the page reset on a chip change, every click keeps the page in range. */
  lemma StepInRange(v: View, c: Click, count: string -> nat)
    requires v.page >= 1 && InRange(count(v.chip), v.page)
    ensures var w := Step(v, c, ChipBar(count(v.chip), v.page), true);
      InRange(count(w.chip), w.page)
  {
  }

  lemma {:induction false} RunInRange(v: View, clicks: seq<Click>, count: string -> nat)
    requires v.page >= 1 && InRange(count(v.chip), v.page)
    ensures var w := Run(v, clicks, count, true);
      InRange(count(w.chip), w.page)
    decreases |clicks|
  {
    if |clicks| > 0 {
      var u := Step(v, clicks[0], ChipBar(count(v.chip), v.page), true);
      StepInRange(v, clicks[0], count);
      RunInRange(u, clicks[1..], count);
    }
  }

  /** The number of signals each chip keeps. */
  function ChipCount(signals: seq<Signal>): string -> nat {
    chip => |ByBucket(signals, chip)|
  }

  /** Corrected: whatever the clicks, a chip with signals shows some on the page reached,
      and "next", when enabled, leads to a page that shows signals too. */
  lemma ResetNextNonEmpty(signals: seq<Signal>, clicks: seq<Click>)
    ensures var v := Run(Start, clicks, ChipCount(signals), true);
      var n := |ByBucket(signals, v.chip)|;
      && (n > 0 ==> |Shown(signals, v.chip, v.page)| > 0)
      && (ChipBar(n, v.page).visible && !ChipBar(n, v.page).nextDisabled ==> |Shown(signals, v.chip, v.page + 1)| > 0)
  {
    var count := ChipCount(signals);
    var v := Run(Start, clicks, count, true);
    var xs := ByBucket(signals, v.chip);
    RunInRange(Start, clicks, count);
    assert count(v.chip) == |xs|;
    InRangePages(xs, v.page);
    ShownIsPage(signals, v.chip, v.page);
    ShownIsPage(signals, v.chip, v.page + 1);
  }

  lemma ShownIsPage(signals: seq<Signal>, chip: string, page: nat)
    requires page >= 1
    ensures Shown(signals, chip, page) == Page(ByBucket(signals, chip), page)
  {
  }

  /** A page in range shows items whenever there are any, and so does the page "next"
      leads to when enabled. */
  lemma InRangePages<T>(xs: seq<T>, page: nat)
    requires InRange(|xs|, page)
    ensures |xs| > 0 ==> |Page(xs, page)| > 0
    ensures ChipBar(|xs|, page).visible && !ChipBar(|xs|, page).nextDisabled ==> |Page(xs, page + 1)| > 0
  {
    if |xs| > 0 {
      ButtonPagesNonEmpty(xs, page);
    }
    if ChipBar(|xs|, page).visible && !ChipBar(|xs|, page).nextDisabled {
      ButtonPagesNonEmpty(xs, page + 1);
    }
  }

  /** As written, a page kept from another chip can lie past the chip's last page: the
      bar shows, no cards do, and "next" stays enabled onto another empty page. */
  lemma KeptPagePastLast(signals: seq<Signal>, chip: string, page: nat)
    requires ShowsPagination(|ByBucket(signals, chip)|) && page > PageCount(|ByBucket(signals, chip)|)
    ensures var bar := ChipBar(|ByBucket(signals, chip)|, page);
      && bar.visible && !bar.nextDisabled
      && Shown(signals, chip, page) == [] && Shown(signals, chip, page + 1) == []
  {
  }

  /** Nine signals with no outliers and eight with ten: button "3" under "All", then the
      "Low (0-3)" chip, keeps page 3 of a chip with two pages. */
  lemma ChipKeepsPageExample()
    ensures var signals := seq(9, i => Signal(i, Some("Candidate"), 0.5, "Low", "", 0, None))
                         + seq(8, i => Signal(9 + i, Some("Candidate"), 0.5, "Low", "", 10, None));
      && Run(Start, [PageButton(3), PickChip(LowChip)], ChipCount(signals), false) == View(LowChip, 3)
      && |ByBucket(signals, LowChip)| == 9
      && Shown(signals, LowChip, 3) == [] && Shown(signals, LowChip, 4) == []
      && ChipBar(9, 3).visible && !ChipBar(9, 3).nextDisabled
  {
    var low := seq(9, i => Signal(i, Some("Candidate"), 0.5, "Low", "", 0, None));
    var high := seq(8, i => Signal(9 + i, Some("Candidate"), 0.5, "Low", "", 10, None));
    var signals := low + high;
    var keep := (s: Signal) => InBucket(LowChip, s.outlierCount);
    UnknownChipKeepsAll(signals, AllChip);
    assert |ByBucket(signals, AllChip)| == 17;
    FilterAppend(low, high, keep);
    FilterKeepsAll(low, keep);
    FilterKeepsNone(high, keep);
    assert ByBucket(signals, LowChip) == low;
    var count := ChipCount(signals);
    var v1 := Step(Start, PageButton(3), ChipBar(count(AllChip), 1), false);
    assert v1 == View(AllChip, 3);
    var v2 := Step(v1, PickChip(LowChip), ChipBar(count(AllChip), 3), false);
    assert v2 == View(LowChip, 3);
    assert [PageButton(3), PickChip(LowChip)][1..] == [PickChip(LowChip)];
    assert Run(v2, [], count, false) == v2;
    KeptPagePastLast(signals, LowChip, 3);
  }
}

=== FILE: star_system.dfy ===
/** The animated orbit view: every animation frame places each planet on its ellipse,
    the view keeps the placed planets and the one hovered planet, and each placed planet
    is drawn with a colour, a size, a glow and a hover scale. */
module StarSystem {
  import opened Wrappers
  import opened Text
  import Analysis

  type Planet = Analysis.Planet

  /** `f` applied at `a`; every use of the given cosine and sine goes through here. */
  function At(f: real -> real, a: real): real {
    f(a)
  }

  /** What the view assumes of the cosine and sine it is given: both bounded by 1 and
      periodic in 2π. */
  ghost predicate Trig(cos: real -> real, sin: real -> real, pi: real) {
    && (forall a :: -1.0 <= At(cos, a) <= 1.0)
    && (forall a :: -1.0 <= At(sin, a) <= 1.0)
    && (forall a, b :: b == a + 2.0 * pi ==> At(cos, b) == At(cos, a) && At(sin, b) == At(sin, a))
  }

  /** `(t / p.period) * 2 * Math.PI`. */
  function Angle(t: real, period: real, pi: real): real
    requires period != 0.0
  {
    t / period * 2.0 * pi
  }

  /** One more period is one more full turn. */
  lemma AngleShift(t: real, period: real, pi: real)
    requires period != 0.0
    ensures Angle(t + period, period, pi) == Angle(t, period, pi) + 2.0 * pi
  {
    var q := t / period;
    assert q * period == t;
    DivideBack(t + period, period, q + 1.0);
  }

  lemma DivideBack(x: real, d: real, y: real)
    requires d != 0.0 && y * d == x
    ensures x / d == y
  {
  }

  lemma ProductNonNegative(a: real, b: real)
    requires a >= 0.0 && b >= 0.0
    ensures a * b >= 0.0
  {
  }

  /** The planet at time `t` (seconds): the same record with `x` and `y` set on its
      ellipse; a zero period makes the angle NaN, and so both coordinates. */
  function Place(p: Planet, t: real, cos: real -> real, sin: real -> real, pi: real): (q: Planet)
    ensures q.(x := p.x, y := p.y) == p
    ensures q.x.Some? <==> p.period != 0.0
    ensures q.y.Some? <==> p.period != 0.0
  {
    if p.period == 0.0 then p.(x := None, y := None)
    else
      var a := Angle(t, p.period, pi);
      p.(x := Some(At(cos, a) * p.orbit * 200.0), y := Some(At(sin, a) * p.orbit * 120.0))
  }

  lemma BoundedProduct(c: real, o: real, k: real)
    requires -1.0 <= c <= 1.0 && k >= 0.0
    ensures Abs(c * o * k) <= Abs(o) * k
    ensures Abs(o) * k >= 0.0
  {
    var a := Abs(o);
    assert -a <= c * o <= a by {
      ProductNonNegative(a, 1.0 - c);
      ProductNonNegative(a, 1.0 + c);
    }
    ProductNonNegative(a - c * o, k);
    ProductNonNegative(a + c * o, k);
  }

  /** A placed planet stays inside its 200·orbit by 120·orbit ellipse box. */
  lemma PlaceBounded(p: Planet, t: real, cos: real -> real, sin: real -> real, pi: real)
    requires Trig(cos, sin, pi)
    ensures var q := Place(p, t, cos, sin, pi);
      && (q.x.Some? ==> Abs(q.x.value) <= Abs(p.orbit) * 200.0)
      && (q.y.Some? ==> Abs(q.y.value) <= Abs(p.orbit) * 120.0)
  {
    if p.period != 0.0 {
      var a := Angle(t, p.period, pi);
      var q := Place(p, t, cos, sin, pi);
      BoundedCoord(q.x.value, At(cos, a), p.orbit, 200.0);
      BoundedCoord(q.y.value, At(sin, a), p.orbit, 120.0);
    }
  }

  /** A coordinate `c * o * k` with `c` in [-1, 1] lies within `|o| * k` of the centre. */
  lemma BoundedCoord(v: real, c: real, o: real, k: real)
    requires -1.0 <= c <= 1.0 && k >= 0.0 && v == c * o * k
    ensures Abs(v) <= Abs(o) * k
  {
    BoundedProduct(c, o, k);
  }

  /** After one period every planet is back where it was. */
  lemma PlacePeriodic(p: Planet, t: real, cos: real -> real, sin: real -> real, pi: real)
    requires Trig(cos, sin, pi)
    ensures Place(p, t + p.period, cos, sin, pi) == Place(p, t, cos, sin, pi)
  {
    if p.period != 0.0 {
      var a := Angle(t, p.period, pi);
      var b := Angle(t + p.period, p.period, pi);
      AngleShift(t, p.period, pi);
      assert At(cos, b) == At(cos, a) && At(sin, b) == At(sin, a);
      var q1 := Place(p, t + p.period, cos, sin, pi);
      var q0 := Place(p, t, cos, sin, pi);
      assert q1.x.value == q0.x.value && q1.y.value == q0.y.value;
    }
  }

  /** One animation frame: `planets.map(...)` at time `t`. */
  function Frame(planets: seq<Planet>, t: real, cos: real -> real, sin: real -> real, pi: real): (ps: seq<Planet>)
    ensures |ps| == |planets|
    ensures forall i :: 0 <= i < |ps| ==> ps[i].(x := planets[i].x, y := planets[i].y) == planets[i]
    ensures forall i :: 0 <= i < |ps| ==> (ps[i].x.Some? <==> planets[i].period != 0.0)
  {
    seq(|planets|, i requires 0 <= i < |planets| => Place(planets[i], t, cos, sin, pi))
  }

  /** Every planet of the analysis page gets a position in every frame, within its box. */
  lemma AnalysisPlanetsPlaced(outliers: seq<Analysis.Outlier>, confidence: Option<real>, score: Option<real>,
                              t: real, cos: real -> real, sin: real -> real, pi: real, i: nat)
    requires Trig(cos, sin, pi)
    requires i < |outliers|
    ensures var ps := Analysis.MapOutliers(Some(outliers), confidence, score);
      var fr := Frame(ps, t, cos, sin, pi);
      && fr[i].x.Some? && fr[i].y.Some?
      && Abs(fr[i].x.value) <= ps[i].orbit * 200.0
      && Abs(fr[i].y.value) <= ps[i].orbit * 120.0
  {
    var ps := Analysis.MapOutliers(Some(outliers), confidence, score);
    PlaceBounded(ps[i], t, cos, sin, pi);
  }

  // ---------------------------------------------------------------------------
  // The view state

  /** The component's state: the placed planets it draws and the hovered planet. */
  datatype View = View(positions: seq<Planet>, hovered: Option<Planet>)

  const Initial: View := View([], None)

  /** One run of the animation effect as written: with no planets it returns at once,
      so whatever positions were drawn before stay. */
  function Animate(v: View, planets: seq<Planet>, t: real, cos: real -> real, sin: real -> real, pi: real): (w: View)
    ensures w.hovered == v.hovered
    ensures |planets| == 0 ==> w == v
    ensures |planets| > 0 ==> |w.positions| == |planets|
    ensures |planets| > 0 ==> forall i :: 0 <= i < |planets| ==> w.positions[i].name == planets[i].name
  {
    if |planets| == 0 then v else v.(positions := Frame(planets, t, cos, sin, pi))
  }

  /** Bodies of an earlier planet list survive a switch to an empty list. */
  lemma StalePositions(v: View, t: real, cos: real -> real, sin: real -> real, pi: real)
    requires |v.positions| > 0
    ensures |Animate(v, [], t, cos, sin, pi).positions| != 0
  {
  }

  /** The animation effect with the empty case clearing the positions. */
  function AnimateFixed(v: View, planets: seq<Planet>, t: real, cos: real -> real, sin: real -> real, pi: real): (w: View)
    ensures w.hovered == v.hovered
    ensures |w.positions| == |planets|
    ensures forall i :: 0 <= i < |planets| ==> w.positions[i].(x := planets[i].x, y := planets[i].y) == planets[i]
  {
    v.(positions := Frame(planets, t, cos, sin, pi))
  }

  /** The corrected effect always draws exactly the current planets, one orbit ring each. */
  lemma AnimateFixedMatchesRings(v: View, planets: seq<Planet>, t: real, cos: real -> real, sin: real -> real, pi: real)
    ensures |Bodies(AnimateFixed(v, planets, t, cos, sin, pi))| == |Rings(planets)|
  {
  }

  /** Where the list is not empty the two effects agree. */
  lemma AnimateAgrees(v: View, planets: seq<Planet>, t: real, cos: real -> real, sin: real -> real, pi: real)
    requires |planets| > 0
    ensures Animate(v, planets, t, cos, sin, pi) == AnimateFixed(v, planets, t, cos, sin, pi)
  {
  }

  /** `onMouseEnter`: the entered planet becomes the single hovered one. */
  function Enter(v: View, p: Planet): (w: View)
    ensures w.positions == v.positions && w.hovered == Some(p)
  {
    v.(hovered := Some(p))
  }

  /** `onMouseLeave`: nothing is hovered. */
  function Leave(v: View): (w: View)
    ensures w.positions == v.positions && w.hovered.None?
  {
    v.(hovered := None)
  }

  /** `hovered?.name === p.name ? 1.3 : 1`. */
  function Scale(hovered: Option<Planet>, p: Planet): (s: real)
    ensures s == 1.3 <==> hovered.Some? && hovered.value.name == p.name
    ensures s == 1.0 <==> !(hovered.Some? && hovered.value.name == p.name)
  {
    if hovered.Some? && hovered.value.name == p.name then 1.3 else 1.0
  }

  /** After leaving, nothing is enlarged. */
  lemma LeaveUnscales(v: View, p: Planet)
    ensures Scale(Leave(v).hovered, p) == 1.0
  {
  }

  /** Among the planets of the analysis page at most one body is enlarged at a time, since
      their names are distinct; the entered body itself is. */
  lemma HoverScalesOne(outliers: seq<Analysis.Outlier>, confidence: Option<real>, score: Option<real>,
                       t: real, cos: real -> real, sin: real -> real, pi: real,
                       v: View, h: Planet, i: nat, j: nat)
    requires i < j < |outliers|
    ensures var fr := Frame(Analysis.MapOutliers(Some(outliers), confidence, score), t, cos, sin, pi);
      var w := Enter(v, h);
      && !(Scale(w.hovered, fr[i]) == 1.3 && Scale(w.hovered, fr[j]) == 1.3)
      && Scale(Enter(v, fr[i]).hovered, fr[i]) == 1.3
  {
    var ps := Analysis.MapOutliers(Some(outliers), confidence, score);
    Analysis.PlanetsLayout(outliers, confidence, score, i, j);
    var fr := Frame(ps, t, cos, sin, pi);
    assert fr[i].name == ps[i].name && fr[j].name == ps[j].name;
  }

  // ---------------------------------------------------------------------------
  // Drawing

  const MapRed: string := "#ff3b3b"
  const MapOrange: string := "#ff8c00"
  const MapCyan: string := "#00e5ff"

  /** `colorMap[p.color] || p.color`: the three colour words map to their hex values and
      every other colour is used as it is. */
  function BaseColor(color: string): (c: string)
    ensures color == "red" ==> c == MapRed
    ensures color == "orange" ==> c == MapOrange
    ensures color == "cyan" ==> c == MapCyan
    ensures color !in {"red", "orange", "cyan"} ==> c == color
  {
    if color == "red" then MapRed
    else if color == "orange" then MapOrange
    else if color == "cyan" then MapCyan
    else color
  }

  /** The analysis page hands over hex colours, so the map never applies to its planets. */
  lemma AnalysisColorsUnmapped(z: Option<real>)
    ensures BaseColor(Analysis.OutlierColor(z)) == Analysis.OutlierColor(z)
  {
    var c := Analysis.OutlierColor(z);
    assert c[0] == '#';
  }

  /** `p.anomaly > 8 ? 25 : 12`. */
  function Glow(anomaly: real): (g: real)
    ensures g == 25.0 <==> anomaly > 8.0
    ensures g == 12.0 <==> anomaly <= 8.0
  {
    if anomaly > 8.0 then 25.0 else 12.0
  }

  /** `(p.radius * 5) * (p.anomaly / 5)`; NaN (`None`) with a NaN radius. */
  function Size(p: Planet): (s: Option<real>)
    ensures s.Some? <==> p.radius.Some?
    ensures s.Some? ==> s.value == p.radius.value * p.anomaly
  {
    match p.radius
    case None => None
    case Some(r) => Some(r * 5.0 * (p.anomaly / 5.0))
  }

  /** With a non-negative radius the size has the sign of the anomaly: a negative anomaly
      gives a negative width, which draws nothing. */
  lemma SizeSign(p: Planet)
    requires p.radius.Some? && p.radius.value > 0.0
    ensures Size(p).value > 0.0 <==> p.anomaly > 0.0
    ensures Size(p).value < 0.0 <==> p.anomaly < 0.0
  {
    var r := p.radius.value;
    if p.anomaly > 0.0 {
      assert r * p.anomaly > 0.0;
    } else if p.anomaly < 0.0 {
      assert r * -p.anomaly > 0.0;
    }
  }

  /** One drawn body. */
  datatype Body = Body(color: string, size: Option<real>, glow: real, scale: real, x: Option<real>, y: Option<real>)

  function Draw(p: Planet, hovered: Option<Planet>): (b: Body)
    ensures b.color == BaseColor(p.color) && b.glow == Glow(p.anomaly)
    ensures b.x == p.x && b.y == p.y
  {
    Body(BaseColor(p.color), Size(p), Glow(p.anomaly), Scale(hovered, p), p.x, p.y)
  }

  /** `positions.map(...)`: one body per placed planet, in order. */
  function Bodies(v: View): (bs: seq<Body>)
    ensures |bs| == |v.positions|
    ensures forall i :: 0 <= i < |bs| ==> bs[i] == Draw(v.positions[i], v.hovered)
  {
    seq(|v.positions|, i requires 0 <= i < |v.positions| => Draw(v.positions[i], v.hovered))
  }

  /** An orbit ring, as width and height. */
  datatype Ring = Ring(width: real, height: real)

  /** `planets.map(...)` for the rings: `orbit * 300` by `orbit * 180`. */
  function Rings(planets: seq<Planet>): (rs: seq<Ring>)
    ensures |rs| == |planets|
    ensures forall i :: 0 <= i < |rs| ==> rs[i] == Ring(planets[i].orbit * 300.0, planets[i].orbit * 180.0)
  {
    seq(|planets|, i requires 0 <= i < |planets| => Ring(planets[i].orbit * 300.0, planets[i].orbit * 180.0))
  }

  /** The rings of the analysis page's planets are strictly nested. */
  lemma RingsNested(outliers: seq<Analysis.Outlier>, confidence: Option<real>, score: Option<real>, i: nat, j: nat)
    requires i < j < |outliers|
    ensures var rs := Rings(Analysis.MapOutliers(Some(outliers), confidence, score));
      rs[i].width < rs[j].width && rs[i].height < rs[j].height
  {
    var ps := Analysis.MapOutliers(Some(outliers), confidence, score);
    Analysis.PlanetsLayout(outliers, confidence, score, i, j);
    assert ps[i].orbit < ps[j].orbit;
  }

  /** After the list of planets empties, the as-written view still draws bodies although
      it draws no rings. */
  lemma StaleBodiesWithoutRings(v: View, t: real, cos: real -> real, sin: real -> real, pi: real)
    requires |v.positions| > 0
    ensures |Bodies(Animate(v, [], t, cos, sin, pi))| > |Rings([])|
  {
  }
}

=== FILE: star_system_2d.dfy ===
/** The static orbit view: one ring per planet and one body per planet, coloured,
    sized and lit by the planet's anomaly and radius, at its optional screen offset. */
module StarSystem2D {
  import opened Wrappers
  import Analysis
  import StarSystem

  type Planet = Analysis.Planet

  const Red: string := "#ff3b3b"
  const Orange: string := "#ff8c00"
  const Cyan: string := "#00e5ff"

  /** The base colour tier: red above 70, orange above 30, cyan otherwise. */
  function BaseColor(anomaly: real): (c: string)
    ensures c == Red <==> anomaly > 70.0
    ensures c == Orange <==> 30.0 < anomaly <= 70.0
    ensures c == Cyan <==> anomaly <= 30.0
  {
    if anomaly > 70.0 then Red
    else if anomaly > 30.0 then Orange
    else Cyan
  }

  /** `Math.max(6, p.radius * 6)`; NaN (`None`) with a NaN radius. */
  function Size(radius: Option<real>): (s: Option<real>)
    ensures s.Some? <==> radius.Some?
    ensures s.Some? ==> s.value >= 6.0 && s.value >= radius.value * 6.0
    ensures s.Some? ==> s.value == 6.0 || s.value == radius.value * 6.0
  {
    match radius
    case None => None
    case Some(r) => Some(if 6.0 >= r * 6.0 then 6.0 else r * 6.0)
  }

  /** `Math.min(10 + p.anomaly * 0.2, 40)`. */
  function Glow(anomaly: real): (g: real)
    ensures g <= 40.0 && g <= 10.0 + anomaly * 0.2
    ensures g == 40.0 || g == 10.0 + anomaly * 0.2
  {
    if 10.0 + anomaly * 0.2 <= 40.0 then 10.0 + anomaly * 0.2 else 40.0
  }

  /** The glow grows with the anomaly until it reaches its cap at 150. */
  lemma GlowMonotone(a: real, b: real)
    requires a <= b
    ensures Glow(a) <= Glow(b)
    ensures a >= 150.0 ==> Glow(a) == 40.0
  {
  }

  /** `p.anomaly > 70 ? "66" : "44"`. */
  function Alpha(anomaly: real): (s: string)
    ensures s == "66" <==> anomaly > 70.0
    ensures s == "44" <==> anomaly <= 70.0
  {
    if anomaly > 70.0 then "66" else "44"
  }

  /** The stronger glow alpha goes exactly with the red tier. */
  lemma AlphaWithRed(anomaly: real)
    ensures Alpha(anomaly) == "66" <==> BaseColor(anomaly) == Red
  {
  }

  /** `v || 0`: a missing (or NaN, or zero) offset is 0. */
  function Offset(v: Option<real>): (o: real)
    ensures v.None? ==> o == 0.0
    ensures v.Some? ==> o == v.value
  {
    match v
    case None => 0.0
    case Some(x) => x
  }

  /** One drawn body: colour, size, glow, alpha and its offset from the centre. */
  datatype Body = Body(color: string, size: Option<real>, glow: real, alpha: string, left: real, top: real)

  function Draw(p: Planet): (b: Body)
    ensures b.color == BaseColor(p.anomaly) && b.alpha == Alpha(p.anomaly)
    ensures b.size == Size(p.radius) && b.glow == Glow(p.anomaly)
    ensures b.left == Offset(p.x) && b.top == Offset(p.y)
  {
    Body(BaseColor(p.anomaly), Size(p.radius), Glow(p.anomaly), Alpha(p.anomaly), Offset(p.x), Offset(p.y))
  }

  /** `planets.map(...)` for the bodies: one per planet, in order. */
  function Bodies(planets: seq<Planet>): (bs: seq<Body>)
    ensures |bs| == |planets|
    ensures forall i :: 0 <= i < |bs| ==> bs[i] == Draw(planets[i])
  {
    seq(|planets|, i requires 0 <= i < |planets| => Draw(planets[i]))
  }

  /** `planets.map(...)` for the rings: `orbit * 280` by `orbit * 170`. */
  function Rings(planets: seq<Planet>): (rs: seq<StarSystem.Ring>)
    ensures |rs| == |planets|
    ensures forall i :: 0 <= i < |rs| ==> rs[i] == StarSystem.Ring(planets[i].orbit * 280.0, planets[i].orbit * 170.0)
  {
    seq(|planets|, i requires 0 <= i < |planets| => StarSystem.Ring(planets[i].orbit * 280.0, planets[i].orbit * 170.0))
  }

  /** There is one ring for every body. */
  lemma RingPerBody(planets: seq<Planet>)
    ensures |Rings(planets)| == |Bodies(planets)|
  {
  }

  /** The analysis page gives no offsets, so every one of its bodies sits at the centre;
      a body with a z-score is exactly six times its radius, since that radius is at
      least 1. */
  lemma AnalysisBodiesCentred(outliers: seq<Analysis.Outlier>, confidence: Option<real>, score: Option<real>, i: nat)
    requires i < |outliers|
    ensures var ps := Analysis.MapOutliers(Some(outliers), confidence, score);
      var b := Bodies(ps)[i];
      && b.left == 0.0 && b.top == 0.0
      && (outliers[i].z.Some? ==> b.size.Some? && b.size.value == ps[i].radius.value * 6.0)
  {
    var ps := Analysis.MapOutliers(Some(outliers), confidence, score);
    assert ps[i].radius == Analysis.PlanetRadius(outliers[i].z);
  }

  /** The rings of the analysis page's planets are strictly nested here too. */
  lemma RingsNested(outliers: seq<Analysis.Outlier>, confidence: Option<real>, score: Option<real>, i: nat, j: nat)
    requires i < j < |outliers|
    ensures var rs := Rings(Analysis.MapOutliers(Some(outliers), confidence, score));
      rs[i].width < rs[j].width && rs[i].height < rs[j].height
  {
    Analysis.PlanetsLayout(outliers, confidence, score, i, j);
  }
}

=== FILE: statistics.dfy ===
/** The statistics page: the metric cards and benchmarks built from a classification
    report, the live report preview with its class and metric filters, the CSV export,
    and the intensity of each confusion-matrix cell. */
module Statistics {
  import opened Wrappers
  import opened Text
  import opened Json
  import opened Lists

  /** One `[class, values]` entry of a classification report, in key order. A class's
      values are an object of metrics; the "accuracy" entry is a bare number. */
  datatype Entry = Entry(cls: string, vals: Json)

  type Report = seq<Entry>

  /** `report[key]`: the values of the entry named `key`, undefined when there is none. */
  function Lookup(report: Report, key: string): (j: Json)
    ensures (forall i :: 0 <= i < |report| ==> report[i].cls != key) ==> j == JUndefined
    ensures forall i :: 0 <= i < |report| && report[i].cls == key && (forall k :: 0 <= k < i ==> report[k].cls != key) ==> j == report[i].vals
  {
    if |report| == 0 then JUndefined
    else if report[0].cls == key then report[0].vals
    else Lookup(report[1..], key)
  }

  /** `j?.[key]`: undefined on anything that is not an object or lacks the key. */
  function Prop(j: Json, key: string): (r: Json)
    ensures j.JObj? && key in j.fields ==> r == j.fields[key]
    ensures !(j.JObj? && key in j.fields) ==> r == JUndefined
  {
    match j
    case JObj(fields) => if key in fields then fields[key] else JUndefined
    case _ => JUndefined
  }

  /** `j ?? 0`. */
  function OrZero(j: Json): (r: Json)
    ensures !r.JNull? && !r.JUndefined?
    ensures !j.JNull? && !j.JUndefined? ==> r == j
  {
    if j.JNull? || j.JUndefined? then JNum(0.0) else j
  }

  // ---------------------------------------------------------------------------
  // Metric cards and benchmarks

  const MetricKeys: seq<string> := ["precision", "recall", "f1-score"]
  const CardNames: seq<string> := ["Precision", "Recall", "F1 Score", "Accuracy"]
  const MacroAvg: string := "macro avg"

  /** `report[cls]?.[key] ?? 0`. */
  function Cell(report: Report, cls: string, key: string): Json {
    OrZero(Prop(Lookup(report, cls), key))
  }

  /** One metric card: the metric for classes 0, 1 and 2 and its macro average. */
  datatype Card = Card(name: string, class0: Json, class1: Json, class2: Json, value: Json)

  function MetricCard(report: Report, k: nat): Card
    requires k < |MetricKeys|
  {
    var key := MetricKeys[k];
    Card(CardNames[k], Cell(report, "0", key), Cell(report, "1", key), Cell(report, "2", key), Cell(report, MacroAvg, key))
  }

  /** The four cards, in order: precision, recall and F1 score from the report, and the
      accuracy card repeating the response's accuracy (0 when missing) in every field. */
  function Metrics(report: Report, accuracy: Json): (cards: seq<Card>)
    ensures |cards| == |CardNames|
    ensures forall k :: 0 <= k < |cards| ==> cards[k].name == CardNames[k]
    ensures forall k :: 0 <= k < |MetricKeys| ==> cards[k] == MetricCard(report, k)
    ensures var a := OrZero(accuracy); cards[3] == Card("Accuracy", a, a, a, a)
  {
    var a := OrZero(accuracy);
    seq(|CardNames|, (k: nat) requires k < |CardNames| =>
      if k < |MetricKeys| then MetricCard(report, k) else Card(CardNames[k], a, a, a, a))
  }

  /** No card field is ever null or undefined: a missing entry or metric shows 0. */
  lemma CardsDefaultZero(report: Report, accuracy: Json, k: nat)
    requires k < 4
    ensures var c := Metrics(report, accuracy)[k];
      forall f :: f in [c.class0, c.class1, c.class2, c.value] ==> !f.JNull? && !f.JUndefined?
  {
  }

  /** A card reads a class's metric straight from the report when it is there. */
  lemma CardReadsReport(report: Report, accuracy: Json, k: nat, i: nat)
    requires k < |MetricKeys| && i < |report|
    requires report[i].cls == "0" && forall j :: 0 <= j < i ==> report[j].cls != "0"
    requires report[i].vals.JObj? && MetricKeys[k] in report[i].vals.fields
    requires report[i].vals.fields[MetricKeys[k]].JNum?
    ensures Metrics(report, accuracy)[k].class0 == report[i].vals.fields[MetricKeys[k]]
  {
  }

  /** An empty report gives cards of zeros, apart from the accuracy card. */
  lemma EmptyReportCards(accuracy: Json, k: nat)
    requires k < |MetricKeys|
    ensures Metrics([], accuracy)[k] == Card(CardNames[k], JNum(0.0), JNum(0.0), JNum(0.0), JNum(0.0))
  {
  }

  datatype Benchmark = Benchmark(name: string, f1: Json, precision: Json)

  const Tess: Benchmark := Benchmark("TESS", JNum(0.89), JNum(0.88))
  const Kepler: Benchmark := Benchmark("Kepler", JNum(0.91), JNum(0.9))

  /** The current model's benchmark from the macro averages, then the two fixed ones. */
  function Benchmarks(report: Report): (bs: seq<Benchmark>)
    ensures |bs| == 3 && bs[0].name == "KOI (Current Model)" && bs[1] == Tess && bs[2] == Kepler
  {
    [Benchmark("KOI (Current Model)", Cell(report, MacroAvg, "f1-score"), Cell(report, MacroAvg, "precision")), Tess, Kepler]
  }

  /** The current model's benchmark shows the same F1 score and precision as the value
      of the F1 and precision cards. */
  lemma BenchmarkMatchesCards(report: Report, accuracy: Json)
    ensures var koi := Benchmarks(report)[0];
      var cards := Metrics(report, accuracy);
      koi.f1 == cards[2].value && koi.precision == cards[0].value
  {
  }

  // ---------------------------------------------------------------------------
  // The live report preview

  const AllClasses: string := "all"

  /** The three metric switches. */
  datatype Enabled = Enabled(precision: bool, recall: bool, f1: bool)

  const AllOn: Enabled := Enabled(true, true, true)

  /** Whether the preview deletes the key `key` from a class under the switches `en`. */
  predicate Removed(en: Enabled, key: string) {
    (key == "precision" && !en.precision) || (key == "recall" && !en.recall) || (key == "f1-score" && !en.f1)
  }

  /** The metric deletions on one class's values: an object loses exactly the disabled
      metrics; anything else is left as it is. */
  function Strip(vals: Json, en: Enabled): (r: Json)
    ensures r.JObj? <==> vals.JObj?
    ensures !vals.JObj? ==> r == vals
    ensures vals.JObj? ==> forall k :: k in r.fields <==> k in vals.fields && !Removed(en, k)
    ensures vals.JObj? ==> forall k :: k in r.fields ==> r.fields[k] == vals.fields[k]
  {
    match vals
    case JObj(fields) => JObj(map k | k in fields && !Removed(en, k) :: fields[k])
    case _ => vals
  }

  /** Deleting again deletes nothing more. */
  lemma StripIdempotent(vals: Json, en: Enabled)
    ensures Strip(Strip(vals, en), en) == Strip(vals, en)
  {
    if vals.JObj? {
      assert Strip(Strip(vals, en), en).fields == Strip(vals, en).fields;
    }
  }

  /** With every switch on, nothing is deleted. */
  lemma StripAllOn(vals: Json)
    ensures Strip(vals, AllOn) == vals
  {
    if vals.JObj? {
      assert Strip(vals, AllOn).fields == vals.fields;
    }
  }

  /** The deletions applied to every entry. */
  function StripReport(report: Report, en: Enabled): (r: Report)
    ensures |r| == |report|
    ensures forall i :: 0 <= i < |r| ==> r[i] == Entry(report[i].cls, Strip(report[i].vals, en))
  {
    seq(|report|, i requires 0 <= i < |report| => Entry(report[i].cls, Strip(report[i].vals, en)))
  }

  /** The class filter: every entry for "all", else one entry holding the selected
      class's values (undefined when the report has no such class). */
  function Selected(report: Report, sel: string): Report {
    if sel == AllClasses then report else [Entry(sel, Lookup(report, sel))]
  }

  /** `filteredReport()` as it should behave: nothing without data; otherwise the
      selected entries, each without its disabled metrics, leaving the data alone. */
  function FilteredReport(data: Option<Report>, sel: string, en: Enabled): (r: Option<Report>)
    ensures r.None? <==> data.None?
    ensures r.Some? && sel == AllClasses ==>
      && |r.value| == |data.value|
      && forall i :: 0 <= i < |r.value| ==> r.value[i].cls == data.value[i].cls && r.value[i].vals == Strip(data.value[i].vals, en)
    ensures r.Some? && sel != AllClasses ==>
      |r.value| == 1 && r.value[0] == Entry(sel, Strip(Lookup(data.value, sel), en))
  {
    match data
    case None => None
    case Some(report) => Some(StripReport(Selected(report, sel), en))
  }

  /** With every switch on and every class selected, the preview is the report. */
  lemma FilteredAllOn(report: Report)
    ensures FilteredReport(Some(report), AllClasses, AllOn) == Some(report)
  {
    var r := FilteredReport(Some(report), AllClasses, AllOn).value;
    assert |r| == |report|;
    forall i | 0 <= i < |report|
      ensures r[i] == report[i]
    {
      StripAllOn(report[i].vals);
    }
    assert r == report;
  }

  /** The preview as written, with the data it leaves behind. Its copy of the report is
      shallow, so every class object it shows is the data's own object, and the
      deletions remove the disabled metrics from the data too. */
  datatype Preview = Preview(view: Option<Report>, data: Option<Report>)

  function FilteredReportAsWritten(data: Option<Report>, sel: string, en: Enabled): (p: Preview)
    ensures p.view == FilteredReport(data, sel, en)
    ensures p.data.None? <==> data.None?
    ensures p.data.Some? ==>
      && |p.data.value| == |data.value|
      && forall i :: 0 <= i < |data.value| ==>
        && p.data.value[i].cls == data.value[i].cls
        && p.data.value[i].vals == if sel == AllClasses || data.value[i].cls == sel then Strip(data.value[i].vals, en) else data.value[i].vals
  {
    match data
    case None => Preview(None, None)
    case Some(report) =>
      var after := seq(|report|, i requires 0 <= i < |report| =>
        if sel == AllClasses || report[i].cls == sel then Entry(report[i].cls, Strip(report[i].vals, en)) else report[i]);
      Preview(FilteredReport(data, sel, en), Some(after))
  }

  const PrecisionOff: Enabled := Enabled(false, true, true)

  /** As written, switching precision off and on again does not bring it back: the
      second preview shows no precision for a class that had one. */
  lemma ToggleLosesMetric(report: Report, i: nat)
    requires i < |report| && report[i].vals.JObj? && "precision" in report[i].vals.fields
    ensures var off := FilteredReportAsWritten(Some(report), AllClasses, PrecisionOff);
      var on := FilteredReportAsWritten(off.data, AllClasses, AllOn);
      "precision" !in on.view.value[i].vals.fields
  {
    var off := FilteredReportAsWritten(Some(report), AllClasses, PrecisionOff);
    var vals := off.data.value[i].vals;
    assert vals == Strip(report[i].vals, PrecisionOff);
    assert "precision" !in vals.fields;
    StripAllOn(vals);
    var on := FilteredReportAsWritten(off.data, AllClasses, AllOn);
    assert on.view.value[i].vals == Strip(vals, AllOn);
  }

  /** Class "0" with precision 0.9: after the switch goes off and on, its preview is
      an empty object and its exported precision is empty. */
  lemma ToggleLosesMetricExample(show: real -> string)
    ensures var report := [Entry("0", JObj(map["precision" := JNum(0.9)]))];
      var off := FilteredReportAsWritten(Some(report), AllClasses, PrecisionOff);
      var on := FilteredReportAsWritten(off.data, AllClasses, AllOn);
      && on.view == Some([Entry("0", JObj(map[]))])
      && Rows(off.data.value, show) == [["0", "", "", ""]]
  {
    var report := [Entry("0", JObj(map["precision" := JNum(0.9)]))];
    var off := FilteredReportAsWritten(Some(report), AllClasses, PrecisionOff);
    assert off.data.value[0].vals.fields == map[];
    assert off.data.value == [Entry("0", JObj(map[]))];
    assert RowFields(off.data.value[0], show) == ["0", "", "", ""];
    var on := FilteredReportAsWritten(off.data, AllClasses, AllOn);
    StripAllOn(off.data.value[0].vals);
    assert on.view.value == [Entry("0", JObj(map[]))];
  }

  /** The corrected preview never touches the data, so switching a metric back on
      shows the report as it was, whatever was switched off before. */
  lemma ToggleRestoresMetric(report: Report, en: Enabled)
    ensures var off := FilteredReport(Some(report), AllClasses, en);
      off.Some? && FilteredReport(Some(report), AllClasses, AllOn) == Some(report)
  {
    FilteredAllOn(report);
  }

  // ---------------------------------------------------------------------------
  // The CSV export

  const CsvHeader: seq<string> := ["Class", "Precision", "Recall", "F1 Score"]

  /** A value as `Array.prototype.join` writes it: null and undefined as empty text,
      numbers through `show` (`String(n)`), arrays joined by commas, objects as
      "[object Object]". */
  function CellText(j: Json, show: real -> string): string
    decreases j
  {
    match j
    case JNull => ""
    case JUndefined => ""
    case JBool(b) => if b then "true" else "false"
    case JNum(n) => show(n)
    case JStr(s) => s
    case JArr(items) => Join(seq(|items|, i requires 0 <= i < |items| => CellText(items[i], show)), ',')
    case JObj(_) => "[object Object]"
  }

  /** The four fields of an entry's row: its class and three of its metrics. */
  function RowFields(e: Entry, show: real -> string): (fs: seq<string>)
    ensures |fs| == |CsvHeader| && fs[0] == e.cls
  {
    [e.cls, CellText(Prop(e.vals, "precision"), show), CellText(Prop(e.vals, "recall"), show), CellText(Prop(e.vals, "f1-score"), show)]
  }

  function Rows(report: Report, show: real -> string): (rs: seq<seq<string>>)
    ensures |rs| == |report|
    ensures forall i :: 0 <= i < |rs| ==> rs[i] == RowFields(report[i], show)
  {
    seq(|report|, i requires 0 <= i < |report| => RowFields(report[i], show))
  }

  function Lines(report: Report, show: real -> string): (ls: seq<string>)
    ensures |ls| == |report| + 1
    ensures ls[0] == Join(CsvHeader, ',')
    ensures forall i :: 0 <= i < |report| ==> ls[i + 1] == Join(RowFields(report[i], show), ',')
  {
    [Join(CsvHeader, ',')] + seq(|report|, i requires 0 <= i < |report| => Join(RowFields(report[i], show), ','))
  }

  /** Reading `vals.precision` throws on a null or undefined entry. */
  predicate Unreadable(j: Json) {
    j.JNull? || j.JUndefined?
  }

  /** `exportCSV()`: nothing without data or when an entry's values cannot be read;
      otherwise the header line and one line per entry, joined by newlines. */
  function ExportCsv(data: Option<Report>, show: real -> string): (csv: Option<string>)
    ensures csv.None? <==> data.None? || exists i :: 0 <= i < |data.value| && Unreadable(data.value[i].vals)
  {
    match data
    case None => None
    case Some(report) =>
      if exists i :: 0 <= i < |report| && Unreadable(report[i].vals) then None
      else Some(Join(Lines(report, show), '\n'))
  }

  /** The "accuracy" entry, a bare number, exports with three empty metric fields. */
  lemma NumberEntryRow(cls: string, n: real, show: real -> string)
    ensures RowFields(Entry(cls, JNum(n)), show) == [cls, "", "", ""]
  {
  }

  /** A class whose three metrics are numbers exports them through `show`. */
  lemma ClassEntryRow(cls: string, p: real, r: real, f: real, show: real -> string)
    ensures var vals := JObj(map["precision" := JNum(p), "recall" := JNum(r), "f1-score" := JNum(f)]);
      RowFields(Entry(cls, vals), show) == [cls, show(p), show(r), show(f)]
  {
  }

  /** A row whose fields hold no comma or newline. */
  predicate PlainRow(fs: seq<string>) {
    Free(fs, ',') && Free(fs, '\n')
  }

  /** When no field holds a comma or newline, the export reads back as the header and
      one line per entry, in order, each splitting into its four fields. */
  lemma CsvReadsBack(report: Report, show: real -> string, i: nat)
    requires i < |report|
    requires forall j :: 0 <= j < |report| ==> !Unreadable(report[j].vals) && PlainRow(RowFields(report[j], show))
    ensures var lines := Split(ExportCsv(Some(report), show).value, '\n');
      && |lines| == |report| + 1
      && Split(lines[0], ',') == CsvHeader
      && Split(lines[i + 1], ',') == RowFields(report[i], show)
  {
    var lines := Lines(report, show);
    assert ExportCsv(Some(report), show).value == Join(lines, '\n');
    LinesPlain(report, show);
    SplitJoin(lines, '\n');
    CsvHeaderPlain();
    SplitJoin(CsvHeader, ',');
    SplitJoin(RowFields(report[i], show), ',');
  }

  /** No line of a plain export holds a newline. */
  lemma LinesPlain(report: Report, show: real -> string)
    requires forall j :: 0 <= j < |report| ==> PlainRow(RowFields(report[j], show))
    ensures Free(Lines(report, show), '\n')
  {
    var lines := Lines(report, show);
    CsvHeaderPlain();
    forall k | 0 <= k < |lines|
      ensures '\n' !in lines[k]
    {
      if k > 0 {
        JoinKeepsOut(RowFields(report[k - 1], show), ',', '\n');
      }
    }
  }

  lemma CsvHeaderPlain()
    ensures Free(CsvHeader, ',') && '\n' !in Join(CsvHeader, ',')
  {
    forall k | 0 <= k < |CsvHeader|
      ensures ',' !in CsvHeader[k] && '\n' !in CsvHeader[k]
    {
    }
    JoinKeepsOut(CsvHeader, ',', '\n');
  }

  // ---------------------------------------------------------------------------
  // Confusion-matrix cells

  type Matrix = seq<seq<real>>

  /** The page's matrix before any data arrives: three rows of three zeros. */
  const InitialMatrix: Matrix := [[0.0, 0.0, 0.0], [0.0, 0.0, 0.0], [0.0, 0.0, 0.0]]

  /** `m.flat()`: the rows one after the other. */
  function Flat(m: Matrix): (f: seq<real>)
    ensures |m| > 0 && |m[0]| > 0 ==> |f| > 0
  {
    if |m| == 0 then [] else m[0] + Flat(m[1..])
  }

  /** Every cell is in the flattened matrix. */
  lemma {:induction false} CellInFlat(m: Matrix, i: nat, j: nat)
    requires i < |m| && j < |m[i]|
    ensures m[i][j] in Flat(m)
  {
    if i > 0 {
      CellInFlat(m[1..], i - 1, j);
    }
  }

  /** The flattened matrix holds only the matrix's cells. */
  lemma {:induction false} FlatHoldsCells(m: Matrix, x: real)
    requires x in Flat(m)
    ensures exists i, j :: 0 <= i < |m| && 0 <= j < |m[i]| && m[i][j] == x
  {
    if x !in m[0] {
      FlatHoldsCells(m[1..], x);
      var i, j :| 0 <= i < |m[1..]| && 0 <= j < |m[1..][i]| && m[1..][i][j] == x;
      assert m[i + 1][j] == x;
    }
  }

  /** `Math.round`: to the nearest integer, halves upward. */
  function Round(x: real): (n: int)
    ensures n as real - 0.5 <= x < n as real + 0.5
  {
    (x + 0.5).Floor
  }

  /** `flatMatrix.length > 0 ? Math.max(...flatMatrix) : 1`. */
  function MaxVal(m: Matrix): (v: real)
    ensures |Flat(m)| > 0 ==> v == SeqMax(Flat(m))
    ensures |Flat(m)| == 0 ==> v == 1.0
  {
    var f := Flat(m);
    if |f| > 0 then SeqMax(f) else 1.0
  }

  /** A cell's intensity as written: `Math.round(value / maxVal * 100)`, which is not a
      finite number (`None`) when the largest cell is 0, as 0 / 0 is NaN. */
  function IntensityAsWritten(m: Matrix, i: nat, j: nat): (r: Option<int>)
    requires i < |m| && j < |m[i]|
    ensures r.None? <==> MaxVal(m) == 0.0
    ensures r.Some? ==> r.value == Round(m[i][j] / MaxVal(m) * 100.0)
  {
    var max := MaxVal(m);
    if max == 0.0 then None else Some(Round(m[i][j] / max * 100.0))
  }

  /** White text above 60; a NaN intensity compares false and keeps the default. */
  predicate WhiteText(intensity: Option<int>) {
    intensity.Some? && intensity.value > 60
  }

  /** As written, on a matrix of zeros, such as the one shown before the data arrives,
      every cell's intensity is NaN. */
  lemma ZeroMatrixIsNaN(m: Matrix, i: nat, j: nat)
    requires i < |m| && j < |m[i]|
    requires forall a, b :: 0 <= a < |m| && 0 <= b < |m[a]| ==> m[a][b] == 0.0
    ensures IntensityAsWritten(m, i, j).None? && !WhiteText(IntensityAsWritten(m, i, j))
  {
    var f := Flat(m);
    CellInFlat(m, i, j);
    assert SeqMax(f) in f;
    FlatHoldsCells(m, SeqMax(f));
  }

  lemma InitialMatrixIsNaN()
    ensures forall i, j :: 0 <= i < 3 && 0 <= j < 3 ==> IntensityAsWritten(InitialMatrix, i, j).None?
  {
    forall i, j | 0 <= i < 3 && 0 <= j < 3
      ensures IntensityAsWritten(InitialMatrix, i, j).None?
    {
      ZeroMatrixIsNaN(InitialMatrix, i, j);
    }
  }

  /** The corrected intensity divides by the largest cell, or by 1 when that is 0. */
  function Intensity(m: Matrix, i: nat, j: nat): (n: int)
    requires i < |m| && j < |m[i]|
    ensures MaxVal(m) != 0.0 ==> Some(n) == IntensityAsWritten(m, i, j)
  {
    var max := MaxVal(m);
    Round(m[i][j] / (if max == 0.0 then 1.0 else max) * 100.0)
  }

  /** With non-negative cells every intensity is between 0 and 100, the largest cell is
      at 100 when it is positive, and a matrix of zeros is at 0 throughout. */
  lemma IntensityBounded(m: Matrix, i: nat, j: nat)
    requires i < |m| && j < |m[i]|
    requires forall a, b :: 0 <= a < |m| && 0 <= b < |m[a]| ==> m[a][b] >= 0.0
    ensures 0 <= Intensity(m, i, j) <= 100
    ensures m[i][j] == MaxVal(m) && m[i][j] > 0.0 ==> Intensity(m, i, j) == 100
    ensures MaxVal(m) == 0.0 ==> Intensity(m, i, j) == 0
  {
    var f := Flat(m);
    CellInFlat(m, i, j);
    var max := SeqMax(f);
    assert max in f;
    FlatHoldsCells(m, max);
    if max == 0.0 {
      assert m[i][j] == 0.0;
    } else {
      FractionAtMostOne(m[i][j], max);
    }
  }

  /** The text turns white exactly above 60, and for the largest positive cell. */
  lemma WhiteOnLargest(m: Matrix, i: nat, j: nat)
    requires i < |m| && j < |m[i]|
    requires forall a, b :: 0 <= a < |m| && 0 <= b < |m[a]| ==> m[a][b] >= 0.0
    requires m[i][j] == MaxVal(m) && m[i][j] > 0.0
    ensures WhiteText(Some(Intensity(m, i, j)))
  {
    IntensityBounded(m, i, j);
  }
}

=== FILE: text.dfy ===
/** String helpers the source takes from its runtime: ASCII case folding, substring
    search, `join`/`split` on one separator character, and decimal rendering of numbers. */
module Text {
  import opened Wrappers

  /** `toLowerCase` / `lower` restricted to ASCII letters; every other character is kept. */
  function LowerChar(c: char): char {
    if 'A' <= c <= 'Z' then (c as int - 'A' as int + 'a' as int) as char else c
  }

  function Lower(s: string): (r: string)
    ensures |r| == |s|
    ensures forall i :: 0 <= i < |s| ==> r[i] == LowerChar(s[i])
  {
    if |s| == 0 then "" else [LowerChar(s[0])] + Lower(s[1..])
  }

  /** `toUpperCase` restricted to ASCII letters, like `Lower`. */
  function UpperChar(c: char): char {
    if 'a' <= c <= 'z' then (c as int - 'a' as int + 'A' as int) as char else c
  }

  function Upper(s: string): (r: string)
    ensures |r| == |s|
    ensures forall i :: 0 <= i < |s| ==> r[i] == UpperChar(s[i])
  {
    if |s| == 0 then "" else [UpperChar(s[0])] + Upper(s[1..])
  }

  /** Upper-casing keeps a text the same up to case: both lower-case alike. */
  lemma LowerUpper(s: string)
    ensures Lower(Upper(s)) == Lower(s)
  {
    var a, b := Lower(Upper(s)), Lower(s);
    forall i | 0 <= i < |s|
      ensures a[i] == b[i]
    {
      var c := s[i];
      if 'a' <= c <= 'z' {
        assert UpperChar(c) as int == c as int - 32;
      }
    }
  }

  /** `hay.includes(needle)`: some contiguous slice of `hay` equals `needle`. */
  predicate Contains(hay: string, needle: string)
    decreases |hay|
  {
    if needle <= hay then true
    else if |hay| == 0 then false
    else Contains(hay[1..], needle)
  }

  /** `needle` occurs in `hay` starting at position `i`. */
  predicate OccursAt(hay: string, needle: string, i: int) {
    0 <= i && i + |needle| <= |hay| && hay[i..i + |needle|] == needle
  }

  /** The recursive search agrees with the declarative definition of a substring. */
  lemma {:induction false} ContainsIffOccurs(hay: string, needle: string)
    ensures Contains(hay, needle) <==> exists i :: OccursAt(hay, needle, i)
    decreases |hay|
  {
    if needle <= hay {
      assert OccursAt(hay, needle, 0);
    } else if |hay| == 0 {
    } else {
      ContainsIffOccurs(hay[1..], needle);
      if Contains(hay[1..], needle) {
        var i :| OccursAt(hay[1..], needle, i);
        assert hay[i + 1..i + 1 + |needle|] == hay[1..][i..i + |needle|];
        assert OccursAt(hay, needle, i + 1);
      }
      if exists i :: OccursAt(hay, needle, i) {
        var i :| OccursAt(hay, needle, i);
        if i > 0 {
          assert hay[1..][i - 1..i - 1 + |needle|] == hay[i..i + |needle|];
          assert OccursAt(hay[1..], needle, i - 1);
        }
      }
    }
  }

  /** Index of the first `c` in `s`, or `|s|` when `c` does not occur. */
  function IndexOf(s: string, c: char): (i: nat)
    ensures i <= |s|
    ensures i < |s| ==> s[i] == c
    ensures forall j :: 0 <= j < i ==> s[j] != c
    ensures i == |s| <==> c !in s
  {
    if |s| == 0 then 0 else if s[0] == c then 0 else 1 + IndexOf(s[1..], c)
  }

  /** `sep.join(parts)`; the empty list joins to the empty string. */
  function JoinWith(parts: seq<string>, sep: string): (r: string)
    ensures |parts| > 0 ==> |r| >= |parts[0]| && r[..|parts[0]|] == parts[0]
  {
    if |parts| == 0 then ""
    else if |parts| == 1 then parts[0]
    else parts[0] + sep + JoinWith(parts[1..], sep)
  }

  /** Joining with a one-character separator. */
  function Join(parts: seq<string>, sep: char): string {
    JoinWith(parts, [sep])
  }

  /** Joining texts that lack a character, with a separator that is not it, gives a text
      that lacks it too. */
  lemma {:induction false} JoinKeepsOut(parts: seq<string>, sep: char, c: char)
    requires sep != c
    requires forall k :: 0 <= k < |parts| ==> c !in parts[k]
    ensures c !in Join(parts, sep)
  {
    if |parts| > 1 {
      JoinKeepsOut(parts[1..], sep, c);
      assert Join(parts, sep) == parts[0] + [sep] + Join(parts[1..], sep);
    }
  }

  /** `s.split(sep)`: the pieces between occurrences of `sep`. */
  function Split(s: string, sep: char): (r: seq<string>)
    ensures |r| >= 1
    decreases |s|
  {
    var i := IndexOf(s, sep);
    if i == |s| then [s] else [s[..i]] + Split(s[i + 1..], sep)
  }

  predicate Free(parts: seq<string>, sep: char) {
    forall k :: 0 <= k < |parts| ==> sep !in parts[k]
  }

  /** Splitting a joined list gives the list back when no part holds the separator. */
  lemma {:induction false} SplitJoin(parts: seq<string>, sep: char)
    requires |parts| >= 1
    requires Free(parts, sep)
    ensures Split(Join(parts, sep), sep) == parts
    decreases |parts|
  {
    if |parts| > 1 {
      var s := Join(parts, sep);
      var p := parts[0];
      assert s == p + [sep] + Join(parts[1..], sep);
      IndexOfPrefix(p, sep, Join(parts[1..], sep));
      assert s[..|p|] == p;
      assert s[|p| + 1..] == Join(parts[1..], sep);
      SplitJoin(parts[1..], sep);
      assert parts == [p] + parts[1..];
    }
  }

  lemma IndexOfPrefix(p: string, sep: char, rest: string)
    requires sep !in p
    ensures IndexOf(p + [sep] + rest, sep) == |p|
  {
    var s := p + [sep] + rest;
    assert s[|p|] == sep;
    assert forall j :: 0 <= j < |p| ==> s[j] == p[j];
  }

  function Pow10(d: nat): (r: nat)
    ensures r >= 1
  {
    if d == 0 then 1 else 10 * Pow10(d - 1)
  }

  function DigitChar(d: nat): char
    requires d < 10
  {
    "0123456789"[d]
  }

  /** Decimal digits of `n`, without leading zeros. */
  function NatToString(n: nat): (r: string)
    ensures |r| >= 1
  {
    if n < 10 then [DigitChar(n)] else NatToString(n / 10) + [DigitChar(n % 10)]
  }

  predicate IsDigit(c: char) {
    '0' <= c <= '9'
  }

  /** Python's `int(s)` on an unsigned decimal numeral; `None` is the ValueError. */
  function ParseNat(s: string): (r: Option<nat>)
    ensures r.Some? <==> |s| > 0 && forall i :: 0 <= i < |s| ==> IsDigit(s[i])
  {
    if |s| == 0 || !IsDigit(s[|s| - 1]) then None
    else
      var d := s[|s| - 1] as int - '0' as int;
      if |s| == 1 then Some(d)
      else
        match ParseNat(s[..|s| - 1])
        case None => None
        case Some(p) => Some(p * 10 + d)
  }

  /** Reading back a printed natural number gives the number. */
  lemma {:induction false} ParseNatToString(n: nat)
    ensures ParseNat(NatToString(n)) == Some(n)
  {
    var s := NatToString(n);
    DigitCharValue(n % 10);
    if n >= 10 {
      ParseNatToString(n / 10);
      assert s[..|s| - 1] == NatToString(n / 10);
    }
  }

  /** Different numbers have different numerals. */
  lemma NatToStringInjective(a: nat, b: nat)
    requires NatToString(a) == NatToString(b)
    ensures a == b
  {
    ParseNatToString(a);
    ParseNatToString(b);
  }

  lemma DigitCharValue(d: nat)
    requires d < 10
    ensures IsDigit(DigitChar(d)) && DigitChar(d) as int - '0' as int == d
  {
  }

  /** Python's `int(s)` on an optionally signed decimal numeral. */
  function ParseInt(s: string): Option<int>
  {
    if |s| > 0 && (s[0] == '-' || s[0] == '+') then
      match ParseNat(s[1..])
      case None => None
      case Some(n) => Some(if s[0] == '-' then -(n as int) else n as int)
    else
      match ParseNat(s)
      case None => None
      case Some(n) => Some(n)
  }

  function IntToString(i: int): (r: string)
    ensures |r| >= 1
  {
    if i < 0 then "-" + NatToString(-i) else NatToString(i)
  }

  /** `s` left-padded with '0' to at least `width` characters. */
  function PadZeros(s: string, width: nat): (r: string)
    ensures |r| >= width && |r| >= |s|
    decreases width - |s|
  {
    if |s| >= width then s else PadZeros("0" + s, width)
  }

  /** The integer `Number.prototype.toFixed(digits)` rounds `|x| * 10^digits` to:
      the nearer integer, and the larger one on a tie. */
  function FixedUnits(x: real, digits: nat): (u: nat)
    ensures (u as real) - 1.0 / 2.0 <= Abs(x) * Pow10(digits) as real < (u as real) + 1.0 / 2.0
  {
    var scaled := Abs(x) * Pow10(digits) as real;
    var f := (scaled + 1.0 / 2.0).Floor;
    assert f >= 0;
    f
  }

  function Abs(x: real): (r: real)
    ensures r >= 0.0 && (r == x || r == -x)
  {
    if x < 0.0 then -x else x
  }

  /** The number `x.toFixed(digits)` denotes: `x` rounded half away from zero. */
  function FixedValue(x: real, digits: nat): real {
    var v := FixedUnits(x, digits) as real / Pow10(digits) as real;
    if x < 0.0 then -v else v
  }

  /** The rounded value lies within half a unit of the last place of `x`. */
  lemma FixedValueClose(x: real, digits: nat)
    ensures Abs(FixedValue(x, digits) - x) <= 1.0 / (2 * Pow10(digits)) as real
  {
    var p := Pow10(digits) as real;
    var u := FixedUnits(x, digits) as real;
    var a := Abs(x);
    DivSub(u, a, p);
    DivBound(u - a * p, p);
    assert (2 * Pow10(digits)) as real == 2.0 * p;
    SignedClose(x, a, u / p, FixedValue(x, digits), 1.0 / (2.0 * p));
  }

  /** `v` is `|x|` to within `bound`, and `w` is `v` carrying the sign of `x`, so `w` is
      `x` to within `bound`. */
  lemma SignedClose(x: real, a: real, v: real, w: real, bound: real)
    requires a == Abs(x) && -bound <= v - a <= bound
    requires w == if x < 0.0 then -v else v
    ensures Abs(w - x) <= bound
  {
  }

  lemma DivBound(d: real, p: real)
    requires p >= 1.0
    requires -1.0 / 2.0 <= d <= 1.0 / 2.0
    ensures -(1.0 / (2.0 * p)) <= d / p <= 1.0 / (2.0 * p)
  {
    assert d / p == d * (1.0 / p);
    assert 1.0 / (2.0 * p) == (1.0 / 2.0) * (1.0 / p);
  }

  /** The text of `x.toFixed(digits)`: a '-' when `x` is negative, the integer part, and
      for `digits > 0` a '.' followed by exactly `digits` decimals. */
  function FixedText(x: real, digits: nat): (r: string)
    ensures |r| >= 1
  {
    var body := UnitsText(FixedUnits(x, digits), digits);
    if x < 0.0 then "-" + body else body
  }

  function DivNat(u: nat, p: nat): (q: nat)
    requires p >= 1
    ensures q * p <= u
  {
    if u < p then 0 else 1 + DivNat(u - p, p)
  }

  /** `u` units of `10^-digits` written as a decimal numeral with `digits` decimals. */
  function UnitsText(u: nat, digits: nat): (r: string)
    ensures |r| >= 1
  {
    if digits == 0 then NatToString(u)
    else
      var p := Pow10(digits);
      var whole: nat := DivNat(u, p);
      var frac: nat := u - whole * p;
      NatToString(whole) + "." + PadZeros(NatToString(frac), digits)
  }

  /** `|x|` in units of `10^-digits`. */
  function Scaled(x: real, digits: nat): real {
    Abs(x) * Pow10(digits) as real
  }

  /** The integer Python's `round(x, digits)` and `format(x, ".<digits>f")` round
      `|x| * 10^digits` to: the nearer integer, and the even one on a tie. */
  function EvenUnits(x: real, digits: nat): (u: nat)
    ensures (u as real) - 1.0 / 2.0 <= Scaled(x, digits) <= (u as real) + 1.0 / 2.0
    ensures Scaled(x, digits) == (u as real) - 1.0 / 2.0 ==> u % 2 == 0
    ensures Scaled(x, digits) == (u as real) + 1.0 / 2.0 ==> u % 2 == 0
  {
    var scaled := Scaled(x, digits);
    var f := scaled.Floor;
    assert f >= 0;
    var frac := scaled - f as real;
    if frac < 1.0 / 2.0 then f
    else if frac > 1.0 / 2.0 then f + 1
    else if f % 2 == 0 then f
    else f + 1
  }

  /** `u` units of `10^-digits` as a number. */
  function Unscaled(u: int, digits: nat): real {
    u as real / Pow10(digits) as real
  }

  /** The number `round(x, digits)` denotes. */
  function RoundHalfEven(x: real, digits: nat): (y: real)
    ensures x >= 0.0 ==> y >= 0.0
  {
    var v := Unscaled(EvenUnits(x, digits), digits);
    if x < 0.0 then -v else v
  }

  /** Rounding moves a value by at most half a unit of the last kept place. */
  lemma RoundHalfEvenClose(x: real, digits: nat)
    ensures Abs(RoundHalfEven(x, digits) - x) <= 1.0 / (2 * Pow10(digits)) as real
  {
    var u := EvenUnits(x, digits);
    UnscaledClose(u, x, digits);
    var e := Unscaled(u, digits) - Abs(x);
    assert RoundHalfEven(x, digits) - x == if x < 0.0 then -e else e;
  }

  /** Units within half a unit of `|x| * 10^digits` denote a number within half a unit
      of the last place of `|x|`. */
  lemma UnscaledClose(u: int, x: real, digits: nat)
    requires -1.0 / 2.0 <= u as real - Scaled(x, digits) <= 1.0 / 2.0
    ensures -(1.0 / (2 * Pow10(digits)) as real) <= Unscaled(u, digits) - Abs(x) <= 1.0 / (2 * Pow10(digits)) as real
  {
    var p := Pow10(digits) as real;
    var a := Abs(x);
    DivBound(u as real - a * p, p);
    DivSub(u as real, a, p);
    assert (2 * Pow10(digits)) as real == 2.0 * p;
  }

  lemma DivSub(u: real, a: real, p: real)
    requires p >= 1.0
    ensures (u - a * p) / p == u / p - a
  {
  }

  lemma UnscaledNeg(u: int, digits: nat)
    ensures Unscaled(-u, digits) == -Unscaled(u, digits)
  {
  }

  /** A value already on the grid of `digits` places is left as it is. */
  lemma RoundHalfEvenKeepsGrid(n: int, digits: nat)
    ensures RoundHalfEven(Unscaled(n, digits), digits) == Unscaled(n, digits)
  {
    var x := Unscaled(n, digits);
    var m: nat := if n < 0 then -n else n;
    GridScaled(n, m, digits);
    assert EvenUnits(x, digits) == m;
    UnscaledNeg(m, digits);
  }

  lemma GridScaled(n: int, m: nat, digits: nat)
    requires m == if n < 0 then -n else n
    ensures Scaled(Unscaled(n, digits), digits) == m as real
    ensures Unscaled(n, digits) < 0.0 <==> n < 0
  {
    var p := Pow10(digits) as real;
    assert Abs(n as real / p) == m as real / p;
  }

  /** Rounding to three places moves a value by at most half a thousandth. */
  lemma RoundThousandthsClose(x: real)
    ensures Abs(RoundHalfEven(x, 3) - x) <= 1.0 / 2000.0
  {
    assert Pow10(3) == 1000 by {
      assert Pow10(1) == 10;
      assert Pow10(2) == 100;
    }
    RoundHalfEvenClose(x, 3);
  }

  /** Rounding twice to the same place is rounding once. */
  lemma RoundHalfEvenIdempotent(x: real, digits: nat)
    ensures RoundHalfEven(RoundHalfEven(x, digits), digits) == RoundHalfEven(x, digits)
  {
    var u: int := EvenUnits(x, digits);
    var n: int := if x < 0.0 then -u else u;
    UnscaledNeg(u, digits);
    assert RoundHalfEven(x, digits) == Unscaled(n, digits);
    RoundHalfEvenKeepsGrid(n, digits);
  }

  /** The text of Python's `format(x, ".<digits>f")`: like `FixedText`, but a tie
      rounds to the even neighbour. */
  function PyFixedText(x: real, digits: nat): (r: string)
    ensures |r| >= 1
  {
    var body := UnitsText(EvenUnits(x, digits), digits);
    if x < 0.0 then "-" + body else body
  }

  /** A numeral with decimals has a decimal point. */
  lemma UnitsTextHasPoint(u: nat, digits: nat)
    requires digits > 0
    ensures '.' in UnitsText(u, digits)
  {
    var p := Pow10(digits);
    var whole: nat := DivNat(u, p);
    assert UnitsText(u, digits)[|NatToString(whole)|] == '.';
  }

  /** `x.toFixed(digits)` with decimals has a decimal point. */
  lemma FixedTextHasPoint(x: real, digits: nat)
    requires digits > 0
    ensures '.' in FixedText(x, digits)
  {
    var body := UnitsText(FixedUnits(x, digits), digits);
    UnitsTextHasPoint(FixedUnits(x, digits), digits);
    var k :| 0 <= k < |body| && body[k] == '.';
    if x < 0.0 {
      assert FixedText(x, digits)[k + 1] == '.';
    } else {
      assert FixedText(x, digits)[k] == '.';
    }
  }

  /** Dropping a prefix gives back the rest. */
  lemma DropPrefix(p: string, s: string)
    ensures (p + s)[|p|..] == s
  {
  }

  /** A character a written number may hold: a digit, a sign or a decimal point. */
  predicate NumeralChar(c: char) {
    IsDigit(c) || c == '-' || c == '.'
  }

  predicate Numeral(s: string) {
    forall i :: 0 <= i < |s| ==> NumeralChar(s[i])
  }

  lemma {:induction false} NatToStringNumeral(n: nat)
    ensures Numeral(NatToString(n))
  {
    if n >= 10 {
      NatToStringNumeral(n / 10);
    }
  }

  lemma IntToStringNumeral(i: int)
    ensures Numeral(IntToString(i))
  {
    NatToStringNumeral(if i < 0 then -i else i);
  }

  lemma {:induction false} PadZerosNumeral(s: string, width: nat)
    requires Numeral(s)
    ensures Numeral(PadZeros(s, width))
    decreases width - |s|
  {
    if |s| < width {
      PadZerosNumeral("0" + s, width);
    }
  }

  /** `toFixed` text holds only digits, a sign and a decimal point. */
  lemma FixedTextNumeral(x: real, digits: nat)
    ensures Numeral(FixedText(x, digits))
  {
    var u := FixedUnits(x, digits);
    if digits == 0 {
      NatToStringNumeral(u);
    } else {
      var p := Pow10(digits);
      var whole: nat := DivNat(u, p);
      var frac: nat := u - whole * p;
      NatToStringNumeral(whole);
      NatToStringNumeral(frac);
      PadZerosNumeral(NatToString(frac), digits);
    }
  }

  /** A numeral holds no separator a CSV line or file uses. */
  lemma NumeralHasNoSeparator(s: string)
    requires Numeral(s)
    ensures ',' !in s && '\n' !in s && '%' !in s
  {
  }
}

=== FILE: wrappers.dfy ===
/** Optional values and error-carrying results, shared by every module of the model.
    `None` stands for Python's `None` / JavaScript's `undefined` where a value may be
    missing; `Err` stands for an exception the source would raise. */
module Wrappers {

  datatype Option<+T> = None | Some(value: T) {
    /** The wrapped value, or `default` when there is none (`x ?? d` in TypeScript). */
    function GetOr(default: T): T {
      match this
      case Some(v) => v
      case None => default
    }
  }

  datatype Result<+T, +E> = Ok(value: T) | Err(error: E)

  /** The Python exceptions the service code can raise on its own data. */
  datatype PyError =
    | KeyError(key: string)      // `d[key]` with the key absent
    | IndexError                 // a list index out of range
    | ValueError(text: string)   // `int(text)`, `float(text)`, `max([])`, a bad format spec
    | TypeError                  // an operation on a value of the wrong type
    | AttributeError             // `.get` / `.lower` on a value that has no such method
}
